=== FILE: README.md ===
# Proverb indexer, search and quiz rules in Dafny

This project models the core of a Ukrainian-proverbs Telegram bot and its
corpus indexer. It has four parts:

- **The indexer** (`processing.py`). It splits a proverb's description on
  the synonym marker `" Синонім. "`. It inserts one proverb row per synonym
  plus one for the parent. Each row is indexed twice:
  - the lemma index: one `lemmas_usage` row per distinct `(lemma, POS)`
    pair, with its frequency;
  - the word index: one `word` row per distinct lower-cased word, where
    verbs carry five grammemes.
- **The filter engine** (`search.py`). A filter picks one of three queries
  by precedence: lemma, then first letter, then substring. A search
  returns one page of five DISTINCT rows. The lemma listing returns
  sorted, distinct lemma values.
- **The bot's rules** (`telegrambot.py`):
  - the category keyboard, seven categories per page;
  - the meaning quiz: decoys, labels and the pool of unasked proverbs;
  - the verb quiz: decoy candidates and the four options;
  - `generate_groups` and `compare_strings`;
  - search result paging: five per page, grouped by category.
- **Argument normalisation** (`db.py`). `update_args` turns `None` into
  the text `'None'`. `insert` and `select_all` apply it; `select_one`
  does not.

The model is pure. The database is a `Store` value holding the five tables
in insertion order, and a row's id is its position plus one (its SQLite
rowid). Every operation is a function from a store to a new store or to a
result. Python exceptions become `Failure(TypeError)`, `Failure(ValueError)`,
`Failure(IndexError)` or `Failure(OperationalError)`. Each call into
Python's `random` module reads its own explicit stream of numbers. Every
property is proved for every stream, so it holds whatever the random
choices are.

Modules, one per file:

- `wrappers`: `Option` and `Result`;
- `seqs`: sequence helpers (DISTINCT, flattening, multisets);
- `text`: case mapping, word characters, `find`, `split`, `join` and
  code-point order;
- `randomness`: `choice`, `shuffle`, `sample` and `ORDER BY RANDOM() LIMIT n`;
- `db`: `db.py`;
- `store`: the tables;
- `processing`: `processing.py`;
- `sqllike`: SQLite `LIKE`;
- `search`: `search.py`;
- `quiz` and `paging`: `telegrambot.py`.

## Model

| member | source | states |
|---|---|---|
| Db.UpdateArgs | db.py:35-43 | The normalised arguments keep their count and order. Every `None` becomes the text `'None'` and every other argument is unchanged, so no `None` is left. |
| Db.UpdateArgsIdempotent | db.py:35-43 | Normalising already-normalised arguments changes nothing. |
| Db.NormalisedParams | db.py:22-33 | `insert` and `select_all` never bind NULL. A `None` argument is bound as the text 'None', and every other argument as itself. |
| Db.SelectOneParams | db.py:27-29 | `select_one` passes its arguments raw. A parameter is NULL exactly when its argument was `None`. |
| Db.Fetch | db.py:27-33 | A value read back from a row binds to that same stored value again. |
| Db.StoredValueMatchesItsReadBack | db.py:22-33 | A value written by `insert`, read back, and bound again by `select_all` compares equal in SQL to what was stored. This also holds when the original value was `None`. |
| Db.RawNoneMatchesNothing | db.py:27-29 | A `None` passed to `select_one` is NULL, and `= NULL` matches no value. |
| Db.LimitOffset | search.py:28-29 | `LIMIT n OFFSET k` yields the rows from position k on, and at most n of them. |
| Store.FindLemma | processing.py:54-56 | The lemma lookup returns the id of the first row with that value. It returns nothing exactly when no row has the value. |
| Store.ExtendsTransitive | processing.py:97-103 | Append-only growth of the tables composes across successive inserts. |
| Processing.LemmasOfProvenance | processing.py:17-25 | Each pair from `get_lemmas` is the normal form and POS of some token that the analyzer gave a part of speech. |
| Processing.LemmasOfComplete | processing.py:17-25 | Each token with a part of speech contributes its pair to the result of `get_lemmas`. |
| Processing.WordsOfSound | processing.py:28-44 | Each tuple from `get_words` comes from one token and holds that token lower-cased. It is a seven-field verb tuple exactly when the POS is 'VERB'. |
| Processing.WordKeyOfWellFormed | processing.py:33-43 | A single token's tuple comes from that token and is well formed. |
| Processing.RecordLemma | processing.py:50-61 | One loop iteration appends one usage row. A lemma row is added exactly when no row already has that value. The usage row refers to a lemma row holding the pair's normal form. Lemma values stay unique. |
| Processing.ProcessLemmaKeysRecords | processing.py:50-61 | The loop writes one usage row per distinct pair, in order. Each row has the pair's occurrence count, the usage type and the proverb id. |
| Processing.ProcessLemmaKeysLemmaRows | processing.py:54-58 | The loop adds lemma rows only for pairs it processes, and never adds a duplicate lemma value. |
| Processing.ProcessLemmas | processing.py:47-61 | `process_lemmas` touches only the lemma and usage tables. It adds as many usage rows as the text has distinct pairs. |
| Processing.ProcessLemmasIndex | processing.py:47-61 | The distinct pairs are exactly the pairs of the text, without duplicates. Each gets one usage row with its frequency. Lemma rows stay unique by value. |
| Processing.FrequencySumOfRecorded | processing.py:60-61 | The recorded frequencies add up to the total number of occurrences of the recorded pairs. |
| Processing.RecordedFrequenciesPositive | processing.py:60 | The count of a pair that occurs in the list is at least one. |
| Processing.ProcessLemmasFrequenciesPositive | processing.py:47-61 | Every usage row that `process_lemmas` writes has a frequency of at least 1. |
| Processing.ProcessLemmasFrequencySum | processing.py:47-61 | The frequencies written for a text add up to the number of its tokens that have a part of speech. |
| Processing.ProcessLemmasSite | processing.py:61 | Every usage row written carries the given usage type and proverb id. |
| Processing.RecordedSite | processing.py:61 | Recorded usage rows carry their site. |
| Processing.WordRow | processing.py:67-83 | A verb tuple gives the nine-column insert, with a missing grammeme stored as 'None'. Any other tuple gives the four-column insert, with the grammemes left NULL. |
| Processing.ProcessWordKeys | processing.py:67-83 | The loop writes row `k` for tuple `k` and changes no other table. |
| Processing.ProcessWords | processing.py:64-83 | `process_words` adds one word row per distinct tuple and touches no other table. |
| Processing.ProcessWordsRows | processing.py:64-83 | The distinct tuples have no duplicates. Each gets its row, and every row has the shape of its kind. |
| Processing.DistinctWellFormed | processing.py:65-66 | The distinct tuples of a text are all well formed. |
| Processing.StoredKeysShape | processing.py:70-83 | Well-formed tuples give verb rows with all five grammemes and other rows with none. |
| Processing.ProcessWordsSite | processing.py:76-83 | Every word row written carries the given usage type and proverb id. |
| Processing.IndexProverb | processing.py:97-103 | Indexing appends exactly one proverb row, with the given value, description and category, and only appends rows. |
| Processing.IndexProverbUsages | processing.py:97-101 | The value's usage rows come first under 'VALUE', then the description's under 'DESCRIPTION'. All of them point at the new proverb's id. |
| Processing.IndexProverbWords | processing.py:97-103 | The value's word rows come first under 'VALUE', then the description's under 'DESCRIPTION'. All of them point at the new proverb. |
| Processing.PrimaryDescriptionHasNoMarker | processing.py:89-95 | The description passed to the recursive calls has no marker, so the recursion is one level deep. |
| Processing.ProcessProverb | processing.py:86-103 | `process_proverb` leaves the categories alone and only appends rows. It adds one proverb row without a marker, and one per synonym plus the parent with a marker. |
| Processing.ProcessSynonyms | processing.py:94-95 | The synonym loop adds one proverb row per synonym. |
| Processing.ProcessProverbPlain | processing.py:97-98 | Without a marker, exactly the one proverb row is added. |
| Processing.ProcessSynonymsRows | processing.py:94-95 | The synonym rows come in list order. Each carries the shared description and the category. |
| Processing.ProcessProverbRows | processing.py:86-103 | With a marker, the synonym rows come first and the parent row is last. All carry the text before the marker and the current category. |
| Processing.RecordedUsagesValid | processing.py:50-61 | Recorded usage rows for an existing proverb keep a store valid. |
| Processing.ProcessLemmasValid | processing.py:47-61 | `process_lemmas` keeps a store valid: ids resolve, lemma values are unique and frequencies are positive. |
| Processing.AppendedWordsValid | processing.py:67-83 | Well-shaped word rows for an existing proverb keep a store valid. |
| Processing.ProcessWordsValid | processing.py:64-83 | `process_words` keeps a store valid. |
| Processing.IndexProverbValid | processing.py:97-103 | Inserting and indexing a proverb of an existing category keeps a store valid. |
| Processing.ProcessProverbValid | processing.py:86-103 | `process_proverb` keeps a store valid, synonyms included. |
| Processing.ProcessSynonymsValid | processing.py:94-95 | The synonym loop keeps a store valid. |
| Processing.ProcessProverbCategory | processing.py:86-103 | Every row that `process_proverb` adds belongs to the current category. |
| Processing.IngestProverbs | processing.py:110-111 | A category's loop leaves the categories alone and only appends rows. |
| Processing.ProcessEntry | processing.py:110-111 | One data-file entry adds the rows that `process_proverb` adds. |
| Processing.IngestProverbsCount | processing.py:110-111 | A category's proverbs add one row each, plus one per synonym. |
| Processing.IngestProverbsCategory | processing.py:108-111 | Every row of a category's loop carries that category's new id. |
| Processing.IngestProverbsValid | processing.py:110-111 | A category's loop keeps a store valid. |
| Processing.IngestCategory | processing.py:108-111 | A data-file category appends exactly its category row and only appends rows. |
| Processing.Ingest | processing.py:106-111 | The script appends one category row per data-file category, in file order. |
| Processing.CategoryRows | processing.py:107-108 | The category rows are the data file's category names, in order. |
| Processing.IngestCategoryValid | processing.py:107-111 | One category keeps a store valid. |
| Processing.IngestValid | processing.py:106-111 | The whole script keeps a valid store valid. |
| Processing.FreshStoreIngestValid | processing.py:106-111 | Run on an empty database, the script leaves a valid store with one category per data-file category. |
| Text.Split | processing.py:90-91 | Splitting on a non-empty separator gives one part more than there are occurrences. No part contains the separator, and joining the parts restores the text. |
| Text.SplitFrom | processing.py:90-91 | The same promise holds for a suffix of the text. |
| Text.SplitHeadIsPrefix | processing.py:90-92 | The first part is the text before the first marker. |
| Text.FindFrom | processing.py:89 | The search finds the first occurrence at or after the start, or reports none. |
| Text.FindFromContains | processing.py:89 | The search finds something exactly when the text contains the separator. |
| Text.CountFromFind | processing.py:90 | Counting occurrences restarts after the first one. |
| Text.LowerStr | search.py:35 | `lower()` maps every character to its lower-case form and keeps the length. |
| Text.UpperStr | search.py:35 | `upper()` maps every character to its upper-case form and keeps the length. |
| Text.StrCaseMappingStable | search.py:35 | Lower-casing after upper-casing equals lower-casing, and the reverse also holds. Both mappings are idempotent. |
| Text.CaseMappingStable | search.py:35 | The same holds for a single character. |
| Text.Lower | search.py:35 | The result is never upper case. The character changes exactly when it was upper case. |
| Text.Upper | search.py:35 | The result is never lower case. The character changes exactly when it was lower case. |
| Text.AlnumCaseInvariant | telegrambot.py:197 | Changing case does not change whether a character is a word character. |
| Text.KeepAlnum | telegrambot.py:197 | Removing non-word characters leaves only word characters and never lengthens the text. |
| Text.LexLeTotal | search.py:58 | Code-point order is total. |
| Text.LexLeTransitive | search.py:58 | Code-point order is transitive. |
| Text.LexLeAntisymmetric | search.py:58 | Code-point order is antisymmetric. |
| Text.InsertSorted | search.py:58 | Inserting into an ascending list keeps it ascending and adds exactly that element. |
| Text.SortStrings | search.py:58 | `ORDER BY` gives an ascending permutation of its input. |
| Randomness.Choice | telegrambot.py:283 | `choice` returns an element of the list, and raises `IndexError` exactly when the list is empty. |
| Randomness.Shuffle | telegrambot.py:290 | `shuffle` keeps the same elements with the same multiplicities. |
| Randomness.ShuffleStepsPermutes | telegrambot.py:107-108 | Each Fisher-Yates step keeps the multiset. |
| Randomness.ShuffleMap | telegrambot.py:107-111 | Shuffling, then mapping, equals mapping, then shuffling with the same stream. |
| Randomness.Sample | telegrambot.py:462 | `sample(xs, k)` gives k elements taken from xs. It raises `ValueError` exactly when k exceeds the population. |
| Randomness.SamplePool | telegrambot.py:462 | The pool algorithm takes k elements out of the pool. |
| Randomness.SampleOfDistinct | telegrambot.py:462 | A sample of a duplicate-free population is duplicate-free. |
| Randomness.RandomLimit | telegrambot.py:285-287 | `ORDER BY RANDOM() LIMIT n` gives min(n, rows) of the rows. |
| SqlLike.LiteralThenPercent | search.py:39-40 | A wildcard-free text followed by `%` matches exactly the strings that start with it, up to ASCII case. |
| SqlLike.LeadingPercent | search.py:39-40 | A leading `%` matches when the rest matches some suffix. |
| SqlLike.SurroundIsFoldedContains | search.py:39-40 | With no wildcard in the query, `LIKE '%' \|\| q \|\| '%'` is substring containment after ASCII case folding. |
| SqlLike.SurroundMatchIsContained | search.py:39-40 | A match implies folded containment. |
| SqlLike.ContainedMatchesSurround | search.py:39-40 | Folded containment implies a match. |
| SqlLike.UnderscoreMatchesAnyNonEmpty | search.py:39-40 | The query `_` matches every non-empty text. |
| Search.UsageTypesClauseShape | search.py:21-24 | For n usage types, the clause is the n terms separated by n - 1 `OR`s. The clause is empty exactly when the list is empty. |
| Search.AccumulatedIsJoinPlusOr | search.py:22-23 | The loop leaves the joined terms followed by one trailing `OR`. |
| Search.GetQuery | search.py:19-41 | `get_query` raises `TypeError` exactly when the lemma is truthy and the usage types are `None`. It returns no query exactly when no field is truthy. |
| Search.GetQueryPrecedence | search.py:19-41 | A truthy lemma decides the query whatever the other fields hold. Otherwise a truthy letter decides it, and otherwise the substring does. |
| Search.CategoryRowYields | search.py:32-38 | The row built for a proverb is its category join. |
| Search.UsageRowYields | search.py:25-28 | The row built for a usage row is its join, which passes the WHERE clause. |
| Search.LemmaRowsSound | search.py:25-30 | The lemma query's DISTINCT rows are exactly the joined rows of a usage of one of the types, for a lemma with that value. |
| Search.LetterRowsSound | search.py:31-35 | The letter query's rows are exactly the proverbs whose first character is the lower- or upper-case letter. |
| Search.SubstringRowsSound | search.py:36-41 | The substring query's rows are exactly the proverbs whose value or description matches the LIKE pattern. |
| Search.AllRowsSound | search.py:19-46 | Each query's DISTINCT result holds each row of its relation exactly once and nothing else. |
| Search.SearchProverbs | search.py:44-53 | A search fails exactly in two cases. With no truthy field it raises `TypeError`. With a lemma and missing usage types it raises `TypeError`, and with an empty usage-type list it raises `OperationalError`. Otherwise it returns at most five results. |
| Search.ToResults | search.py:48-51 | Each row is read into one result: category, proverb and description. |
| Search.SearchAtAnyOffset | search.py:44-53 | A search that succeeds at one offset succeeds at every offset. It returns the page at that offset of the same DISTINCT rows. |
| Search.ResultsOfPage | search.py:48-51 | Reading a page equals taking the page of the readings. |
| Search.PageOfRows | search.py:28-29 | A page of a duplicate-free list is duplicate-free and taken from it. |
| Search.PageSound | search.py:19-53 | Every page of a query holds distinct readings of matching rows. |
| Search.AllRowsResults | search.py:19-53 | The readings of all rows of a query are distinct and matching. |
| Search.SearchProverbsSound | search.py:44-53 | A successful search returns distinct results, each the reading of a row in the query's relation. |
| Search.LemmaMatchMonotone | search.py:21-24 | Adding usage types only adds matches. |
| Search.LemmaMatchUnion | search.py:21-24 | A query over several usage types is the union of the per-type queries. |
| Search.ValueResultsWithinBoth | telegrambot.py:691-706 | The bot's 'VALUE' lemma search is within its 'VALUE'+'DESCRIPTION' search. The latter is exactly the 'VALUE' results together with the 'DESCRIPTION' results. |
| Search.FirstLetterCaseInsensitive | search.py:31-35 | Two letters with the same lower-case form give identical searches. |
| Search.FirstLetterEitherCase | search.py:31-35 | A letter, its upper-case form and its lower-case form give identical searches. |
| Search.SubstringMatchIsContains | search.py:36-41 | With no `%` or `_`, a proverb matches exactly when its value or description contains the query up to ASCII case. |
| Search.SearchLemmasByFirstLetter | search.py:56-60 | The lemma listing is ascending in code-point order and has no duplicates. |
| Search.SearchLemmasByFirstLetterSound | search.py:56-60 | A value is listed exactly when some usage row of the requested type refers to a lemma with that value whose first character is the lower-cased letter. |
| Search.ListedValueIff | search.py:57-58 | Each usage row yields a listed value exactly when it passes the filter. |
| Search.SortedKeepsMembers | search.py:58 | Ordering neither adds nor drops values. |
| Quiz.CombinationsCount | telegrambot.py:106 | `combinations(xs, k)` has C(n, k) elements. |
| Quiz.CombinationsShape | telegrambot.py:106 | Each combination has k elements, all from xs. |
| Quiz.SingletonCombinations | telegrambot.py:106 | The one-element combinations are the singletons, in order. |
| Quiz.GenerateGroups | telegrambot.py:101-113 | `generate_groups` raises `ValueError` exactly when the size is below one. Otherwise it returns C(n, k) groups, which are the joined combinations in some order. |
| Quiz.GenerateGroupsOfOne | telegrambot.py:101-113 | Groups of one are exactly the input verbs, permuted. |
| Quiz.CompareStringsIgnoresCase | telegrambot.py:193-204 | A string matches its upper- and lower-case forms. |
| Quiz.CompareStringsIgnoresNonWord | telegrambot.py:193-204 | Inserting a non-word character anywhere does not change the comparison. |
| Quiz.CompareStringsEquivalence | telegrambot.py:193-204 | The comparison is reflexive, symmetric and transitive. |
| Quiz.KeepAlnumAppend | telegrambot.py:197 | Removing non-word characters distributes over concatenation. |
| Quiz.CategoryProverbs | telegrambot.py:279-281 | The category query returns exactly the rows of that category's proverbs. |
| Quiz.OtherDescriptions | telegrambot.py:285-287 | The decoy pool is duplicate-free and excludes the correct description. It is exactly the other descriptions of the category. |
| Quiz.MeaningOptions | telegrambot.py:285-290 | There are 1 + min(3, pool size) options. |
| Quiz.OptionsFromDecoys | telegrambot.py:289-290 | Shuffled `[correct] + decoys` holds the correct value once, no duplicates, and otherwise only pool values. |
| Quiz.MeaningOptionsSound | telegrambot.py:283-290 | There are one to four pairwise-different options. The correct description appears exactly once, and every other option is another description of the same category. |
| Quiz.FirstIndex | telegrambot.py:301-303 | Returns the first position that holds the value. |
| Quiz.LabelOptions | telegrambot.py:299-306 | Each option is prefixed with the letter of its position. The expected reply becomes the letter of the option holding the correct description, and is unchanged if no option holds it. |
| Quiz.AskMeaning | telegrambot.py:361-398 | An empty pool raises `IndexError`. Otherwise the question is about a pool proverb. Its options hold its description exactly once, and the expected reply is that option's letter. |
| Quiz.StartMeaningQuiz | telegrambot.py:272-317 | A missing category raises `TypeError`. A category with no proverbs raises `IndexError`. Otherwise the question is about a proverb of the category. |
| Quiz.Remaining | telegrambot.py:345-348 | The pool is exactly the category's proverbs whose value has not been asked. |
| Quiz.RemainingAfterUse | telegrambot.py:334-348 | Marking a value as used never grows the pool. It strictly shrinks the pool when the value is new and present. |
| Quiz.RemainingShrinks | telegrambot.py:334-361 | Asking from the pool strictly shrinks it, so a session ends. |
| Quiz.AnswerMeaning | telegrambot.py:321-407 | The two control texts quit or change the category. Any other reply scores one point exactly when it equals the expected reply. The session finishes exactly when every proverb has been asked, and the score is reported against the category size. Otherwise the next pool is non-empty and unasked. |
| Quiz.SessionStart | telegrambot.py:314-316 | A session started from cleared chat data, with no used values, satisfies the session invariant. |
| Quiz.AnswerKeepsInvariant | telegrambot.py:334-398 | Answering and asking the next question keep the session invariant. The asked values stay distinct category values, and the score stays at most the number answered. |
| Quiz.FinishedScoreBound | telegrambot.py:349-357 | In a session that satisfies the invariant, the completion report's score never exceeds its total. This covers the first report of a session only; later replies are in `Quiz.ReplyAfterCompletionRescored`. |
| Quiz.StateAfterReplyAsWritten | telegrambot.py:321-360 | The handler clears the chat state exactly on the two control texts. After the completion report the session stays, with the asked value marked used, the reported score and the same expected answer. |
| Quiz.ReplyAfterCompletionRescored | telegrambot.py:349-360 | A reply sent after the completion report, in the session the handler keeps, is reported as completion again against the same total. It scores one more point when it equals the expected answer. |
| Quiz.CompletionOverscores | telegrambot.py:349-360 | In a one-proverb category the right answer reports one out of one, and the same reply sent again reports two out of one. |
| Quiz.CorrectedReply | telegrambot.py:321-360 | After the completion report the chat is `Completed`: it keeps the quiz state, so the end-of-quiz "change category" button (telegrambot.py:606-619) still routes, but a further answer is not scored and gets no report. Only the control texts leave it. An answering chat gets the handler's outcome, and it keeps answering exactly when another question follows. |
| Quiz.CorrectedReportsBounded | telegrambot.py:349-360 | With completed quizzes no longer scored, every reply keeps the invariant. Every completion report in a chat, not only the first, has a score within its total. |
| Quiz.VerbProverbs | telegrambot.py:437-440 | The verb quiz asks exactly about the category's proverbs whose text has a verb. |
| Quiz.FirstValueVerb | telegrambot.py:445-448 | Returns the first verb row of the proverb's text, or none when there is none. |
| Quiz.CorrectVerb | telegrambot.py:445-449 | The correct verb exists exactly when the proverb's text has a verb, and is one of its verb rows. |
| Quiz.VerbProverbHasCorrectVerb | telegrambot.py:437-449 | Every proverb the verb quiz can pick has a correct verb. |
| Quiz.DecoyFeaturesAgree | telegrambot.py:455-459 | In a valid store, a decoy row passes the feature filter exactly when it agrees with the correct verb on aspect, number, gender and tense. This includes features stored as 'None'. |
| Quiz.DecoyValuesUpTo | telegrambot.py:455-459 | Collects exactly the values of the rows that pass the decoy filter. |
| Quiz.DecoyValues | telegrambot.py:455-460 | The decoy values are distinct and are exactly the values of rows passing the filter. |
| Quiz.VerbCandidatesAsWritten | telegrambot.py:455-460 | As written, the candidates are the distinct verbs of other proverbs with the same features. They are excluded by proverb id only. |
| Quiz.VerbCandidates | telegrambot.py:455-460 | The corrected candidates are the same set without the correct verb's value. |
| Quiz.VerbDecoys | telegrambot.py:460-462 | Fewer than three candidates make `sample` raise `ValueError`. Otherwise exactly three candidates are chosen. |
| Quiz.VerbOptions | telegrambot.py:461-463 | There are four options, including the correct verb. Fewer than three candidates give `ValueError`. |
| Quiz.VerbOptionsSound | telegrambot.py:455-463 | With distinct candidates that exclude the correct verb, the options are pairwise different. The correct verb appears once, and the rest are candidates. |
| Quiz.CorrectOfferedTwice | telegrambot.py:455-463 | When the correct verb is one of exactly three candidates, it is offered twice. |
| Quiz.SharedVerbStoreValid | processing.py:64-83 | The example store satisfies the store invariant: every id resolves, lemma values are unique, frequencies are positive and every word row is well shaped. |
| Quiz.SharedVerbDecoyRows | telegrambot.py:455-459 | In the example, every other proverb's verb passes the filter, including an identical form. |
| Quiz.SharedVerbCandidates | telegrambot.py:455-460 | In the example, the candidates as written are "знає", "має" and "сидить". |
| Quiz.SharedVerbCorrect | telegrambot.py:445-449 | In the example, the correct verb is "знає". |
| Quiz.SharedVerbOfferedTwice | telegrambot.py:455-463 | In the example, every question offers the correct verb twice as written. The corrected candidates leave it out. |
| Quiz.AskVerb | telegrambot.py:431-463 | A missing category raises `TypeError`. A category without verbs raises `IndexError`. Otherwise the proverb is the one the choice draws, and the correct answer is its first verb, which always exists. The call raises `ValueError` exactly when that verb has fewer than three decoy candidates. On success the four options are distinct and hold the verb exactly once. |
| Paging.CategoryButtons | telegrambot.py:75-81 | There is one button per category, in table order, each with its id and name. |
| Paging.ChooseCategory | telegrambot.py:70-89 | A page has at most seven buttons: the categories from `(page-1)*7` on. "Назад" appears exactly when page > 1. |
| Paging.NextIffNextPageNonEmpty | telegrambot.py:83-85 | "Далі..." appears exactly when the next page has categories. |
| Paging.PageBeforeNextIsFull | telegrambot.py:75-85 | A page followed by another page is full. |
| Paging.FirstPagesArePrefix | telegrambot.py:70-89 | Pages 1..k together are the first 7k categories, in order. |
| Paging.AllPagesAreAllCategories | telegrambot.py:70-89 | Enough pages show every category exactly once. |
| Paging.GroupIndex | telegrambot.py:759 | Finds a category's group, or reports that none exists. |
| Paging.GroupOrder | telegrambot.py:756-763 | Groups follow the first appearance of their categories. |
| Paging.GroupContents | telegrambot.py:756-762 | Each group holds exactly its category's results, in order. |
| Paging.OfAbsentCategory | telegrambot.py:756-762 | An absent category has no results. |
| Paging.AddToGroupAddsOnce | telegrambot.py:759-762 | One step adds the result once to the groups' contents. |
| Paging.GroupsHoldEveryResult | telegrambot.py:756-762 | Together the groups hold every result exactly once. |
| Paging.ProcessResults | telegrambot.py:740-797 | An empty first page means "nothing found", and an empty later page means "that is all". A short page is the last page. A full page offers "next" and advances the offset by five. |
| Paging.ShownIsPage | telegrambot.py:756-804 | A reply shows exactly the results of its page. |
| Paging.SessionFullPage | telegrambot.py:775-797 | A full page is followed by the rest of the session. |
| Paging.SessionShortPage | telegrambot.py:775-786 | A short page ends the session. |
| Paging.SessionShowsRest | telegrambot.py:740-819 | From any offset, paging shows every remaining result exactly once. |
| Paging.SessionShowsAll | telegrambot.py:740-819 | From offset zero, paging shows every result exactly once. |
| Paging.SessionEndKind | telegrambot.py:743-786 | A session ends with "nothing found" exactly when there are no results. It ends with "that is all" after an empty page exactly when the results fill whole pages. Otherwise it ends with the closing line of the last page. |
| Paging.SearchPages | telegrambot.py:807-819 | Each "next" press repeats the same search at a later offset and returns that page of the same result list. |
| Paging.SearchSessionShowsEachResultOnce | telegrambot.py:685-819 | Paging through a successful search shows every result of the query exactly once, and each is a row the query matches. |

## Left out

- Telegram I/O, aiogram handlers and keyboards, message texts, the FSM
  storage, and `main.py` (a separate web UI) are left out. The model
  covers the decisions those handlers make, not the messages they send.
- The tokenizer (`tokenize_uk`) and the morphological analyzer
  (`pymorphy2`) are foreign code. They are injected functions (`Morphology`),
  and every property holds for any choice of them.
- Reading the JSON data file and `print` are out. The script's input is the
  list `(category, [(proverb, description)])` in file order.
- Connections, cursors, `commit` and `close` are out. A store value stands
  for the database.
- Python `set` iteration order in `process_lemmas` and `process_words` is
  not specified by Python. The model fixes it to first-occurrence order;
  all stated properties are about contents and counts, which do not depend
  on it.
- SQLite promises no row order without `ORDER BY`. The model fixes it to
  the table order of the driving table. `ORDER BY RANDOM()` is a shuffle
  of that order.
- `random` is modelled by CPython's algorithms for `choice` and `shuffle`
  over explicit streams. The Mersenne Twister itself is left out.
- `sample` is modelled by CPython's pool algorithm only. CPython uses it
  when the population has at most 21 elements for three picks; for larger
  populations it redraws into a set, and the same stream gives a different
  sample. The model covers the set of possible samples (distinct positions
  of the population), not CPython's stream-by-stream result there.
- The table schema (`resources/dbscript.sql`, run by `db.init` at
  processing.py:9) is not part of this model. Every insert is assumed to
  succeed, so no constraint violation is modelled.
- Quiz.SharedVerbStoreValid: the example store is shown to satisfy the
  store invariant only. That the indexer produces it from some input is
  not proved, and the store holds no lemma or usage rows.
- Case mapping and word characters are concrete only for ASCII and
  Cyrillic. Other characters count as uncased letters or non-word
  characters, as the model's tables say.
- A usage type containing a quote would break the generated SQL. The
  model keeps the clause text and its shape but does not parse SQL.
- The masking of the verb in the verb quiz (`re.sub` at
  telegrambot.py:470-473) and the MarkdownV2 escaping are out. They change
  only displayed text.
- `get_categories`, `get_proverbs_by_category` and `get_random_descriptions`
  (db.py:48-57) are never called by the core, so they are out.
- The verb quiz's `check_answer` (telegrambot.py:484-573) is out. It uses
  the same scoring and pool logic as the meaning quiz, which is modelled.
  It asks new questions with the as-written decoy query
  (`Quiz.VerbCandidatesAsWritten`, telegrambot.py:537-541, the same as
  455-459), so the verb-decoy finding below applies to both handlers. It
  also keeps the state after its completion report (telegrambot.py:512-523),
  as the meaning quiz does.
- `generate_quiz_markup` and `generate_quiz_verb_markup` only build
  keyboards, so they are out.
- `handle_next_search` is modelled only by its effect: the same search
  repeated at the next offset (`Paging.SearchPages`). Its dispatch on the
  stored search type is out.
- Quiz.LabelOptions: the expected reply is stated only when no option's
  text is itself a label letter (`NoLabelTexts`). Otherwise the loop
  compares later options against a letter, and the model does not state
  that case.
- Quiz.AskMeaning: the letter of the expected reply is stated under the
  same `NoLabelTexts` condition.
- Quiz.StartMeaningQuiz: states only the bounds of the options. The full
  option properties are in `Quiz.AskMeaning`, which it calls.
- Quiz.SessionStart: a meaning-quiz session is assumed to start from
  cleared chat data. `process_category` (telegrambot.py:271-317) resets
  only the score and the category's proverbs, and `start_quiz`
  (telegrambot.py:265-268) has no state filter. So a quiz restarted after
  an uncleared completion, or mid-quiz, inherits the old used values, and
  `Quiz.AnswerMeaning` can then report completion early. The model does
  not cover that inherited start.
- Paging.SearchSessionShowsEachResultOnce: a search session is assumed to
  start at offset 0 with a newly typed query. After a full page the chat
  stays in the search state with the offset advanced
  (telegrambot.py:796), so a query typed next runs at that offset
  (telegrambot.py:686-690). After a "next" press, typed text is ignored
  (telegrambot.py:688, 810). The model does not cover those sessions.
- `change_category_callback` and the other end-of-quiz button handlers
  (telegrambot.py:590-619) are out. `Quiz.CorrectedReply`'s `Completed`
  state stands for the quiz state they read to route; the routing itself
  is not modelled.
- Quiz.AskVerb: models the corrected candidates. The as-written query is
  `Quiz.VerbCandidatesAsWritten`.
- Paging.ChooseCategory: the buttons are stated for page >= 1 only. The
  bot never asks for page 0 or below.
- Processing.ProcessLemmas: its own contract states counts only. The full
  content is `Processing.ProcessLemmasIndex`.

## Behaviour worth knowing

- The verb decoy query (telegrambot.py:455-459) restricts neither to
  'VALUE' words nor to the quiz category. A decoy can come from any
  proverb's text or description.
- `process_lemmas` tries to write two usage rows for the same lemma row
  and proverb when one normal form occurs with two parts of speech: both
  pairs find the same lemma row. The model keeps both rows. Whether the
  database accepts the second depends on the table schema, which is not
  part of this model; with a unique key on those columns the insert would
  fail instead.
- The substring filter uses `LIKE`. It folds ASCII case only, and `%` and
  `_` in the user's text act as wildcards (`SqlLike.UnderscoreMatchesAnyNonEmpty`).

## Findings

| source | as written | input that shows it | evidently intended | confidence | as-written member | corrected member |
|---|---|---|---|---|---|---|
| telegrambot.py:455-463 | Verb decoys exclude the correct proverb by id only, so another proverb's identical verb form becomes a decoy. | Proverb 1 has the verb "знає". Proverbs 2, 3 and 4 have the verbs "знає", "має" and "сидить" with the same features. The candidates are exactly those three, so `sample` must take "знає". | Decoys differ from the correct verb, so every option is distinct and the correct one appears once. | not executed | Quiz.SharedVerbOfferedTwice | Quiz.VerbOptionsSound |
| telegrambot.py:349-360 | After the completion report the handler returns without clearing the state, so a further reply is scored again against the same total (the verb quiz does the same at 512-523). | A category with one proverb: the right answer reports 1 out of 1; sending the same answer again reports 2 out of 1. | After the completion report no further reply is scored. The quiz state stays only so that the end-of-quiz buttons can route (telegrambot.py:606-619), and every report stays within its total. | not executed | Quiz.CompletionOverscores | Quiz.CorrectedReportsBounded |

=== FILE: db.dfy ===
/** The argument handling of the `Database` wrapper (db.py): which entry
    points normalise their Python arguments with `update_args` before
    SQLite binds them, and what SQL equality then sees. Connections,
    cursors and commits are not modelled. */
module Db {

  /** A Python value passed as a statement parameter. */
  datatype PyValue = PyNone | PyStr(s: string) | PyInt(i: int)

  /** A value stored in, or bound into, an SQLite statement. */
  datatype SqlValue = Null | Text(s: string) | Integer(i: int)

  /** The text `update_args` writes in place of `None`. */
  const NoneText: string := "None"

  function UpdateArg(a: PyValue): PyValue {
    if a.PyNone? then PyStr(NoneText) else a
  }

  /** `Database.update_args`: the same arguments, in the same order, with
      every `None` replaced by the string 'None'. */
  function UpdateArgs(args: seq<PyValue>): (r: seq<PyValue>)
    ensures |r| == |args|
    ensures forall i :: 0 <= i < |args| && args[i].PyNone? ==> r[i] == PyStr(NoneText)
    ensures forall i :: 0 <= i < |args| && !args[i].PyNone? ==> r[i] == args[i]
    ensures forall i :: 0 <= i < |r| ==> !r[i].PyNone?
  {
    if |args| == 0 then [] else [UpdateArg(args[0])] + UpdateArgs(args[1..])
  }

  /** Normalising twice is normalising once. */
  lemma {:induction false} UpdateArgsIdempotent(args: seq<PyValue>)
    ensures UpdateArgs(UpdateArgs(args)) == UpdateArgs(args)
  {
    var once := UpdateArgs(args);
    var twice := UpdateArgs(once);
    assert |twice| == |once|;
    forall i | 0 <= i < |once| ensures twice[i] == once[i] {
      assert !once[i].PyNone?;
    }
  }

  /** How the sqlite3 module binds one Python value. */
  function Bind(a: PyValue): (v: SqlValue)
    ensures v.Null? <==> a.PyNone?
  {
    match a
    case PyNone => Null
    case PyStr(s) => Text(s)
    case PyInt(i) => Integer(i)
  }

  /** How the sqlite3 module hands a stored value back to Python. */
  function Fetch(v: SqlValue): (a: PyValue)
    ensures Bind(a) == v
  {
    match v
    case Null => PyNone
    case Text(s) => PyStr(s)
    case Integer(i) => PyInt(i)
  }

  function BindAll(args: seq<PyValue>): (r: seq<SqlValue>)
    ensures |r| == |args|
    ensures forall i :: 0 <= i < |args| ==> r[i] == Bind(args[i])
  {
    seq(|args|, i requires 0 <= i < |args| => Bind(args[i]))
  }

  /** The statement parameters of `Database.insert` and
      `Database.select_all`, which both normalise their arguments first. */
  function NormalisedParams(args: seq<PyValue>): (r: seq<SqlValue>)
    ensures |r| == |args|
    ensures forall i :: 0 <= i < |r| ==> r[i] != Null
    ensures forall i :: 0 <= i < |args| && args[i].PyNone? ==> r[i] == Text(NoneText)
    ensures forall i :: 0 <= i < |args| && !args[i].PyNone? ==> r[i] == Bind(args[i])
  {
    BindAll(UpdateArgs(args))
  }

  /** The statement parameters of `Database.select_one`: passed through raw,
      so a `None` argument is bound as NULL. */
  function SelectOneParams(args: seq<PyValue>): (r: seq<SqlValue>)
    ensures |r| == |args|
    ensures forall i :: 0 <= i < |args| ==> (r[i] == Null <==> args[i].PyNone?)
  {
    BindAll(args)
  }

  /** SQL `a = b`: true only when neither side is NULL and both are equal. */
  predicate SqlEq(a: SqlValue, b: SqlValue) {
    a != Null && b != Null && a == b
  }

  /** A value stored through `insert`, read back, and bound again through
      `select_all` compares equal to the stored value, even when the
      original Python value was `None`. */
  lemma StoredValueMatchesItsReadBack(a: PyValue)
    ensures var stored := NormalisedParams([a])[0];
            SqlEq(stored, NormalisedParams([Fetch(stored)])[0])
  {
  }

  /** A `None` passed raw (as `select_one` does) matches nothing. */
  lemma RawNoneMatchesNothing(v: SqlValue)
    ensures !SqlEq(SelectOneParams([PyNone])[0], v)
    ensures !SqlEq(v, SelectOneParams([PyNone])[0])
  {
  }

  /** `LIMIT limit OFFSET offset` over rows in their underlying order; a
      negative offset counts as zero and a negative limit as no limit. */
  function LimitOffset<T>(rows: seq<T>, limit: int, offset: int): (r: seq<T>)
    ensures var start := if offset < 0 then 0 else if offset > |rows| then |rows| else offset;
            && (limit >= 0 ==> |r| == if |rows| - start < limit then |rows| - start else limit)
            && (limit < 0 ==> |r| == |rows| - start)
            && forall i :: 0 <= i < |r| ==> r[i] == rows[start + i]
  {
    var start := if offset < 0 then 0 else if offset > |rows| then |rows| else offset;
    var end := if limit < 0 || |rows| - start < limit then |rows| else start + limit;
    rows[start..end]
  }
}

=== FILE: paging.dfy ===
/** Paging in the bot (telegrambot.py): the category keyboard shown seven
    categories at a time, and the search results shown five at a time,
    grouped by category, with a "next" button while a page is full. */
module Paging {
  import opened Wrappers
  import opened Store
  import Seqs
  import Db
  import Search

  // ---------------------------------------------------------------------
  // choose_category
  // ---------------------------------------------------------------------

  /** Categories per keyboard page. */
  const CategoryPageSize: int := 7

  /** A category button: the category's id and name. */
  datatype Button = Button(id: int, name: string)

  /** `SELECT id, name FROM category`, in table order. */
  function CategoryButtons(s: Store): (r: seq<Button>)
    ensures |r| == |s.categories|
    ensures forall i :: 0 <= i < |r| ==> r[i] == Button(RowId(i), s.categories[i].name)
  {
    seq(|s.categories|, i requires 0 <= i < |s.categories| => Button(RowId(i), s.categories[i].name))
  }

  /** The keyboard of one page: its category buttons and whether "Далі..."
      and "Назад" are offered. */
  datatype CategoryPage = CategoryPage(buttons: seq<Button>, hasNext: bool, hasPrevious: bool)

  /** `choose_category(message, page)`. */
  function ChooseCategory(s: Store, page: int): (r: CategoryPage)
    ensures |r.buttons| <= CategoryPageSize
    ensures page >= 1 ==> forall i :: 0 <= i < |r.buttons| ==>
              && (page - 1) * CategoryPageSize + i < |s.categories|
              && r.buttons[i] == Button(RowId((page - 1) * CategoryPageSize + i),
                                        s.categories[(page - 1) * CategoryPageSize + i].name)
    ensures r.hasPrevious <==> page > 1
  {
    var offset := (page - 1) * CategoryPageSize;
    var buttons := Db.LimitOffset(CategoryButtons(s), CategoryPageSize, offset);
    CategoryPage(buttons, |s.categories| > page * CategoryPageSize, page > 1)
  }

  /** "Далі..." is offered exactly when the next page has categories. */
  lemma NextIffNextPageNonEmpty(s: Store, page: int)
    requires page >= 1
    ensures ChooseCategory(s, page).hasNext <==> |ChooseCategory(s, page + 1).buttons| > 0
  {
  }

  /** A page is full whenever a later page exists. */
  lemma PageBeforeNextIsFull(s: Store, page: int)
    requires page >= 1 && ChooseCategory(s, page).hasNext
    ensures |ChooseCategory(s, page).buttons| == CategoryPageSize
  {
  }

  /** The concatenation of pages `1..k`. */
  function FirstPages(s: Store, k: nat): seq<Button> {
    if k == 0 then [] else FirstPages(s, k - 1) + ChooseCategory(s, k).buttons
  }

  /** Paging through the keyboard shows every category once, in table
      order: pages `1..k` are the first `7k` categories. */
  lemma {:induction false} FirstPagesArePrefix(s: Store, k: nat)
    ensures var n := if k * CategoryPageSize < |s.categories| then k * CategoryPageSize else |s.categories|;
            FirstPages(s, k) == CategoryButtons(s)[..n]
  {
    if k > 0 {
      FirstPagesArePrefix(s, k - 1);
      var all := CategoryButtons(s);
      var m := if (k - 1) * CategoryPageSize < |all| then (k - 1) * CategoryPageSize else |all|;
      var n := if k * CategoryPageSize < |all| then k * CategoryPageSize else |all|;
      var page := ChooseCategory(s, k).buttons;
      assert page == all[m..n];
      assert all[..n] == all[..m] + all[m..n];
    }
  }

  /** Once the pages reach past the last category, together they are all
      categories. */
  lemma AllPagesAreAllCategories(s: Store, k: nat)
    requires k * CategoryPageSize >= |s.categories|
    ensures FirstPages(s, k) == CategoryButtons(s)
  {
    FirstPagesArePrefix(s, k);
    assert CategoryButtons(s)[..|s.categories|] == CategoryButtons(s);
  }

  // ---------------------------------------------------------------------
  // process_results: grouping a page by category
  // ---------------------------------------------------------------------

  /** The results of one category, in the order they were added. */
  datatype Group = Group(category: string, results: seq<Search.SearchResult>)

  function Categories(groups: seq<Group>): (r: seq<string>)
    ensures |r| == |groups|
    ensures forall i :: 0 <= i < |groups| ==> r[i] == groups[i].category
  {
    Seqs.Map(groups, (g: Group) => g.category)
  }

  function Contents(groups: seq<Group>): (r: seq<seq<Search.SearchResult>>)
    ensures |r| == |groups|
    ensures forall i :: 0 <= i < |groups| ==> r[i] == groups[i].results
  {
    Seqs.Map(groups, (g: Group) => g.results)
  }

  /** The category of each result, in order. */
  function ResultCategories(results: seq<Search.SearchResult>): (r: seq<string>)
    ensures |r| == |results|
    ensures forall i :: 0 <= i < |results| ==> r[i] == results[i].category
  {
    Seqs.Map(results, (x: Search.SearchResult) => x.category)
  }

  /** The position of category `c` among the groups. */
  function GroupIndex(groups: seq<Group>, c: string): (r: Option<nat>)
    ensures r.Some? ==> r.value < |groups| && groups[r.value].category == c
    ensures r.None? <==> c !in Categories(groups)
  {
    if |groups| == 0 then None
    else if groups[|groups| - 1].category == c then Some(|groups| - 1)
    else
      var init := GroupIndex(groups[..|groups| - 1], c);
      assert Categories(groups) == Categories(groups[..|groups| - 1]) + [groups[|groups| - 1].category];
      init
  }

  /** One step of the grouping loop: `by_category[result.category]`,
      created on first sight, gets the result appended. */
  function AddToGroup(groups: seq<Group>, r: Search.SearchResult): seq<Group> {
    match GroupIndex(groups, r.category)
    case Some(i) => groups[i := Group(r.category, groups[i].results + [r])]
    case None => groups + [Group(r.category, [r])]
  }

  /** The `by_category` dict after the loop, in its insertion order. */
  function GroupByCategory(results: seq<Search.SearchResult>): seq<Group> {
    if |results| == 0 then []
    else AddToGroup(GroupByCategory(results[..|results| - 1]), results[|results| - 1])
  }

  /** The results of category `c`, in order. */
  function OfCategory(results: seq<Search.SearchResult>, c: string): seq<Search.SearchResult> {
    if |results| == 0 then []
    else
      var last := results[|results| - 1];
      OfCategory(results[..|results| - 1], c) + (if last.category == c then [last] else [])
  }

  lemma {:induction false} OfAbsentCategory(results: seq<Search.SearchResult>, c: string)
    requires c !in ResultCategories(results)
    ensures OfCategory(results, c) == []
  {
    if |results| > 0 {
      var init := results[..|results| - 1];
      assert ResultCategories(results) == ResultCategories(init) + [results[|results| - 1].category];
      OfAbsentCategory(init, c);
    }
  }

  /** The groups follow the first appearance of their category. */
  lemma {:induction false} GroupOrder(results: seq<Search.SearchResult>)
    ensures Categories(GroupByCategory(results)) == Seqs.Distinct(ResultCategories(results))
    decreases |results|
  {
    if |results| > 0 {
      var init := results[..|results| - 1];
      var r := results[|results| - 1];
      var gs := GroupByCategory(init);
      GroupOrder(init);
      var cats := ResultCategories(results);
      assert cats[..|cats| - 1] == ResultCategories(init);
      var groups := AddToGroup(gs, r);
      if GroupIndex(gs, r.category).Some? {
        assert Categories(groups) == Categories(gs);
      } else {
        assert Categories(groups) == Categories(gs) + [r.category];
      }
    }
  }

  /** Each group holds exactly the results of its category, in their
      order. */
  lemma {:induction false} GroupContents(results: seq<Search.SearchResult>)
    ensures forall i :: 0 <= i < |GroupByCategory(results)| ==>
              GroupByCategory(results)[i].results == OfCategory(results, GroupByCategory(results)[i].category)
    decreases |results|
  {
    if |results| > 0 {
      var init := results[..|results| - 1];
      var r := results[|results| - 1];
      var gs := GroupByCategory(init);
      GroupContents(init);
      GroupOrder(init);
      var groups := AddToGroup(gs, r);
      assert groups == GroupByCategory(results);
      match GroupIndex(gs, r.category)
      case Some(i) =>
        forall j | 0 <= j < |groups| ensures groups[j].results == OfCategory(results, groups[j].category) {
          if j != i {
            assert groups[j] == gs[j];
          }
        }
      case None =>
        assert r.category !in ResultCategories(init) by {
          assert Categories(gs) == Seqs.Distinct(ResultCategories(init));
        }
        OfAbsentCategory(init, r.category);
        forall j | 0 <= j < |groups| ensures groups[j].results == OfCategory(results, groups[j].category) {
          if j < |gs| {
            assert groups[j] == gs[j];
          }
        }
    }
  }

  /** Adding a result to the groups adds it once to their contents. */
  lemma AddToGroupAddsOnce(gs: seq<Group>, r: Search.SearchResult)
    ensures multiset(Seqs.Flatten(Contents(AddToGroup(gs, r)))) == multiset(Seqs.Flatten(Contents(gs))) + multiset{r}
  {
    var cs := Contents(gs);
    match GroupIndex(gs, r.category)
    case Some(i) =>
      assert Contents(AddToGroup(gs, r)) == cs[i := cs[i] + [r]];
      Seqs.FlattenUpdateSnoc(cs, i, r);
    case None =>
      assert Contents(AddToGroup(gs, r)) == cs + [[r]];
      Seqs.FlattenSnoc(cs, [r]);
  }

  /** Together the groups hold every result exactly once. */
  lemma {:induction false} GroupsHoldEveryResult(results: seq<Search.SearchResult>)
    ensures multiset(Seqs.Flatten(Contents(GroupByCategory(results)))) == multiset(results)
    decreases |results|
  {
    if |results| > 0 {
      var init := results[..|results| - 1];
      var r := results[|results| - 1];
      var gs := GroupByCategory(init);
      assert GroupByCategory(results) == AddToGroup(gs, r);
      GroupsHoldEveryResult(init);
      AddToGroupAddsOnce(gs, r);
      assert results == init + [r];
      assert multiset(results) == multiset(init) + multiset{r};
    }
  }

  // ---------------------------------------------------------------------
  // process_results: the reply to one page
  // ---------------------------------------------------------------------

  /** What the bot replies to a page of search results. */
  datatype SearchReply =
    | NothingFound
    | AllShown
    | LastPage(groups: seq<Group>)
    | MorePages(groups: seq<Group>, nextOffset: int)

  /** `process_results`: an empty first page is "nothing found" and an
      empty later page "that is all"; otherwise the page is shown grouped
      by category and ends with "that is all" when it holds fewer than
      five results, or with a "next" button that advances the offset by
      five. */
  function ProcessResults(results: seq<Search.SearchResult>, offset: int): (r: SearchReply)
    ensures r.NothingFound? <==> |results| == 0 && offset == 0
    ensures r.AllShown? <==> |results| == 0 && offset != 0
    ensures r.LastPage? <==> 0 < |results| < Search.PageSize
    ensures r.MorePages? <==> |results| >= Search.PageSize
    ensures r.MorePages? ==> r.nextOffset == offset + Search.PageSize
  {
    if |results| == 0 then
      if offset == 0 then NothingFound else AllShown
    else
      var groups := GroupByCategory(results);
      if |results| < Search.PageSize then LastPage(groups) else MorePages(groups, offset + Search.PageSize)
  }

  /** The results a reply shows, in display order. */
  function Shown(reply: SearchReply): seq<Search.SearchResult> {
    match reply
    case LastPage(groups) => Seqs.Flatten(Contents(groups))
    case MorePages(groups, _) => Seqs.Flatten(Contents(groups))
    case _ => []
  }

  /** A reply shows exactly the results of its page, grouped. */
  lemma ShownIsPage(results: seq<Search.SearchResult>, offset: int)
    ensures multiset(Shown(ProcessResults(results, offset))) == multiset(results)
  {
    GroupsHoldEveryResult(results);
  }

  // ---------------------------------------------------------------------
  // A whole search session
  // ---------------------------------------------------------------------

  /** Everything shown from `offset` on when each "next" press fetches the
      page at the new offset of the same result list `all`. */
  function Session(all: seq<Search.SearchResult>, offset: nat): seq<Search.SearchResult>
    decreases |all| - offset
  {
    var page := Db.LimitOffset(all, Search.PageSize, offset);
    var reply := ProcessResults(page, offset);
    if reply.MorePages? && offset + Search.PageSize <= |all| then
      Shown(reply) + Session(all, offset + Search.PageSize)
    else Shown(reply)
  }

  /** The reply that ends the session. */
  function SessionEnd(all: seq<Search.SearchResult>, offset: nat): SearchReply
    decreases |all| - offset
  {
    var page := Db.LimitOffset(all, Search.PageSize, offset);
    var reply := ProcessResults(page, offset);
    if reply.MorePages? && offset + Search.PageSize <= |all| then SessionEnd(all, offset + Search.PageSize)
    else reply
  }

  /** A full page is followed by the rest of the session. */
  lemma SessionFullPage(all: seq<Search.SearchResult>, offset: nat)
    requires offset + Search.PageSize <= |all|
    ensures Db.LimitOffset(all, Search.PageSize, offset) == all[offset..offset + Search.PageSize]
    ensures Session(all, offset)
            == Shown(ProcessResults(all[offset..offset + Search.PageSize], offset)) + Session(all, offset + Search.PageSize)
  {
  }

  /** A short page ends the session. */
  lemma SessionShortPage(all: seq<Search.SearchResult>, offset: nat)
    requires offset <= |all| < offset + Search.PageSize
    ensures Db.LimitOffset(all, Search.PageSize, offset) == all[offset..]
    ensures Session(all, offset) == Shown(ProcessResults(all[offset..], offset))
  {
  }

  /** From any offset within the list, the session shows every remaining
      result exactly once. */
  lemma {:induction false} SessionShowsRest(all: seq<Search.SearchResult>, offset: nat)
    requires offset <= |all|
    ensures multiset(Session(all, offset)) == multiset(all[offset..])
    decreases |all| - offset
  {
    if offset + Search.PageSize <= |all| {
      var page := all[offset..offset + Search.PageSize];
      SessionFullPage(all, offset);
      ShownIsPage(page, offset);
      SessionShowsRest(all, offset + Search.PageSize);
      assert all[offset..] == page + all[offset + Search.PageSize..];
    } else {
      SessionShortPage(all, offset);
      ShownIsPage(all[offset..], offset);
    }
  }

  /** A session started at offset zero shows the whole list, each result
      once. */
  lemma SessionShowsAll(all: seq<Search.SearchResult>)
    ensures multiset(Session(all, 0)) == multiset(all)
  {
    SessionShowsRest(all, 0);
    assert all[0..] == all;
  }

  /** How a session ends: "nothing found" for no results, "that is all"
      after an empty page when the results fill whole pages, and the last
      page with its closing line otherwise. */
  lemma {:induction false} SessionEndKind(all: seq<Search.SearchResult>, offset: nat)
    requires offset <= |all| && offset % Search.PageSize == 0
    ensures SessionEnd(all, offset).NothingFound? <==> |all| == 0
    ensures SessionEnd(all, offset).AllShown? <==> |all| > 0 && |all| % Search.PageSize == 0
    ensures SessionEnd(all, offset).LastPage? <==> |all| % Search.PageSize != 0
    decreases |all| - offset
  {
    var page := Db.LimitOffset(all, Search.PageSize, offset);
    if |page| >= Search.PageSize {
      SessionEndKind(all, offset + Search.PageSize);
    }
  }

  /** The results of the whole query behind a successful search. */
  function SearchAll(f: Search.ProverbsFilter, s: Store): seq<Search.SearchResult>
    requires Search.SearchProverbs(f, s, 0).Success?
  {
    Search.ToResults(Search.AllRows(s, Search.GetQuery(f, 0).value.value))
  }

  /** Each "next" press repeats the same search at a later offset, and it
      returns the page of the same result list at that offset. */
  lemma SearchPages(f: Search.ProverbsFilter, s: Store, offset: int)
    requires Search.SearchProverbs(f, s, 0).Success?
    ensures Search.SearchProverbs(f, s, offset) == Success(Db.LimitOffset(SearchAll(f, s), Search.PageSize, offset))
  {
    Search.SearchAtAnyOffset(f, s, 0, offset);
    Search.ResultsOfPage(Search.AllRows(s, Search.GetQuery(f, 0).value.value), offset);
  }

  /** Paging through a successful search shows every result of the query
      exactly once, each the reading of a row the query matches. */
  lemma SearchSessionShowsEachResultOnce(f: Search.ProverbsFilter, s: Store)
    requires Search.SearchProverbs(f, s, 0).Success?
    ensures multiset(Session(SearchAll(f, s), 0)) == multiset(SearchAll(f, s))
    ensures Search.ResultsOf(s, Search.GetQuery(f, 0).value.value, SearchAll(f, s))
  {
    SessionShowsAll(SearchAll(f, s));
    Search.AllRowsResults(s, Search.GetQuery(f, 0).value.value);
  }
}

=== FILE: processing.dfy ===
/** The corpus indexer (processing.py): synonym unfolding, the lemma-usage
    index and the per-occurrence word index. The tokenizer and the
    morphological analyzer are foreign capabilities handed in as a
    `Morphology` value; nothing here reimplements them. */
module Processing {
  import opened Wrappers
  import opened Db
  import opened Store
  import Seqs
  import Text

  /** The phrase that introduces an embedded synonym list in a description. */
  const Marker: string := " Синонім. "
  /** The separator between the items of a synonym list. */
  const SynonymSeparator: string := "; "

  /** What the analyzer reports for one token: the normal form, the part of
      speech, and the five verb grammemes; absent attributes are `None`. */
  datatype Parse = Parse(normalForm: string, pos: Option<string>,
                         aspect: Option<string>, number: Option<string>, person: Option<string>,
                         gender: Option<string>, tense: Option<string>)

  /** The injected capabilities: word tokenization and per-token analysis. */
  datatype Morphology = Morphology(tokenize: string -> seq<string>, analyze: string -> Parse)

  /** A truthy part of speech. */
  predicate HasPos(p: Parse) {
    p.pos.Some? && p.pos.value != ""
  }

  /** A `(lemma, pos)` pair of `get_lemmas`. */
  datatype LemmaKey = LemmaKey(normal: string, pos: string)

  /** A tuple of `get_words`: `(word, pos)`, or the seven-field verb tuple
      `(word, 'VERB', aspect, number, person, gender, tense)`. */
  datatype WordKey =
    | Plain(value: string, pos: string)
    | Verb(value: string, aspect: PyValue, number: PyValue, person: PyValue,
           gender: PyValue, tense: PyValue)

  function ToPy(o: Option<string>): PyValue {
    if o.None? then PyNone else PyStr(o.value)
  }

  /** How many of `tokens` the analyzer gives a part of speech. */
  function CountWithPos(m: Morphology, tokens: seq<string>): nat {
    if |tokens| == 0 then 0
    else (if HasPos(m.analyze(tokens[0])) then 1 else 0) + CountWithPos(m, tokens[1..])
  }

  function KeyOf(p: Parse): LemmaKey
    requires HasPos(p)
  {
    LemmaKey(p.normalForm, p.pos.value)
  }

  /** The loop of `get_lemmas` over a token list: one pair per token that has
      a part of speech, in token order; the others are dropped. */
  function LemmasOf(m: Morphology, tokens: seq<string>): (r: seq<LemmaKey>)
    ensures |r| == CountWithPos(m, tokens)
  {
    if |tokens| == 0 then []
    else
      var rest := LemmasOf(m, tokens[1..]);
      var p := m.analyze(tokens[0]);
      if HasPos(p) then [KeyOf(p)] + rest else rest
  }

  /** `key` is the pair of token `t`, which the analyzer gave a part of
      speech. */
  predicate LemmaFromToken(m: Morphology, key: LemmaKey, t: string) {
    HasPos(m.analyze(t)) && key == KeyOf(m.analyze(t))
  }

  /** Every pair comes from a token the analyzer gave a part of speech. */
  lemma {:induction false} LemmasOfProvenance(m: Morphology, tokens: seq<string>)
    ensures forall k :: 0 <= k < |LemmasOf(m, tokens)| ==>
              exists i :: 0 <= i < |tokens| && LemmaFromToken(m, LemmasOf(m, tokens)[k], tokens[i])
  {
    if |tokens| > 0 {
      var rest := LemmasOf(m, tokens[1..]);
      var r := LemmasOf(m, tokens);
      LemmasOfProvenance(m, tokens[1..]);
      if HasPos(m.analyze(tokens[0])) {
        assert r == [KeyOf(m.analyze(tokens[0]))] + rest;
        forall k | 0 <= k < |r|
          ensures exists i :: 0 <= i < |tokens| && LemmaFromToken(m, r[k], tokens[i])
        {
          if k == 0 {
            assert LemmaFromToken(m, r[k], tokens[0]);
          } else {
            assert r[k] == rest[k - 1];
            var i :| 0 <= i < |tokens[1..]| && LemmaFromToken(m, rest[k - 1], tokens[1..][i]);
            assert LemmaFromToken(m, r[k], tokens[i + 1]);
          }
        }
      } else {
        assert r == rest;
        forall k | 0 <= k < |r|
          ensures exists i :: 0 <= i < |tokens| && LemmaFromToken(m, r[k], tokens[i])
        {
          var i :| 0 <= i < |tokens[1..]| && LemmaFromToken(m, rest[k], tokens[1..][i]);
          assert LemmaFromToken(m, r[k], tokens[i + 1]);
        }
      }
    } else {
      assert LemmasOf(m, tokens) == [];
    }
  }

  /** Every token the analyzer gives a part of speech contributes its pair. */
  lemma {:induction false} LemmasOfComplete(m: Morphology, tokens: seq<string>)
    ensures forall i :: 0 <= i < |tokens| && HasPos(m.analyze(tokens[i])) ==>
              KeyOf(m.analyze(tokens[i])) in LemmasOf(m, tokens)
  {
    if |tokens| > 0 {
      var rest := LemmasOf(m, tokens[1..]);
      var r := LemmasOf(m, tokens);
      LemmasOfComplete(m, tokens[1..]);
      assert forall x :: x in rest ==> x in r;
      forall i | 0 <= i < |tokens| && HasPos(m.analyze(tokens[i])) ensures KeyOf(m.analyze(tokens[i])) in r {
        if i > 0 {
          assert tokens[i] == tokens[1..][i - 1];
        }
      }
    }
  }

  /** `get_lemmas(text)`. */
  function GetLemmas(m: Morphology, text: string): seq<LemmaKey> {
    LemmasOf(m, m.tokenize(text))
  }

  /** The tuple `get_words` builds for a token that has a part of speech. */
  function WordKeyOf(token: string, p: Parse): WordKey
    requires HasPos(p)
  {
    var w := Text.LowerStr(token);
    if p.pos.value == VERB then
      Verb(w, ToPy(p.aspect), ToPy(p.number), ToPy(p.person), ToPy(p.gender), ToPy(p.tense))
    else Plain(w, p.pos.value)
  }

  /** The loop of `get_words` over a token list: one lower-cased tuple per
      token that has a part of speech; verbs carry their five grammemes. */
  function WordsOf(m: Morphology, tokens: seq<string>): (r: seq<WordKey>)
    ensures |r| == CountWithPos(m, tokens)
  {
    if |tokens| == 0 then []
    else
      var rest := WordsOf(m, tokens[1..]);
      var p := m.analyze(tokens[0]);
      if HasPos(p) then [WordKeyOf(tokens[0], p)] + rest else rest
  }

  /** `key` is the tuple of token `t`: its lower-cased text, a verb tuple
      exactly when the analyzer says 'VERB'. */
  predicate KeyFromToken(m: Morphology, key: WordKey, t: string) {
    HasPos(m.analyze(t)) && key.value == Text.LowerStr(t) && (key.Verb? <==> m.analyze(t).pos.value == VERB)
  }

  /** The shape every tuple of `get_words` has: a plain tuple never carries
      'VERB' or an empty POS, and no word holds an upper-case letter. */
  predicate WellFormedKey(key: WordKey) {
    && (key.Plain? ==> key.pos != VERB && key.pos != "")
    && forall i :: 0 <= i < |key.value| ==> !Text.IsUpper(key.value[i])
  }

  lemma WordKeyOfWellFormed(m: Morphology, t: string)
    requires HasPos(m.analyze(t))
    ensures KeyFromToken(m, WordKeyOf(t, m.analyze(t)), t)
    ensures WellFormedKey(WordKeyOf(t, m.analyze(t)))
  {
    var w := Text.LowerStr(t);
    forall i | 0 <= i < |w| ensures !Text.IsUpper(w[i]) {
      assert w[i] == Text.Lower(t[i]);
    }
  }

  /** Every tuple of `keys` is that of one of `tokens`, and well formed. */
  predicate KeysFromTokens(m: Morphology, keys: seq<WordKey>, tokens: seq<string>) {
    forall k :: 0 <= k < |keys| ==>
      WellFormedKey(keys[k]) && exists j :: 0 <= j < |tokens| && KeyFromToken(m, keys[k], tokens[j])
  }

  /** Every tuple is that of a token the analyzer gave a part of speech,
      and every tuple is well formed. */
  lemma {:induction false} WordsOfSound(m: Morphology, tokens: seq<string>)
    ensures KeysFromTokens(m, WordsOf(m, tokens), tokens)
  {
    if |tokens| > 0 {
      var rest := WordsOf(m, tokens[1..]);
      WordsOfSound(m, tokens[1..]);
      assert KeysFromTokens(m, rest, tokens[1..]);
      var r := WordsOf(m, tokens);
      var p := m.analyze(tokens[0]);
      var off := if HasPos(p) then 1 else 0;
      if HasPos(p) {
        WordKeyOfWellFormed(m, tokens[0]);
        assert r == [WordKeyOf(tokens[0], p)] + rest;
      } else {
        assert r == rest;
      }
      forall k | 0 <= k < |r|
        ensures WellFormedKey(r[k]) && exists j :: 0 <= j < |tokens| && KeyFromToken(m, r[k], tokens[j])
      {
        if k < off {
          assert KeyFromToken(m, r[k], tokens[0]);
        } else {
          assert r[k] == rest[k - off];
          var j :| 0 <= j < |tokens[1..]| && KeyFromToken(m, rest[k - off], tokens[1..][j]);
          assert tokens[1..][j] == tokens[j + 1];
        }
      }
    }
  }

  /** `get_words(text)`. */
  function GetWords(m: Morphology, text: string): seq<WordKey> {
    WordsOf(m, m.tokenize(text))
  }

  // ---------------------------------------------------------------------
  // process_lemmas
  // ---------------------------------------------------------------------

  /** The usage row `u` records `key` for proverb `pid` at site `usage`
      with frequency `freq`, through a lemma row holding `key.normal`. */
  predicate RecordsKey(lemmas: seq<Lemma>, u: LemmaUsage, key: LemmaKey, pid: int, usage: string, freq: nat) {
    && u.proverbId == pid && u.usageType == usage && u.frequency == freq
    && 1 <= u.lemmaId <= |lemmas| && lemmas[u.lemmaId - 1].value == key.normal
  }

  /** One iteration of the loop of `process_lemmas`: look the lemma up by
      value, insert it on a miss, and write one usage row with frequency
      `freq`. */
  function RecordLemma(s: Store, key: LemmaKey, freq: nat, usage: string, pid: int): (r: Store)
    ensures r.categories == s.categories && r.proverbs == s.proverbs && r.words == s.words
    ensures s.lemmas <= r.lemmas && |r.lemmas| <= |s.lemmas| + 1
    ensures s.usages <= r.usages && |r.usages| == |s.usages| + 1
    ensures RecordsKey(r.lemmas, r.usages[|s.usages|], key, pid, usage, freq)
    ensures |r.lemmas| == |s.lemmas| + 1 <==> (forall i :: 0 <= i < |s.lemmas| ==> s.lemmas[i].value != key.normal)
    ensures |r.lemmas| == |s.lemmas| + 1 ==> r.lemmas[|s.lemmas|] == Lemma(key.normal, key.pos)
    ensures LemmaValuesUnique(s.lemmas) ==> LemmaValuesUnique(r.lemmas)
  {
    match FindLemma(s.lemmas, key.normal)
    case Some(lid) =>
      s.(usages := s.usages + [LemmaUsage(lid, pid, usage, freq)])
    case None =>
      var lemmas := s.lemmas + [Lemma(key.normal, key.pos)];
      s.(lemmas := lemmas, usages := s.usages + [LemmaUsage(|lemmas|, pid, usage, freq)])
  }

  /** The loop of `process_lemmas` over the remaining distinct `keys`, each
      counted in the full pair list `all`. */
  function ProcessLemmaKeys(s: Store, keys: seq<LemmaKey>, all: seq<LemmaKey>, usage: string, pid: int): (r: Store)
    ensures r.categories == s.categories && r.proverbs == s.proverbs && r.words == s.words
    ensures s.lemmas <= r.lemmas && s.usages <= r.usages
    ensures |r.usages| == |s.usages| + |keys|
    decreases |keys|
  {
    if |keys| == 0 then s
    else ProcessLemmaKeys(RecordLemma(s, keys[0], multiset(all)[keys[0]], usage, pid), keys[1..], all, usage, pid)
  }

  /** Rows `from`, `from + 1`, ... of `usages` record `keys` in order, each
      with its count in `all`. */
  predicate RecordsKeys(lemmas: seq<Lemma>, usages: seq<LemmaUsage>, from: nat, keys: seq<LemmaKey>,
                        all: seq<LemmaKey>, pid: int, usage: string) {
    forall i :: 0 <= i < |keys| ==> RecordsKeyAt(lemmas, usages, from, keys, all, pid, usage, i)
  }

  /** Row `from + i` of `usages` records `keys[i]` with its count in `all`. */
  predicate RecordsKeyAt(lemmas: seq<Lemma>, usages: seq<LemmaUsage>, from: nat, keys: seq<LemmaKey>,
                         all: seq<LemmaKey>, pid: int, usage: string, i: int) {
    && 0 <= i < |keys| && from + i < |usages|
    && RecordsKey(lemmas, usages[from + i], keys[i], pid, usage, multiset(all)[keys[i]])
  }

  /** Appending lemma rows keeps the meaning of a recorded usage row. */
  lemma RecordsKeyExtend(l1: seq<Lemma>, l2: seq<Lemma>, u: LemmaUsage, key: LemmaKey, pid: int, usage: string, freq: nat)
    requires RecordsKey(l1, u, key, pid, usage, freq) && l1 <= l2
    ensures RecordsKey(l2, u, key, pid, usage, freq)
  {
    assert l2[u.lemmaId - 1] == l1[u.lemmaId - 1];
  }

  /** A recorded first key followed by recorded remaining keys records
      them all. */
  lemma RecordsKeysCons(lemmas: seq<Lemma>, usages: seq<LemmaUsage>, from: nat, keys: seq<LemmaKey>,
                        all: seq<LemmaKey>, pid: int, usage: string)
    requires |keys| > 0 && from < |usages|
    requires RecordsKey(lemmas, usages[from], keys[0], pid, usage, multiset(all)[keys[0]])
    requires RecordsKeys(lemmas, usages, from + 1, keys[1..], all, pid, usage)
    ensures RecordsKeys(lemmas, usages, from, keys, all, pid, usage)
  {
    forall i | 0 <= i < |keys| ensures RecordsKeyAt(lemmas, usages, from, keys, all, pid, usage, i) {
      if i > 0 {
        assert RecordsKeyAt(lemmas, usages, from + 1, keys[1..], all, pid, usage, i - 1);
        assert keys[i] == keys[1..][i - 1];
      }
    }
  }

  /** Row `|s.usages| + i` records `keys[i]` with its count in `all`. */
  lemma {:induction false} ProcessLemmaKeysRecords(s: Store, keys: seq<LemmaKey>, all: seq<LemmaKey>, usage: string, pid: int)
    ensures var r := ProcessLemmaKeys(s, keys, all, usage, pid);
            RecordsKeys(r.lemmas, r.usages, |s.usages|, keys, all, pid, usage)
    decreases |keys|
  {
    if |keys| > 0 {
      var freq := multiset(all)[keys[0]];
      var s1 := RecordLemma(s, keys[0], freq, usage, pid);
      var r := ProcessLemmaKeys(s1, keys[1..], all, usage, pid);
      assert r == ProcessLemmaKeys(s, keys, all, usage, pid);
      ProcessLemmaKeysRecords(s1, keys[1..], all, usage, pid);
      assert r.usages[|s.usages|] == s1.usages[|s.usages|];
      RecordsKeyExtend(s1.lemmas, r.lemmas, s1.usages[|s.usages|], keys[0], pid, usage, freq);
      RecordsKeysCons(r.lemmas, r.usages, |s.usages|, keys, all, pid, usage);
    }
  }

  /** Every lemma row from index `from` on holds the normal form and POS
      of one of `keys`. */
  predicate RowsFromKeys(lemmas: seq<Lemma>, from: nat, keys: seq<LemmaKey>) {
    forall j :: from <= j < |lemmas| ==> exists i :: 0 <= i < |keys| && lemmas[j] == Lemma(keys[i].normal, keys[i].pos)
  }

  lemma {:induction false} ProcessLemmaKeysLemmaRows(s: Store, keys: seq<LemmaKey>, all: seq<LemmaKey>, usage: string, pid: int)
    ensures var r := ProcessLemmaKeys(s, keys, all, usage, pid);
            && (LemmaValuesUnique(s.lemmas) ==> LemmaValuesUnique(r.lemmas))
            && RowsFromKeys(r.lemmas, |s.lemmas|, keys)
    decreases |keys|
  {
    if |keys| > 0 {
      var s1 := RecordLemma(s, keys[0], multiset(all)[keys[0]], usage, pid);
      var r := ProcessLemmaKeys(s1, keys[1..], all, usage, pid);
      ProcessLemmaKeysLemmaRows(s1, keys[1..], all, usage, pid);
      assert RowsFromKeys(r.lemmas, |s1.lemmas|, keys[1..]);
      forall j | |s.lemmas| <= j < |r.lemmas|
        ensures exists i :: 0 <= i < |keys| && r.lemmas[j] == Lemma(keys[i].normal, keys[i].pos)
      {
        if j < |s1.lemmas| {
          assert r.lemmas[j] == s1.lemmas[j];
        } else {
          var i :| 0 <= i < |keys[1..]| && r.lemmas[j] == Lemma(keys[1..][i].normal, keys[1..][i].pos);
          assert keys[1..][i] == keys[i + 1];
        }
      }
    }
  }

  /** `process_lemmas(text, usage, pid)`. */
  function ProcessLemmas(s: Store, m: Morphology, text: string, usage: string, pid: int): (r: Store)
    ensures r.categories == s.categories && r.proverbs == s.proverbs && r.words == s.words
    ensures s.lemmas <= r.lemmas && s.usages <= r.usages
    ensures |r.usages| == |s.usages| + |Seqs.Distinct(GetLemmas(m, text))|
  {
    var all := GetLemmas(m, text);
    ProcessLemmaKeys(s, Seqs.Distinct(all), all, usage, pid)
  }

  /** Sum of the frequencies of `rows`. */
  function FrequencySum(rows: seq<LemmaUsage>): int {
    if |rows| == 0 then 0 else rows[0].frequency + FrequencySum(rows[1..])
  }

  lemma {:induction false} FrequencySumOfRecorded(lemmas: seq<Lemma>, usages: seq<LemmaUsage>, from: nat,
                                                  keys: seq<LemmaKey>, all: seq<LemmaKey>, pid: int, usage: string)
    requires from + |keys| == |usages|
    requires RecordsKeys(lemmas, usages, from, keys, all, pid, usage)
    ensures FrequencySum(usages[from..]) == Seqs.SumCounts(keys, multiset(all))
    decreases |keys|
  {
    if |keys| > 0 {
      var tail, next := keys[1..], from + 1;
      assert RecordsKeys(lemmas, usages, next, tail, all, pid, usage) by {
        forall i | 0 <= i < |tail| ensures RecordsKeyAt(lemmas, usages, next, tail, all, pid, usage, i) {
          assert RecordsKeyAt(lemmas, usages, from, keys, all, pid, usage, i + 1);
          assert tail[i] == keys[i + 1];
        }
      }
      assert RecordsKeyAt(lemmas, usages, from, keys, all, pid, usage, 0);
      FrequencySumOfRecorded(lemmas, usages, next, tail, all, pid, usage);
      assert usages[from..][1..] == usages[from + 1..];
    }
  }

  /** What `process_lemmas(text, usage, pid)` writes: exactly one usage row
      per distinct `(lemma, pos)` pair of the text, in first-occurrence
      order, whose frequency is that pair's number of occurrences and whose
      lemma row holds the pair's normal form; lemma rows are added only for
      pairs of the text, and no lemma value is ever stored twice. */
  lemma ProcessLemmasIndex(s: Store, m: Morphology, text: string, usage: string, pid: int)
    ensures var all := GetLemmas(m, text);
            var keys := Seqs.Distinct(all);
            var r := ProcessLemmas(s, m, text, usage, pid);
            && Seqs.NoDups(keys)
            && (forall k :: k in all <==> k in keys)
            && RecordsKeys(r.lemmas, r.usages, |s.usages|, keys, all, pid, usage)
            && (LemmaValuesUnique(s.lemmas) ==> LemmaValuesUnique(r.lemmas))
            && RowsFromKeys(r.lemmas, |s.lemmas|, keys)
  {
    var all := GetLemmas(m, text);
    var keys := Seqs.Distinct(all);
    ProcessLemmaKeysRecords(s, keys, all, usage, pid);
    ProcessLemmaKeysLemmaRows(s, keys, all, usage, pid);
  }

  /** Rows recorded for keys that all occur in `all` count at least one
      occurrence each. */
  lemma RecordedFrequenciesPositive(lemmas: seq<Lemma>, usages: seq<LemmaUsage>, from: nat,
                                    keys: seq<LemmaKey>, all: seq<LemmaKey>, pid: int, usage: string)
    requires RecordsKeys(lemmas, usages, from, keys, all, pid, usage)
    requires from + |keys| == |usages|
    requires forall i :: 0 <= i < |keys| ==> keys[i] in all
    ensures forall i :: from <= i < |usages| ==> usages[i].frequency >= 1
  {
    forall i | from <= i < |usages| ensures usages[i].frequency >= 1 {
      var j := i - from;
      assert keys[j] in multiset(all);
      assert RecordsKeyAt(lemmas, usages, from, keys, all, pid, usage, j);
    }
  }

  /** Every usage row `process_lemmas` writes has frequency at least 1. */
  lemma ProcessLemmasFrequenciesPositive(s: Store, m: Morphology, text: string, usage: string, pid: int)
    ensures var r := ProcessLemmas(s, m, text, usage, pid);
            forall i :: |s.usages| <= i < |r.usages| ==> r.usages[i].frequency >= 1
  {
    var all := GetLemmas(m, text);
    var keys := Seqs.Distinct(all);
    var r := ProcessLemmaKeys(s, keys, all, usage, pid);
    ProcessLemmaKeysRecords(s, keys, all, usage, pid);
    RecordedFrequenciesPositive(r.lemmas, r.usages, |s.usages|, keys, all, pid, usage);
  }

  /** The frequencies `process_lemmas` writes add up to the number of tokens
      the analyzer gave a part of speech. */
  lemma ProcessLemmasFrequencySum(s: Store, m: Morphology, text: string, usage: string, pid: int)
    ensures var r := ProcessLemmas(s, m, text, usage, pid);
            FrequencySum(r.usages[|s.usages|..]) == CountWithPos(m, m.tokenize(text))
  {
    var all := GetLemmas(m, text);
    var keys := Seqs.Distinct(all);
    var r := ProcessLemmaKeys(s, keys, all, usage, pid);
    ProcessLemmaKeysRecords(s, keys, all, usage, pid);
    FrequencySumOfRecorded(r.lemmas, r.usages, |s.usages|, keys, all, pid, usage);
    Seqs.SumCountsOfDistinct(all);
  }

  // ---------------------------------------------------------------------
  // process_words
  // ---------------------------------------------------------------------

  /** The text a verb grammeme column holds for the analyzer's value: the
      value itself, or 'None' where the analyzer reported none. */
  predicate StoresGrammeme(col: SqlValue, raw: PyValue) {
    if raw.PyNone? then col == Text(NoneText) else col == Bind(raw)
  }

  /** The word row `w` was written for the tuple `key`. */
  predicate StoresKey(w: Word, key: WordKey, usage: string, pid: int) {
    && w.proverbId == pid && w.usageType == usage && w.value == key.value
    && match key
       case Plain(_, pos) =>
         w.pos == pos && w.aspect == Null && w.number == Null && w.person == Null
         && w.gender == Null && w.tense == Null
       case Verb(_, a, n, p, g, t) =>
         w.pos == VERB && StoresGrammeme(w.aspect, a) && StoresGrammeme(w.number, n)
         && StoresGrammeme(w.person, p) && StoresGrammeme(w.gender, g) && StoresGrammeme(w.tense, t)
  }

  /** The insert of one iteration of `process_words`: the nine-column verb
      insert or the four-column insert, both through `Database.insert`. */
  function WordRow(key: WordKey, usage: string, pid: int): (w: Word)
    ensures StoresKey(w, key, usage, pid)
    ensures key.Verb? || key.pos != VERB ==> WordShape(w)
  {
    match key
    case Verb(v, a, n, p, g, t) =>
      var params := NormalisedParams([PyInt(pid), PyStr(usage), PyStr(v), PyStr(VERB), a, n, p, g, t]);
      Word(pid, usage, v, VERB, params[4], params[5], params[6], params[7], params[8])
    case Plain(v, pos) =>
      Word(pid, usage, v, pos, Null, Null, Null, Null, Null)
  }

  /** The loop of `process_words` over the remaining distinct tuples. */
  function ProcessWordKeys(s: Store, keys: seq<WordKey>, usage: string, pid: int): (r: Store)
    ensures r.categories == s.categories && r.proverbs == s.proverbs
    ensures r.lemmas == s.lemmas && r.usages == s.usages
    ensures s.words <= r.words && |r.words| == |s.words| + |keys|
    ensures forall i :: 0 <= i < |keys| ==> StoresKey(r.words[|s.words| + i], keys[i], usage, pid)
    decreases |keys|
  {
    if |keys| == 0 then s
    else
      var s1 := s.(words := s.words + [WordRow(keys[0], usage, pid)]);
      var r := ProcessWordKeys(s1, keys[1..], usage, pid);
      assert r.words[|s.words|] == s1.words[|s.words|];
      assert forall i :: 1 <= i < |keys| ==> keys[i] == keys[1..][i - 1];
      r
  }

  /** `process_words(text, usage, pid)`. */
  function ProcessWords(s: Store, m: Morphology, text: string, usage: string, pid: int): (r: Store)
    ensures r.categories == s.categories && r.proverbs == s.proverbs
    ensures r.lemmas == s.lemmas && r.usages == s.usages
    ensures s.words <= r.words && |r.words| == |s.words| + |Seqs.Distinct(GetWords(m, text))|
  {
    ProcessWordKeys(s, Seqs.Distinct(GetWords(m, text)), usage, pid)
  }

  /** What `process_words(text, usage, pid)` writes: one word row per
      distinct tuple of the text, verb rows with all five grammemes (a
      missing one stored as 'None') and other rows with none. */
  lemma ProcessWordsRows(s: Store, m: Morphology, text: string, usage: string, pid: int)
    ensures Seqs.NoDups(Seqs.Distinct(GetWords(m, text)))
    ensures StoresKeys(ProcessWords(s, m, text, usage, pid).words, |s.words|, Seqs.Distinct(GetWords(m, text)), usage, pid)
    ensures ShapedFrom(ProcessWords(s, m, text, usage, pid).words, |s.words|)
  {
    var keys := Seqs.Distinct(GetWords(m, text));
    DistinctWellFormed(m, text);
    StoredKeysShape(s, keys, usage, pid);
  }

  /** Rows `from`, `from + 1`, ... of `words` were written for `keys`. */
  predicate StoresKeys(words: seq<Word>, from: nat, keys: seq<WordKey>, usage: string, pid: int) {
    forall i :: 0 <= i < |keys| ==> from + i < |words| && StoresKey(words[from + i], keys[i], usage, pid)
  }

  /** Every word row from index `from` on has the shape of its kind. */
  predicate ShapedFrom(words: seq<Word>, from: nat) {
    forall i :: from <= i < |words| ==> WordShape(words[i])
  }

  /** The distinct tuples of a text are well formed. */
  lemma DistinctWellFormed(m: Morphology, text: string)
    ensures AllWellFormed(Seqs.Distinct(GetWords(m, text)))
  {
    var all := GetWords(m, text);
    WordsOfSound(m, m.tokenize(text));
    assert AllWellFormed(all);
    DistinctKeeps(all);
  }

  predicate AllWellFormed(keys: seq<WordKey>) {
    forall i :: 0 <= i < |keys| ==> WellFormedKey(keys[i])
  }

  lemma DistinctKeeps(all: seq<WordKey>)
    requires AllWellFormed(all)
    ensures AllWellFormed(Seqs.Distinct(all))
  {
    var keys := Seqs.Distinct(all);
    forall i | 0 <= i < |keys| ensures WellFormedKey(keys[i]) {
      var n :| 0 <= n < |all| && all[n] == keys[i];
    }
  }

  /** Well-formed tuples give well-shaped word rows. */
  lemma StoredKeysShape(s: Store, keys: seq<WordKey>, usage: string, pid: int)
    requires AllWellFormed(keys)
    ensures StoresKeys(ProcessWordKeys(s, keys, usage, pid).words, |s.words|, keys, usage, pid)
    ensures ShapedFrom(ProcessWordKeys(s, keys, usage, pid).words, |s.words|)
  {
    var r := ProcessWordKeys(s, keys, usage, pid);
    forall i | |s.words| <= i < |r.words| ensures WordShape(r.words[i]) {
      var j := i - |s.words|;
      assert WellFormedKey(keys[j]);
      assert StoresKey(r.words[|s.words| + j], keys[j], usage, pid);
    }
  }

  // ---------------------------------------------------------------------
  // process_proverb
  // ---------------------------------------------------------------------

  /** The indexing step of `process_proverb` for one proverb: insert the
      proverb row, then index its value and its description, each under its
      own usage site, in both indices. */
  function IndexProverb(s: Store, m: Morphology, proverb: string, description: string, cat: int): (r: Store)
    ensures r.categories == s.categories
    ensures r.proverbs == s.proverbs + [Proverb(proverb, description, cat)]
    ensures Extends(s, r)
  {
    var s1 := s.(proverbs := s.proverbs + [Proverb(proverb, description, cat)]);
    var pid := |s1.proverbs|;
    var s2 := ProcessLemmas(s1, m, proverb, VALUE, pid);
    var s3 := ProcessLemmas(s2, m, description, DESCRIPTION, pid);
    var s4 := ProcessWords(s3, m, proverb, VALUE, pid);
    var s5 := ProcessWords(s4, m, description, DESCRIPTION, pid);
    assert Extends(s, s1) && Extends(s1, s2) && Extends(s2, s3) && Extends(s3, s4) && Extends(s4, s5);
    ExtendsTransitive(s, s1, s2);
    ExtendsTransitive(s, s2, s3);
    ExtendsTransitive(s, s3, s4);
    ExtendsTransitive(s, s4, s5);
    s5
  }

  /** Every usage row `process_lemmas(text, usage, pid)` writes carries
      `usage` and `pid`. */
  lemma ProcessLemmasSite(s: Store, m: Morphology, text: string, usage: string, pid: int)
    ensures var r := ProcessLemmas(s, m, text, usage, pid);
            forall i :: |s.usages| <= i < |r.usages| ==> r.usages[i].usageType == usage && r.usages[i].proverbId == pid
  {
    var all := GetLemmas(m, text);
    var keys := Seqs.Distinct(all);
    var r := ProcessLemmaKeys(s, keys, all, usage, pid);
    ProcessLemmaKeysRecords(s, keys, all, usage, pid);
    RecordedSite(r.lemmas, r.usages, |s.usages|, keys, all, pid, usage);
  }

  /** Recorded rows carry the usage type and proverb id they were recorded
      for. */
  lemma RecordedSite(lemmas: seq<Lemma>, usages: seq<LemmaUsage>, from: nat,
                     keys: seq<LemmaKey>, all: seq<LemmaKey>, pid: int, usage: string)
    requires RecordsKeys(lemmas, usages, from, keys, all, pid, usage)
    requires from + |keys| == |usages|
    ensures forall i :: from <= i < |usages| ==> usages[i].usageType == usage && usages[i].proverbId == pid
  {
    forall i | from <= i < |usages| ensures usages[i].usageType == usage && usages[i].proverbId == pid {
      assert RecordsKeyAt(lemmas, usages, from, keys, all, pid, usage, i - from);
    }
  }

  /** Every word row `process_words(text, usage, pid)` writes carries
      `usage` and `pid`. */
  lemma ProcessWordsSite(s: Store, m: Morphology, text: string, usage: string, pid: int)
    ensures var r := ProcessWords(s, m, text, usage, pid);
            forall i :: |s.words| <= i < |r.words| ==> r.words[i].usageType == usage && r.words[i].proverbId == pid
  {
    var keys := Seqs.Distinct(GetWords(m, text));
    var r := ProcessWordKeys(s, keys, usage, pid);
    forall i | |s.words| <= i < |r.words| ensures r.words[i].usageType == usage && r.words[i].proverbId == pid {
      var j := i - |s.words|;
      assert StoresKey(r.words[|s.words| + j], keys[j], usage, pid);
    }
  }

  /** The usage rows of one inserted proverb: first its value's rows under
      'VALUE', then its description's rows under 'DESCRIPTION', all pointing
      at the new proverb's id. */
  lemma IndexProverbUsages(s: Store, m: Morphology, proverb: string, description: string, cat: int)
    ensures var r := IndexProverb(s, m, proverb, description, cat);
            var pid := |r.proverbs|;
            var lv := |Seqs.Distinct(GetLemmas(m, proverb))|;
            var ld := |Seqs.Distinct(GetLemmas(m, description))|;
            && |r.usages| == |s.usages| + lv + ld
            && (forall i :: |s.usages| <= i < |s.usages| + lv ==>
                  r.usages[i].usageType == VALUE && r.usages[i].proverbId == pid)
            && (forall i :: |s.usages| + lv <= i < |r.usages| ==>
                  r.usages[i].usageType == DESCRIPTION && r.usages[i].proverbId == pid)
  {
    var s1 := s.(proverbs := s.proverbs + [Proverb(proverb, description, cat)]);
    var pid := |s1.proverbs|;
    var s2 := ProcessLemmas(s1, m, proverb, VALUE, pid);
    var s3 := ProcessLemmas(s2, m, description, DESCRIPTION, pid);
    var s4 := ProcessWords(s3, m, proverb, VALUE, pid);
    var r := ProcessWords(s4, m, description, DESCRIPTION, pid);
    assert r.usages == s3.usages;
    ProcessLemmasSite(s1, m, proverb, VALUE, pid);
    ProcessLemmasSite(s2, m, description, DESCRIPTION, pid);
    forall i | |s.usages| <= i < |s2.usages|
      ensures r.usages[i].usageType == VALUE && r.usages[i].proverbId == pid
    {
      assert r.usages[i] == s2.usages[i];
    }
  }

  /** The word rows of one inserted proverb: first its value's rows under
      'VALUE', then its description's rows under 'DESCRIPTION', all pointing
      at the new proverb's id. */
  lemma IndexProverbWords(s: Store, m: Morphology, proverb: string, description: string, cat: int)
    ensures var r := IndexProverb(s, m, proverb, description, cat);
            var pid := |r.proverbs|;
            var wv := |Seqs.Distinct(GetWords(m, proverb))|;
            var wd := |Seqs.Distinct(GetWords(m, description))|;
            && |r.words| == |s.words| + wv + wd
            && (forall i :: |s.words| <= i < |s.words| + wv ==>
                  r.words[i].usageType == VALUE && r.words[i].proverbId == pid)
            && (forall i :: |s.words| + wv <= i < |r.words| ==>
                  r.words[i].usageType == DESCRIPTION && r.words[i].proverbId == pid)
  {
    var s1 := s.(proverbs := s.proverbs + [Proverb(proverb, description, cat)]);
    var pid := |s1.proverbs|;
    var s2 := ProcessLemmas(s1, m, proverb, VALUE, pid);
    var s3 := ProcessLemmas(s2, m, description, DESCRIPTION, pid);
    var s4 := ProcessWords(s3, m, proverb, VALUE, pid);
    var r := ProcessWords(s4, m, description, DESCRIPTION, pid);
    assert s3.words == s.words;
    ProcessWordsSite(s3, m, proverb, VALUE, pid);
    ProcessWordsSite(s4, m, description, DESCRIPTION, pid);
    forall i | |s.words| <= i < |s4.words|
      ensures r.words[i].usageType == VALUE && r.words[i].proverbId == pid
    {
      assert r.words[i] == s4.words[i];
    }
  }

  /** The description the rows of `process_proverb` carry: the text before
      the first marker, or the whole description when it has none. */
  function PrimaryDescription(description: string): string {
    if Text.Contains(description, Marker) then Text.Split(description, Marker)[0] else description
  }

  /** The synonym list of a description: the text between the first and
      the second marker (or the end), split on the item separator. */
  function Synonyms(description: string): seq<string>
    requires Text.Contains(description, Marker)
  {
    Text.SplitHeadIsPrefix(description, Marker);
    Text.Split(Text.Split(description, Marker)[1], SynonymSeparator)
  }

  /** The number of proverb rows `process_proverb` inserts: one without a
      marker; with one, a row per synonym (separators plus one) and the
      parent's row. */
  function ProverbRowCount(description: string): nat {
    if Text.Contains(description, Marker) then
      Text.SplitHeadIsPrefix(description, Marker);
      Text.CountFrom(Text.Split(description, Marker)[1], SynonymSeparator, 0) + 2
    else 1
  }

  /** 1 while the description still holds a marker, 0 after unfolding. */
  function MarkerRank(description: string): nat {
    if Text.Contains(description, Marker) then 1 else 0
  }

  /** The primary description never holds the marker, so every recursive
      call of `process_proverb` takes the no-marker branch: the recursion is
      at most one level deep. */
  lemma PrimaryDescriptionHasNoMarker(description: string)
    ensures !Text.Contains(PrimaryDescription(description), Marker)
    ensures MarkerRank(PrimaryDescription(description)) == 0
    ensures ProverbRowCount(PrimaryDescription(description)) == 1
  {
  }

  /** `process_proverb(proverb, description)` with the current category id
      `cat`. With a marker in the description, each synonym is processed
      first, recursively, with the primary description; then the parent row
      is inserted and indexed. */
  function ProcessProverb(s: Store, m: Morphology, proverb: string, description: string, cat: int): (r: Store)
    ensures r.categories == s.categories
    ensures Extends(s, r)
    ensures |r.proverbs| == |s.proverbs| + ProverbRowCount(description)
    decreases MarkerRank(description), 1
  {
    if Text.Contains(description, Marker) then
      var primary := PrimaryDescription(description);
      PrimaryDescriptionHasNoMarker(description);
      var s1 := ProcessSynonyms(s, m, Synonyms(description), primary, cat);
      IndexProverb(s1, m, proverb, primary, cat)
    else
      IndexProverb(s, m, proverb, description, cat)
  }

  /** The loop of `process_proverb` over the synonyms, all carrying the
      same marker-free description. */
  function ProcessSynonyms(s: Store, m: Morphology, synonyms: seq<string>, description: string, cat: int): (r: Store)
    requires !Text.Contains(description, Marker)
    ensures r.categories == s.categories
    ensures Extends(s, r)
    ensures |r.proverbs| == |s.proverbs| + |synonyms|
    decreases 0, |synonyms| + 1
  {
    if |synonyms| == 0 then s
    else
      var s1 := ProcessProverb(s, m, synonyms[0], description, cat);
      ProcessSynonyms(s1, m, synonyms[1..], description, cat)
  }

  /** The rows of a marker-free description: exactly the one proverb. */
  lemma ProcessProverbPlain(s: Store, m: Morphology, proverb: string, description: string, cat: int)
    requires !Text.Contains(description, Marker)
    ensures ProcessProverb(s, m, proverb, description, cat).proverbs == s.proverbs + [Proverb(proverb, description, cat)]
  {
  }

  /** Rows `from`, `from + 1`, ... of `proverbs` hold `values` in order,
      each with `description` and category `cat`. */
  predicate RowsHold(proverbs: seq<Proverb>, from: nat, values: seq<string>, description: string, cat: int) {
    forall k :: 0 <= k < |values| ==> RowHoldsAt(proverbs, from, values, description, cat, k)
  }

  /** Row `from + k` of `proverbs` holds `values[k]`. */
  predicate RowHoldsAt(proverbs: seq<Proverb>, from: nat, values: seq<string>, description: string, cat: int, k: int) {
    0 <= k < |values| && from + k < |proverbs| && proverbs[from + k] == Proverb(values[k], description, cat)
  }

  /** The synonym loop inserts one row per synonym, in order, each carrying
      the shared description. */
  lemma {:induction false} ProcessSynonymsRows(s: Store, m: Morphology, synonyms: seq<string>, description: string, cat: int)
    requires !Text.Contains(description, Marker)
    ensures RowsHold(ProcessSynonyms(s, m, synonyms, description, cat).proverbs, |s.proverbs|, synonyms, description, cat)
    decreases |synonyms|
  {
    if |synonyms| > 0 {
      var s1 := ProcessProverb(s, m, synonyms[0], description, cat);
      var r := ProcessSynonyms(s1, m, synonyms[1..], description, cat);
      assert r == ProcessSynonyms(s, m, synonyms, description, cat);
      ProcessProverbPlain(s, m, synonyms[0], description, cat);
      ProcessSynonymsRows(s1, m, synonyms[1..], description, cat);
      RowsHoldCons(s.proverbs, s1.proverbs, r.proverbs, synonyms, description, cat);
    }
  }

  lemma RowsHoldCons(p0: seq<Proverb>, p1: seq<Proverb>, p: seq<Proverb>, values: seq<string>, description: string, cat: int)
    requires |values| > 0
    requires p1 == p0 + [Proverb(values[0], description, cat)] && p1 <= p
    requires RowsHold(p, |p1|, values[1..], description, cat)
    ensures RowsHold(p, |p0|, values, description, cat)
  {
    var from1 := |p1|;
    forall k | 0 <= k < |values| ensures RowHoldsAt(p, |p0|, values, description, cat, k) {
      if k == 0 {
        assert p[|p0|] == p1[|p0|];
      } else {
        assert RowHoldsAt(p, from1, values[1..], description, cat, k - 1);
        assert values[k] == values[1..][k - 1];
      }
    }
  }

  /** The proverb rows `process_proverb` inserts for a description with a
      marker: one per synonym, in order, then the parent last, all carrying
      the primary description and the current category. */
  lemma ProcessProverbRows(s: Store, m: Morphology, proverb: string, description: string, cat: int)
    requires Text.Contains(description, Marker)
    ensures var r := ProcessProverb(s, m, proverb, description, cat);
            var syn := Synonyms(description);
            var primary := PrimaryDescription(description);
            && |r.proverbs| == |s.proverbs| + |syn| + 1
            && (forall k :: 0 <= k < |syn| ==> r.proverbs[|s.proverbs| + k] == Proverb(syn[k], primary, cat))
            && r.proverbs[|r.proverbs| - 1] == Proverb(proverb, primary, cat)
  {
    var primary := PrimaryDescription(description);
    PrimaryDescriptionHasNoMarker(description);
    var syn := Synonyms(description);
    var s1 := ProcessSynonyms(s, m, syn, primary, cat);
    var r := IndexProverb(s1, m, proverb, primary, cat);
    ProcessSynonymsRows(s, m, syn, primary, cat);
    forall k | 0 <= k < |syn| ensures r.proverbs[|s.proverbs| + k] == Proverb(syn[k], primary, cat) {
      assert RowHoldsAt(s1.proverbs, |s.proverbs|, syn, primary, cat, k);
      assert r.proverbs[|s.proverbs| + k] == s1.proverbs[|s.proverbs| + k];
    }
  }

  // ---------------------------------------------------------------------
  // The indexer keeps the store valid
  // ---------------------------------------------------------------------

  /** Appending usage rows that each record a key of `all` for an existing
      proverb keeps a valid store valid, provided lemma values stay unique. */
  lemma RecordedUsagesValid(s: Store, r: Store, keys: seq<LemmaKey>, all: seq<LemmaKey>, usage: string, pid: int)
    requires Valid(s) && 1 <= pid <= |s.proverbs|
    requires r.categories == s.categories && r.proverbs == s.proverbs && r.words == s.words
    requires s.lemmas <= r.lemmas && s.usages <= r.usages && |r.usages| == |s.usages| + |keys|
    requires LemmaValuesUnique(r.lemmas)
    requires RecordsKeys(r.lemmas, r.usages, |s.usages|, keys, all, pid, usage)
    requires forall i :: 0 <= i < |keys| ==> keys[i] in all
    ensures Valid(r)
  {
    RecordedFrequenciesPositive(r.lemmas, r.usages, |s.usages|, keys, all, pid, usage);
    forall i | 0 <= i < |r.usages|
      ensures 1 <= r.usages[i].lemmaId <= |r.lemmas| && 1 <= r.usages[i].proverbId <= |r.proverbs|
      ensures r.usages[i].frequency >= 1
    {
      if i < |s.usages| {
        assert r.usages[i] == s.usages[i];
      } else {
        var j := i - |s.usages|;
        assert RecordsKeyAt(r.lemmas, r.usages, |s.usages|, keys, all, pid, usage, j);
      }
    }
  }

  /** `process_lemmas` for an existing proverb keeps the store valid. */
  lemma ProcessLemmasValid(s: Store, m: Morphology, text: string, usage: string, pid: int)
    requires Valid(s) && 1 <= pid <= |s.proverbs|
    ensures Valid(ProcessLemmas(s, m, text, usage, pid))
  {
    var all := GetLemmas(m, text);
    var keys := Seqs.Distinct(all);
    var r := ProcessLemmaKeys(s, keys, all, usage, pid);
    ProcessLemmaKeysRecords(s, keys, all, usage, pid);
    ProcessLemmaKeysLemmaRows(s, keys, all, usage, pid);
    RecordedUsagesValid(s, r, keys, all, usage, pid);
  }

  /** Appending well-shaped word rows for an existing proverb keeps a valid
      store valid. */
  lemma AppendedWordsValid(s: Store, r: Store, keys: seq<WordKey>, usage: string, pid: int)
    requires Valid(s) && 1 <= pid <= |s.proverbs|
    requires r.categories == s.categories && r.proverbs == s.proverbs
    requires r.lemmas == s.lemmas && r.usages == s.usages
    requires s.words <= r.words && |r.words| == |s.words| + |keys|
    requires StoresKeys(r.words, |s.words|, keys, usage, pid)
    requires ShapedFrom(r.words, |s.words|)
    ensures Valid(r)
  {
    forall i | 0 <= i < |r.words|
      ensures 1 <= r.words[i].proverbId <= |r.proverbs| && WordShape(r.words[i])
    {
      if i < |s.words| {
        assert r.words[i] == s.words[i];
      } else {
        var j := i - |s.words|;
        assert StoresKey(r.words[|s.words| + j], keys[j], usage, pid);
      }
    }
  }

  /** `process_words` for an existing proverb keeps the store valid. */
  lemma ProcessWordsValid(s: Store, m: Morphology, text: string, usage: string, pid: int)
    requires Valid(s) && 1 <= pid <= |s.proverbs|
    ensures Valid(ProcessWords(s, m, text, usage, pid))
  {
    ProcessWordsRows(s, m, text, usage, pid);
    AppendedWordsValid(s, ProcessWords(s, m, text, usage, pid), Seqs.Distinct(GetWords(m, text)), usage, pid);
  }

  /** Inserting and indexing a proverb of an existing category keeps the
      store valid. */
  lemma IndexProverbValid(s: Store, m: Morphology, proverb: string, description: string, cat: int)
    requires Valid(s) && 1 <= cat <= |s.categories|
    ensures Valid(IndexProverb(s, m, proverb, description, cat))
  {
    var s1 := s.(proverbs := s.proverbs + [Proverb(proverb, description, cat)]);
    var pid := |s1.proverbs|;
    assert ReferencesResolve(s1) by {
      forall i | 0 <= i < |s1.proverbs| ensures 1 <= s1.proverbs[i].categoryId <= |s1.categories| {
        if i < |s.proverbs| { assert s1.proverbs[i] == s.proverbs[i]; }
      }
    }
    var s2 := ProcessLemmas(s1, m, proverb, VALUE, pid);
    ProcessLemmasValid(s1, m, proverb, VALUE, pid);
    var s3 := ProcessLemmas(s2, m, description, DESCRIPTION, pid);
    ProcessLemmasValid(s2, m, description, DESCRIPTION, pid);
    var s4 := ProcessWords(s3, m, proverb, VALUE, pid);
    ProcessWordsValid(s3, m, proverb, VALUE, pid);
    ProcessWordsValid(s4, m, description, DESCRIPTION, pid);
  }

  /** `process_proverb` under an existing category keeps the store valid,
      synonyms included. */
  lemma ProcessProverbValid(s: Store, m: Morphology, proverb: string, description: string, cat: int)
    requires Valid(s) && 1 <= cat <= |s.categories|
    ensures Valid(ProcessProverb(s, m, proverb, description, cat))
    decreases MarkerRank(description), 1
  {
    if Text.Contains(description, Marker) {
      var primary := PrimaryDescription(description);
      PrimaryDescriptionHasNoMarker(description);
      var s1 := ProcessSynonyms(s, m, Synonyms(description), primary, cat);
      ProcessSynonymsValid(s, m, Synonyms(description), primary, cat);
      IndexProverbValid(s1, m, proverb, primary, cat);
    } else {
      IndexProverbValid(s, m, proverb, description, cat);
    }
  }

  lemma ProcessSynonymsValid(s: Store, m: Morphology, synonyms: seq<string>, description: string, cat: int)
    requires !Text.Contains(description, Marker)
    requires Valid(s) && 1 <= cat <= |s.categories|
    ensures Valid(ProcessSynonyms(s, m, synonyms, description, cat))
    decreases 0, |synonyms| + 1
  {
    if |synonyms| > 0 {
      var s1 := ProcessProverb(s, m, synonyms[0], description, cat);
      ProcessProverbValid(s, m, synonyms[0], description, cat);
      ProcessSynonymsValid(s1, m, synonyms[1..], description, cat);
    }
  }

  // ---------------------------------------------------------------------
  // The ingestion loop
  // ---------------------------------------------------------------------

  /** The inner loop of the script: every proverb of one category, in file
      order, under category id `cat`. */
  function IngestProverbs(s: Store, m: Morphology, proverbs: seq<(string, string)>, cat: int): (r: Store)
    ensures r.categories == s.categories
    ensures Extends(s, r)
    decreases |proverbs|
  {
    if |proverbs| == 0 then s
    else IngestProverbs(ProcessEntry(s, m, proverbs[0], cat), m, proverbs[1..], cat)
  }

  /** One `(proverb, description)` entry of the data file. */
  function ProcessEntry(s: Store, m: Morphology, entry: (string, string), cat: int): (r: Store)
    ensures r.categories == s.categories
    ensures Extends(s, r)
    ensures |r.proverbs| == |s.proverbs| + ProverbRowCount(entry.1)
  {
    ProcessProverb(s, m, entry.0, entry.1, cat)
  }

  /** Number of proverb rows a category's proverbs produce. */
  function RowCount(proverbs: seq<(string, string)>): nat {
    if |proverbs| == 0 then 0 else ProverbRowCount(proverbs[0].1) + RowCount(proverbs[1..])
  }

  /** The category's proverbs add one row per proverb plus one per synonym. */
  lemma {:induction false} IngestProverbsCount(s: Store, m: Morphology, proverbs: seq<(string, string)>, cat: int)
    ensures |IngestProverbs(s, m, proverbs, cat).proverbs| == |s.proverbs| + RowCount(proverbs)
    decreases |proverbs|
  {
    if |proverbs| > 0 {
      IngestProverbsCount(ProcessEntry(s, m, proverbs[0], cat), m, proverbs[1..], cat);
    }
  }

  /** Every row the category's loop inserts carries that category's id. */
  lemma {:induction false} IngestProverbsCategory(s: Store, m: Morphology, proverbs: seq<(string, string)>, cat: int)
    ensures CategoryFrom(IngestProverbs(s, m, proverbs, cat).proverbs, |s.proverbs|, cat)
    decreases |proverbs|
  {
    if |proverbs| > 0 {
      var s1 := ProcessEntry(s, m, proverbs[0], cat);
      ProcessProverbCategory(s, m, proverbs[0].0, proverbs[0].1, cat);
      IngestProverbsCategory(s1, m, proverbs[1..], cat);
      CategoryFromTrans(s.proverbs, s1.proverbs, IngestProverbs(s1, m, proverbs[1..], cat).proverbs, cat);
    }
  }

  lemma CategoryFromTrans(p0: seq<Proverb>, p1: seq<Proverb>, p2: seq<Proverb>, cat: int)
    requires p0 <= p1 <= p2
    requires CategoryFrom(p1, |p0|, cat) && CategoryFrom(p2, |p1|, cat)
    ensures CategoryFrom(p2, |p0|, cat)
  {
    forall i | |p0| <= i < |p2| ensures p2[i].categoryId == cat {
      if i < |p1| { assert p2[i] == p1[i]; }
    }
  }

  /** Every row of `process_proverb` carries the current category id. */
  lemma ProcessProverbCategory(s: Store, m: Morphology, proverb: string, description: string, cat: int)
    ensures CategoryFrom(ProcessProverb(s, m, proverb, description, cat).proverbs, |s.proverbs|, cat)
  {
    if Text.Contains(description, Marker) {
      ProcessProverbRows(s, m, proverb, description, cat);
      var r := ProcessProverb(s, m, proverb, description, cat);
      var syn := Synonyms(description);
      forall i | |s.proverbs| <= i < |r.proverbs| ensures r.proverbs[i].categoryId == cat {
        if i < |r.proverbs| - 1 {
          assert r.proverbs[|s.proverbs| + (i - |s.proverbs|)] == Proverb(syn[i - |s.proverbs|], PrimaryDescription(description), cat);
        }
      }
    } else {
      ProcessProverbPlain(s, m, proverb, description, cat);
    }
  }

  /** Every proverb row from index `from` on belongs to category `cat`. */
  predicate CategoryFrom(proverbs: seq<Proverb>, from: nat, cat: int) {
    forall i :: from <= i < |proverbs| ==> proverbs[i].categoryId == cat
  }

  lemma {:induction false} IngestProverbsValid(s: Store, m: Morphology, proverbs: seq<(string, string)>, cat: int)
    requires Valid(s) && 1 <= cat <= |s.categories|
    ensures Valid(IngestProverbs(s, m, proverbs, cat))
    decreases |proverbs|
  {
    if |proverbs| > 0 {
      ProcessProverbValid(s, m, proverbs[0].0, proverbs[0].1, cat);
      IngestProverbsValid(ProcessEntry(s, m, proverbs[0], cat), m, proverbs[1..], cat);
    }
  }

  /** One category of the data file: insert its row, then its proverbs
      under the new row's id. */
  function IngestCategory(s: Store, m: Morphology, entry: (string, seq<(string, string)>)): (r: Store)
    ensures r.categories == s.categories + [Category(entry.0)]
    ensures Extends(s, r)
  {
    var s1 := s.(categories := s.categories + [Category(entry.0)]);
    IngestProverbs(s1, m, entry.1, |s1.categories|)
  }

  /** The script's main loop over the categories of the data file, in file
      order. */
  function Ingest(s: Store, m: Morphology, data: seq<(string, seq<(string, string)>)>): (r: Store)
    ensures Extends(s, r)
    ensures r.categories == s.categories + CategoryRows(data)
    decreases |data|
  {
    if |data| == 0 then s
    else Ingest(IngestCategory(s, m, data[0]), m, data[1..])
  }

  /** The category rows of the data file, in file order. */
  function CategoryRows(data: seq<(string, seq<(string, string)>)>): (r: seq<Category>)
    ensures |r| == |data|
    ensures forall k :: 0 <= k < |data| ==> r[k] == Category(data[k].0)
  {
    if |data| == 0 then [] else [Category(data[0].0)] + CategoryRows(data[1..])
  }

  lemma IngestCategoryValid(s: Store, m: Morphology, entry: (string, seq<(string, string)>))
    requires Valid(s)
    ensures Valid(IngestCategory(s, m, entry))
  {
    var s1 := s.(categories := s.categories + [Category(entry.0)]);
    IngestProverbsValid(s1, m, entry.1, |s1.categories|);
  }

  /** Ingesting into a valid store keeps it valid; in particular the
      indexer run on a fresh database leaves a valid one. */
  lemma {:induction false} IngestValid(s: Store, m: Morphology, data: seq<(string, seq<(string, string)>)>)
    requires Valid(s)
    ensures Valid(Ingest(s, m, data))
    decreases |data|
  {
    if |data| > 0 {
      IngestCategoryValid(s, m, data[0]);
      IngestValid(IngestCategory(s, m, data[0]), m, data[1..]);
    }
  }

  lemma FreshStoreIngestValid(m: Morphology, data: seq<(string, seq<(string, string)>)>)
    ensures Valid(Ingest(EmptyStore, m, data))
    ensures |Ingest(EmptyStore, m, data).categories| == |data|
  {
    IngestValid(EmptyStore, m, data);
  }
}

=== FILE: quiz.dfy ===
/** The quiz rules of the bot (telegrambot.py), taken out of their message
    handlers: option groups of verbs, the answer comparison of the
    word-order exercise, the meaning quiz (decoys, labels, exclusion pool)
    and the verb quiz (decoy candidates and the four options). Random
    choices read explicit streams (see the Randomness module). */
module Quiz {
  import opened Wrappers
  import opened Db
  import opened Store
  import Seqs
  import Text
  import Randomness

  // ---------------------------------------------------------------------
  // generate_groups
  // ---------------------------------------------------------------------

  /** Pascal's rule: the number of `k`-element subsets of `n` positions. */
  function Binomial(n: nat, k: nat): nat {
    if k == 0 then 1 else if n == 0 then 0 else Binomial(n - 1, k - 1) + Binomial(n - 1, k)
  }

  function PrependAll<T>(x: T, xss: seq<seq<T>>): (r: seq<seq<T>>)
    ensures |r| == |xss|
    ensures forall i :: 0 <= i < |xss| ==> r[i] == [x] + xss[i]
  {
    seq(|xss|, i requires 0 <= i < |xss| => [x] + xss[i])
  }

  /** `itertools.combinations(xs, k)`: the combinations that keep `xs[0]`
      come first, then those that drop it. */
  function Combinations<T>(xs: seq<T>, k: nat): seq<seq<T>>
    decreases |xs|
  {
    if k == 0 then [[]]
    else if |xs| == 0 then []
    else PrependAll(xs[0], Combinations(xs[1..], k - 1)) + Combinations(xs[1..], k)
  }

  /** There are C(n, k) combinations. */
  lemma {:induction false} CombinationsCount<T>(xs: seq<T>, k: nat)
    ensures |Combinations(xs, k)| == Binomial(|xs|, k)
    decreases |xs|
  {
    if k > 0 && |xs| > 0 {
      var with := PrependAll(xs[0], Combinations(xs[1..], k - 1));
      var without := Combinations(xs[1..], k);
      assert Combinations(xs, k) == with + without;
      CombinationsCount(xs[1..], k - 1);
      CombinationsCount(xs[1..], k);
      assert Binomial(|xs|, k) == Binomial(|xs[1..]|, k - 1) + Binomial(|xs[1..]|, k);
    }
  }

  /** Every combination has `k` elements, all taken from `xs`. */
  lemma {:induction false} CombinationsShape<T>(xs: seq<T>, k: nat)
    ensures forall c :: 0 <= c < |Combinations(xs, k)| ==> |Combinations(xs, k)[c]| == k
    ensures forall c, j :: 0 <= c < |Combinations(xs, k)| && 0 <= j < |Combinations(xs, k)[c]| ==>
              Combinations(xs, k)[c][j] in xs
    decreases |xs|
  {
    if k > 0 && |xs| > 0 {
      CombinationsShape(xs[1..], k - 1);
      CombinationsShape(xs[1..], k);
      var with := PrependAll(xs[0], Combinations(xs[1..], k - 1));
      var without := Combinations(xs[1..], k);
      var all := with + without;
      forall c, j | 0 <= c < |all| && 0 <= j < |all[c]| ensures all[c][j] in xs && |all[c]| == k {
        if c < |with| {
          assert all[c] == [xs[0]] + Combinations(xs[1..], k - 1)[c];
          if j > 0 {
            assert all[c][j] == Combinations(xs[1..], k - 1)[c][j - 1];
          }
        } else {
          assert all[c] == without[c - |with|];
        }
      }
      forall c | 0 <= c < |all| ensures |all[c]| == k {
        if c < |with| {
          assert all[c] == [xs[0]] + Combinations(xs[1..], k - 1)[c];
        } else {
          assert all[c] == without[c - |with|];
        }
      }
    }
  }

  /** The combinations of size one are the singletons, in order. */
  lemma {:induction false} SingletonCombinations<T>(xs: seq<T>)
    ensures |Combinations(xs, 1)| == |xs|
    ensures forall i :: 0 <= i < |xs| ==> Combinations(xs, 1)[i] == [xs[i]]
    decreases |xs|
  {
    if |xs| > 0 {
      SingletonCombinations(xs[1..]);
      assert Combinations(xs[1..], 0) == [[]];
      assert [xs[0]] + [] == [xs[0]];
      assert PrependAll(xs[0], [[]]) == [[xs[0]]];
    }
  }

  function JoinGroup(comb: seq<string>): string {
    Text.Join(comb, ", ")
  }

  /** `", ".join(comb)` for every combination. */
  function JoinGroups(combs: seq<seq<string>>): (r: seq<string>)
    ensures |r| == |combs|
  {
    Seqs.Map(combs, JoinGroup)
  }

  /** `generate_groups(verbs, group_size)`: `ValueError` for a size below
      one; otherwise every combination of that size, joined with ", ", in
      a shuffled order. */
  function GenerateGroups(verbs: seq<string>, groupSize: int, draws: seq<nat>): (r: Result<seq<string>>)
    ensures r.Failure? <==> groupSize < 1
    ensures r.Failure? ==> r.error == ValueError
    ensures r.Success? ==> |r.value| == Binomial(|verbs|, groupSize)
    ensures r.Success? ==> multiset(r.value) == multiset(JoinGroups(Combinations(verbs, groupSize)))
  {
    if groupSize < 1 then Failure(ValueError)
    else
      var combos := Combinations(verbs, groupSize);
      CombinationsCount(verbs, groupSize);
      Randomness.ShuffleMap(combos, JoinGroup, draws);
      Success(JoinGroups(Randomness.Shuffle(combos, draws)))
  }

  /** With groups of one, the groups are exactly the input verbs, in some
      order. */
  lemma GenerateGroupsOfOne(verbs: seq<string>, draws: seq<nat>)
    ensures GenerateGroups(verbs, 1, draws).Success?
    ensures multiset(GenerateGroups(verbs, 1, draws).value) == multiset(verbs)
  {
    SingletonCombinations(verbs);
    var singles := JoinGroups(Combinations(verbs, 1));
    forall i | 0 <= i < |verbs| ensures singles[i] == verbs[i] {
      assert Combinations(verbs, 1)[i] == [verbs[i]];
      assert singles[i] == Text.Join([verbs[i]], ", ");
    }
    assert singles == verbs;
  }

  // ---------------------------------------------------------------------
  // compare_strings
  // ---------------------------------------------------------------------

  /** `clean_string`: drop every non-word character, then lower-case. */
  function Clean(s: string): string {
    Text.LowerStr(Text.KeepAlnum(s))
  }

  /** `compare_strings(a, b)`. */
  predicate CompareStrings(a: string, b: string) {
    Clean(a) == Clean(b)
  }

  lemma {:induction false} KeepAlnumAppend(a: string, b: string)
    ensures Text.KeepAlnum(a + b) == Text.KeepAlnum(a) + Text.KeepAlnum(b)
    decreases |a|
  {
    if |a| > 0 {
      assert (a + b)[1..] == a[1..] + b;
      KeepAlnumAppend(a[1..], b);
    } else {
      assert a + b == b;
    }
  }

  lemma {:induction false} KeepAlnumUpper(s: string)
    ensures Text.KeepAlnum(Text.UpperStr(s)) == Text.UpperStr(Text.KeepAlnum(s))
    decreases |s|
  {
    if |s| > 0 {
      Text.AlnumCaseInvariant(s[0]);
      assert Text.UpperStr(s)[1..] == Text.UpperStr(s[1..]);
      KeepAlnumUpper(s[1..]);
      var k := Text.KeepAlnum(s[1..]);
      if Text.IsAlnum(s[0]) {
        assert Text.UpperStr([s[0]] + k) == [Text.Upper(s[0])] + Text.UpperStr(k);
      }
    }
  }

  lemma {:induction false} KeepAlnumLower(s: string)
    ensures Text.KeepAlnum(Text.LowerStr(s)) == Text.LowerStr(Text.KeepAlnum(s))
    decreases |s|
  {
    if |s| > 0 {
      Text.AlnumCaseInvariant(s[0]);
      assert Text.LowerStr(s)[1..] == Text.LowerStr(s[1..]);
      KeepAlnumLower(s[1..]);
      var k := Text.KeepAlnum(s[1..]);
      if Text.IsAlnum(s[0]) {
        assert Text.LowerStr([s[0]] + k) == [Text.Lower(s[0])] + Text.LowerStr(k);
      }
    }
  }

  /** The comparison ignores case: a string matches its upper-case and its
      lower-case form. */
  lemma CompareStringsIgnoresCase(a: string)
    ensures CompareStrings(a, Text.UpperStr(a))
    ensures CompareStrings(a, Text.LowerStr(a))
  {
    KeepAlnumUpper(a);
    KeepAlnumLower(a);
    Text.StrCaseMappingStable(Text.KeepAlnum(a));
  }

  /** The comparison ignores punctuation, dashes and spaces: inserting a
      non-word character anywhere changes nothing. */
  lemma CompareStringsIgnoresNonWord(a: string, b: string, c: char)
    requires !Text.IsAlnum(c)
    ensures CompareStrings(a + b, a + [c] + b)
  {
    KeepAlnumAppend(a, b);
    KeepAlnumAppend(a, [c] + b);
    assert a + [c] + b == a + ([c] + b);
    assert Text.KeepAlnum([c] + b) == Text.KeepAlnum(b) by {
      assert ([c] + b)[1..] == b;
    }
  }

  /** Matching is an equivalence: reflexive, symmetric and transitive. */
  lemma CompareStringsEquivalence(a: string, b: string, c: string)
    ensures CompareStrings(a, a)
    ensures CompareStrings(a, b) ==> CompareStrings(b, a)
    ensures CompareStrings(a, b) && CompareStrings(b, c) ==> CompareStrings(a, c)
  {
  }

  // ---------------------------------------------------------------------
  // The meaning quiz: one question
  // ---------------------------------------------------------------------

  /** A row of `SELECT id, value, description FROM proverb`. */
  datatype ProverbRow = ProverbRow(id: int, value: string, description: string)

  function RowAt(s: Store, i: nat): ProverbRow
    requires i < |s.proverbs|
  {
    ProverbRow(RowId(i), s.proverbs[i].value, s.proverbs[i].description)
  }

  /** `p` is the row of one of the first `n` proverbs, and that proverb
      belongs to category `cat`. */
  predicate RowOfCategory(s: Store, cat: int, n: nat, p: ProverbRow)
    requires n <= |s.proverbs|
  {
    exists i :: 0 <= i < n && s.proverbs[i].categoryId == cat && p == RowAt(s, i)
  }

  /** The proverb rows of category `cat` among the first `n`, in table
      order. */
  function CategoryProverbsUpTo(s: Store, cat: int, n: nat): (r: seq<ProverbRow>)
    requires n <= |s.proverbs|
    ensures |r| <= n
    ensures forall k :: 0 <= k < |r| ==> RowOfCategory(s, cat, n, r[k])
    ensures forall i :: 0 <= i < n && s.proverbs[i].categoryId == cat ==> RowAt(s, i) in r
  {
    if n == 0 then []
    else
      var init := CategoryProverbsUpTo(s, cat, n - 1);
      assert forall k :: 0 <= k < |init| ==> RowOfCategory(s, cat, n, init[k]) by {
        forall k | 0 <= k < |init| ensures RowOfCategory(s, cat, n, init[k]) {
          assert RowOfCategory(s, cat, n - 1, init[k]);
          var i :| 0 <= i < n - 1 && s.proverbs[i].categoryId == cat && init[k] == RowAt(s, i);
        }
      }
      if s.proverbs[n - 1].categoryId == cat then
        assert RowOfCategory(s, cat, n, RowAt(s, n - 1));
        init + [RowAt(s, n - 1)]
      else init
  }

  /** `SELECT id, value, description FROM proverb WHERE category_id = ?`:
      exactly the rows of the category's proverbs. */
  function CategoryProverbs(s: Store, cat: int): (r: seq<ProverbRow>)
    ensures forall k :: 0 <= k < |r| ==> RowOfCategory(s, cat, |s.proverbs|, r[k])
    ensures forall i :: 0 <= i < |s.proverbs| && s.proverbs[i].categoryId == cat ==> RowAt(s, i) in r
  {
    CategoryProverbsUpTo(s, cat, |s.proverbs|)
  }

  /** The descriptions of category `cat` among the first `n` proverbs that
      differ from `correct`, with repetitions. */
  function OtherDescriptionsUpTo(s: Store, cat: int, correct: string, n: nat): (r: seq<string>)
    requires n <= |s.proverbs|
    ensures forall k :: 0 <= k < |r| ==> r[k] != correct
    ensures forall k :: 0 <= k < |r| ==>
              exists i :: 0 <= i < n && s.proverbs[i].categoryId == cat && s.proverbs[i].description == r[k]
    ensures forall i :: 0 <= i < n && s.proverbs[i].categoryId == cat && s.proverbs[i].description != correct ==>
              s.proverbs[i].description in r
  {
    if n == 0 then []
    else
      var init := OtherDescriptionsUpTo(s, cat, correct, n - 1);
      var p := s.proverbs[n - 1];
      if p.categoryId == cat && p.description != correct then init + [p.description] else init
  }

  /** `SELECT DISTINCT description FROM proverb WHERE category_id = ? AND
      description != ?`, before the random order is applied. */
  function OtherDescriptions(s: Store, cat: int, correct: string): (r: seq<string>)
    ensures Seqs.NoDups(r)
    ensures correct !in r
    ensures forall k :: 0 <= k < |r| ==>
              exists i :: 0 <= i < |s.proverbs| && s.proverbs[i].categoryId == cat && s.proverbs[i].description == r[k]
    ensures forall i :: 0 <= i < |s.proverbs| && s.proverbs[i].categoryId == cat && s.proverbs[i].description != correct ==>
              s.proverbs[i].description in r
  {
    var all := OtherDescriptionsUpTo(s, cat, correct, |s.proverbs|);
    var r := Seqs.Distinct(all);
    assert forall k :: 0 <= k < |r| ==> r[k] in all;
    r
  }

  /** The most decoys a question shows. */
  const DecoyLimit: nat := 3

  /** The answer options before labelling: the correct description and up
      to three other descriptions of the category drawn by `ORDER BY
      RANDOM() LIMIT 3`, shuffled. */
  function MeaningOptions(s: Store, cat: int, correct: string, limitDraws: seq<nat>, shuffleDraws: seq<nat>): (r: seq<string>)
    ensures var others := |OtherDescriptions(s, cat, correct)|;
            |r| == 1 + if others < DecoyLimit then others else DecoyLimit
  {
    var decoys := Randomness.RandomLimit(OtherDescriptions(s, cat, correct), DecoyLimit, limitDraws);
    Randomness.Shuffle([correct] + decoys, shuffleDraws)
  }

  /** A shuffle of `[correct] + decoys`, with the decoys drawn from a
      duplicate-free list without `correct`, holds `correct` once, no
      element twice, and otherwise only elements of that list. */
  lemma OptionsFromDecoys<T>(correct: T, others: seq<T>, decoys: seq<T>, r: seq<T>)
    requires Seqs.NoDups(others) && correct !in others
    requires multiset(decoys) <= multiset(others)
    requires multiset(r) == multiset([correct] + decoys)
    ensures Seqs.NoDups(r)
    ensures multiset(r)[correct] == 1
    ensures forall k :: 0 <= k < |r| && r[k] != correct ==> r[k] in others
  {
    var options := [correct] + decoys;
    Seqs.SubMultisetKeepsNoDups(decoys, others);
    assert multiset(others)[correct] == 0;
    assert correct !in multiset(decoys);
    assert Seqs.NoDups(options) by {
      forall i, j | 0 <= i < j < |options| ensures options[i] != options[j] {
        assert options[j] == decoys[j - 1];
        if i > 0 {
          assert options[i] == decoys[i - 1];
        } else {
          assert options[j] in multiset(decoys);
        }
      }
    }
    Seqs.PermutationKeepsNoDups(options, r);
    assert multiset(options) == multiset{correct} + multiset(decoys);
    forall k | 0 <= k < |r| && r[k] != correct ensures r[k] in others {
      assert r[k] in multiset(r);
      assert r[k] in multiset(decoys);
      assert r[k] in multiset(others);
    }
  }

  /** The options are one to four pairwise different descriptions; the
      correct one is among them exactly once and every other one is the
      description of another proverb of the same category. */
  lemma MeaningOptionsSound(s: Store, cat: int, correct: string, limitDraws: seq<nat>, shuffleDraws: seq<nat>)
    ensures var r := MeaningOptions(s, cat, correct, limitDraws, shuffleDraws);
            && 1 <= |r| <= 4
            && Seqs.NoDups(r)
            && multiset(r)[correct] == 1
            && forall k :: 0 <= k < |r| && r[k] != correct ==> r[k] in OtherDescriptions(s, cat, correct)
  {
    var others := OtherDescriptions(s, cat, correct);
    var decoys := Randomness.RandomLimit(others, DecoyLimit, limitDraws);
    OptionsFromDecoys(correct, others, decoys, Randomness.Shuffle([correct] + decoys, shuffleDraws));
  }

  /** The labels of the answer buttons, in order. */
  const Letters: seq<string> := ["А", "Б", "В", "Г"]

  /** No option text is itself one of the labels. */
  predicate NoLabelTexts(options: seq<string>) {
    forall i :: 0 <= i < |options| ==> options[i] !in Letters
  }

  /** The first position holding `x`. */
  function FirstIndex(xs: seq<string>, x: string): (i: nat)
    requires x in xs
    ensures i < |xs| && xs[i] == x
    ensures forall j :: 0 <= j < i ==> xs[j] != x
  {
    if xs[0] == x then 0 else 1 + FirstIndex(xs[1..], x)
  }

  /** The labelling loop of the meaning quiz: every option gets the label
      of its position, and the expected answer, the correct description,
      is replaced by the label of the option that carries it. */
  method LabelOptions(options: seq<string>, correct: string) returns (labelled: seq<string>, answer: string)
    requires |options| <= |Letters|
    ensures |labelled| == |options|
    ensures forall i :: 0 <= i < |options| ==> labelled[i] == Letters[i] + ": " + options[i]
    ensures correct !in options ==> answer == correct
    ensures correct in options && NoLabelTexts(options) ==> answer == Letters[FirstIndex(options, correct)]
  {
    labelled := options;
    answer := correct;
    var number := 0;
    while number < |options|
      invariant 0 <= number <= |options|
      invariant |labelled| == |options|
      invariant forall i :: 0 <= i < number ==> labelled[i] == Letters[i] + ": " + options[i]
      invariant forall i :: number <= i < |options| ==> labelled[i] == options[i]
      invariant correct !in options[..number] ==> answer == correct
      invariant correct in options[..number] && NoLabelTexts(options) ==>
                  answer == Letters[FirstIndex(options, correct)]
    {
      var option := labelled[number];
      if option == answer {
        answer := Letters[number];
      }
      labelled := labelled[number := Letters[number] + ": " + option];
      assert options[..number + 1] == options[..number] + [options[number]];
      number := number + 1;
    }
    assert options[..number] == options;
  }

  /** A question of the meaning quiz: the proverb asked about, its options
      before and after labelling, and the expected reply. */
  datatype MeaningQuestion = MeaningQuestion(proverb: ProverbRow, options: seq<string>,
                                             labelled: seq<string>, answer: string)

  /** Drawing a question from `pool` (the handlers' `random.choice`, the
      decoy query, the shuffle and the labelling). An empty pool raises
      `IndexError`. */
  method AskMeaning(s: Store, cat: int, pool: seq<ProverbRow>,
                    choiceDraws: seq<nat>, limitDraws: seq<nat>, shuffleDraws: seq<nat>)
    returns (r: Result<MeaningQuestion>)
    ensures r.Failure? <==> |pool| == 0
    ensures r.Failure? ==> r.error == IndexError
    ensures r.Success? ==> r.value.proverb in pool
    ensures r.Success? ==> 1 <= |r.value.options| <= 4 && Seqs.NoDups(r.value.options)
    ensures r.Success? ==> multiset(r.value.options)[r.value.proverb.description] == 1
    ensures r.Success? ==> |r.value.labelled| == |r.value.options|
    ensures r.Success? ==> forall i :: 0 <= i < |r.value.options| ==>
              r.value.labelled[i] == Letters[i] + ": " + r.value.options[i]
    ensures r.Success? && NoLabelTexts(r.value.options) ==>
              exists p :: 0 <= p < |r.value.options| && r.value.answer == Letters[p]
                          && r.value.options[p] == r.value.proverb.description
  {
    var chosen := Randomness.Choice(pool, choiceDraws);
    if chosen.Failure? {
      return Failure(chosen.error);
    }
    var q := chosen.value;
    var options := MeaningOptions(s, cat, q.description, limitDraws, shuffleDraws);
    MeaningOptionsSound(s, cat, q.description, limitDraws, shuffleDraws);
    assert q.description in options by {
      assert q.description in multiset(options);
    }
    var labelled, answer := LabelOptions(options, q.description);
    r := Success(MeaningQuestion(q, options, labelled, answer));
    if NoLabelTexts(options) {
      var p := FirstIndex(options, q.description);
      assert r.value.answer == Letters[p];
    }
  }

  /** `process_category` of the meaning quiz: the category must exist
      (`None[0]` raises `TypeError`), and the first question is drawn from
      all of its proverbs. */
  method StartMeaningQuiz(s: Store, cat: int, choiceDraws: seq<nat>, limitDraws: seq<nat>, shuffleDraws: seq<nat>)
    returns (r: Result<MeaningQuestion>)
    ensures CategoryById(s, cat).None? ==> r == Failure(TypeError)
    ensures CategoryById(s, cat).Some? ==> (r.Failure? <==> |CategoryProverbs(s, cat)| == 0)
    ensures CategoryById(s, cat).Some? && r.Failure? ==> r.error == IndexError
    ensures r.Success? ==> r.value.proverb in CategoryProverbs(s, cat)
    ensures r.Success? ==> 1 <= |r.value.options| <= 4
  {
    if CategoryById(s, cat).None? {
      return Failure(TypeError);
    }
    r := AskMeaning(s, cat, CategoryProverbs(s, cat), choiceDraws, limitDraws, shuffleDraws);
  }

  // ---------------------------------------------------------------------
  // The meaning quiz: answers and the exclusion pool
  // ---------------------------------------------------------------------

  /** The proverbs whose value has not been asked yet, in order. */
  function Remaining(categoryProverbs: seq<ProverbRow>, used: seq<string>): (r: seq<ProverbRow>)
    ensures |r| <= |categoryProverbs|
    ensures forall k :: 0 <= k < |r| ==> r[k] in categoryProverbs && r[k].value !in used
    ensures forall i :: 0 <= i < |categoryProverbs| && categoryProverbs[i].value !in used ==>
              categoryProverbs[i] in r
  {
    if |categoryProverbs| == 0 then []
    else
      var rest := Remaining(categoryProverbs[1..], used);
      assert forall i :: 1 <= i < |categoryProverbs| ==> categoryProverbs[i] == categoryProverbs[1..][i - 1];
      (if categoryProverbs[0].value in used then [] else [categoryProverbs[0]]) + rest
  }

  lemma {:induction false} RemainingAfterUse(cp: seq<ProverbRow>, used: seq<string>, v: string)
    ensures |Remaining(cp, used + [v])| <= |Remaining(cp, used)|
    ensures v !in used && (exists i :: 0 <= i < |cp| && cp[i].value == v) ==>
              |Remaining(cp, used + [v])| < |Remaining(cp, used)|
    decreases |cp|
  {
    if |cp| > 0 {
      RemainingAfterUse(cp[1..], used, v);
      if v !in used && exists i :: 0 <= i < |cp| && cp[i].value == v {
        if cp[0].value != v {
          var i :| 0 <= i < |cp| && cp[i].value == v;
          assert cp[1..][i - 1].value == v;
        }
      }
    }
  }

  /** Marking the proverb just asked as used strictly shrinks the pool, so
      a session ends after at most as many questions as the category has
      proverbs. */
  lemma RemainingShrinks(cp: seq<ProverbRow>, used: seq<string>, q: ProverbRow)
    requires q in Remaining(cp, used)
    ensures |Remaining(cp, used + [q.value])| < |Remaining(cp, used)|
  {
    var i :| 0 <= i < |cp| && cp[i] == q;
    RemainingAfterUse(cp, used, q.value);
  }

  /** The reply texts of the two control buttons. */
  const QuitText: string := "Завершити"
  const ChangeCategoryText: string := "Обрати іншу категорію"

  /** What the quiz keeps between two questions. */
  datatype MeaningSession = MeaningSession(categoryProverbs: seq<ProverbRow>, used: seq<string>,
                                           correctAnswers: nat, current: MeaningQuestion)

  /** What a reply leads to. */
  datatype AnswerStep =
    | Quit
    | ChangeCategory
    | Finished(correctAnswers: nat, total: nat)
    | Next(correctAnswers: nat, used: seq<string>, pool: seq<ProverbRow>)

  /** `check_answer` of the meaning quiz, up to drawing the next question
      from the returned pool. */
  function AnswerMeaning(st: MeaningSession, text: string): (r: AnswerStep)
    ensures (r.Quit? <==> text == QuitText) && (r.ChangeCategory? <==> text == ChangeCategoryText)
    ensures r.Finished? <==>
              && text != QuitText && text != ChangeCategoryText
              && forall i :: 0 <= i < |st.categoryProverbs| ==>
                   st.categoryProverbs[i].value in st.used + [st.current.proverb.value]
    ensures (r.Finished? || r.Next?) ==>
              r.correctAnswers == st.correctAnswers + (if text == st.current.answer then 1 else 0)
    ensures r.Finished? ==> r.total == |st.categoryProverbs|
    ensures r.Next? ==> r.used == st.used + [st.current.proverb.value] && |r.pool| > 0
    ensures r.Next? ==> forall k :: 0 <= k < |r.pool| ==> r.pool[k] in st.categoryProverbs && r.pool[k].value !in r.used
  {
    if text == QuitText then Quit
    else if text == ChangeCategoryText then ChangeCategory
    else
      var score := st.correctAnswers + (if text == st.current.answer then 1 else 0);
      var used := st.used + [st.current.proverb.value];
      var pool := Remaining(st.categoryProverbs, used);
      if |pool| == 0 then
        assert forall i :: 0 <= i < |st.categoryProverbs| ==> st.categoryProverbs[i].value in used;
        Finished(score, |st.categoryProverbs|)
      else
        assert pool[0] in st.categoryProverbs && pool[0].value !in used;
        Next(score, used, pool)
  }

  /** What holds of every session: the asked values are distinct values of
      the category, the current question has not been asked before, and
      the score does not exceed the number of answered questions. */
  predicate SessionInvariant(st: MeaningSession) {
    && Seqs.NoDups(st.used)
    && (forall i :: 0 <= i < |st.used| ==> st.used[i] in Values(st.categoryProverbs))
    && st.current.proverb in st.categoryProverbs
    && st.current.proverb.value !in st.used
    && st.correctAnswers <= |st.used|
  }

  function Values(rows: seq<ProverbRow>): (r: seq<string>)
    ensures |r| == |rows|
    ensures forall i :: 0 <= i < |rows| ==> r[i] == rows[i].value
  {
    seq(|rows|, i requires 0 <= i < |rows| => rows[i].value)
  }

  /** A session starts with the invariant. */
  lemma SessionStart(cp: seq<ProverbRow>, q: MeaningQuestion)
    requires q.proverb in cp
    ensures SessionInvariant(MeaningSession(cp, [], 0, q))
  {
  }

  /** Answering and asking the next question from the returned pool keeps
      the invariant. */
  lemma AnswerKeepsInvariant(st: MeaningSession, text: string, next: MeaningQuestion)
    requires SessionInvariant(st)
    requires AnswerMeaning(st, text).Next?
    requires next.proverb in AnswerMeaning(st, text).pool
    ensures var r := AnswerMeaning(st, text);
            SessionInvariant(MeaningSession(st.categoryProverbs, r.used, r.correctAnswers, next))
  {
    var r := AnswerMeaning(st, text);
    var v := st.current.proverb.value;
    assert v in Values(st.categoryProverbs) by {
      var i :| 0 <= i < |st.categoryProverbs| && st.categoryProverbs[i] == st.current.proverb;
      assert Values(st.categoryProverbs)[i] == v;
    }
    assert Seqs.NoDups(r.used) by {
      forall i, j | 0 <= i < j < |r.used| ensures r.used[i] != r.used[j] {
        if j == |st.used| {
          assert r.used[i] == st.used[i];
        }
      }
    }
    var k :| 0 <= k < |r.pool| && r.pool[k] == next.proverb;
  }

  /** The final score never exceeds the number of proverbs it is reported
      against. */
  lemma FinishedScoreBound(st: MeaningSession, text: string)
    requires SessionInvariant(st)
    requires AnswerMeaning(st, text).Finished?
    ensures AnswerMeaning(st, text).correctAnswers <= AnswerMeaning(st, text).total
  {
    var used := st.used + [st.current.proverb.value];
    assert used[|st.used|] == st.current.proverb.value;
    assert Seqs.NoDups(used) by {
      forall i, j | 0 <= i < j < |used| ensures used[i] != used[j] {
        if j == |st.used| {
          assert used[i] == st.used[i];
        }
      }
    }
    forall i | 0 <= i < |used| ensures used[i] in Values(st.categoryProverbs) {
      if i == |st.used| {
        var k :| 0 <= k < |st.categoryProverbs| && st.categoryProverbs[k] == st.current.proverb;
        assert Values(st.categoryProverbs)[k] == used[i];
      } else {
        assert used[i] == st.used[i];
      }
    }
    Seqs.NoDupsInclusionLength(used, Values(st.categoryProverbs));
  }

  // ---------------------------------------------------------------------
  // The meaning quiz: the chat state between replies
  // ---------------------------------------------------------------------

  /** The session the handler leaves behind after a reply, `None` when it
      clears the state. After the completion report it returns without
      clearing anything, so the session stays, with the asked value marked
      used, the new score and the same expected answer; `next` is the
      question drawn from the pool otherwise. */
  function StateAfterReplyAsWritten(st: MeaningSession, text: string, next: MeaningQuestion): (r: Option<MeaningSession>)
    ensures r.None? <==> text == QuitText || text == ChangeCategoryText
    ensures AnswerMeaning(st, text).Finished? ==>
              && r.Some? && r.value.current == st.current && r.value.categoryProverbs == st.categoryProverbs
              && r.value.correctAnswers == AnswerMeaning(st, text).correctAnswers
              && r.value.used == st.used + [st.current.proverb.value]
    ensures AnswerMeaning(st, text).Next? ==> r.Some? && r.value.current == next
  {
    var a := AnswerMeaning(st, text);
    match a
    case Quit => None
    case ChangeCategory => None
    case Finished(score, _) =>
      Some(MeaningSession(st.categoryProverbs, st.used + [st.current.proverb.value], score, st.current))
    case Next(score, used, _) =>
      Some(MeaningSession(st.categoryProverbs, used, score, next))
  }

  /** Replying again after the completion report, in the session the
      handler keeps, reports completion again against the same total, and
      the reply is scored again. */
  lemma ReplyAfterCompletionRescored(st: MeaningSession, text: string, next: MeaningQuestion)
    requires AnswerMeaning(st, text).Finished?
    ensures var st2 := StateAfterReplyAsWritten(st, text, next).value;
            && AnswerMeaning(st2, text).Finished?
            && AnswerMeaning(st2, text).total == AnswerMeaning(st, text).total
            && AnswerMeaning(st2, text).correctAnswers
               == AnswerMeaning(st, text).correctAnswers + (if text == st.current.answer then 1 else 0)
  {
    var st2 := StateAfterReplyAsWritten(st, text, next).value;
    forall i | 0 <= i < |st2.categoryProverbs| ensures st2.categoryProverbs[i].value in st2.used + [st2.current.proverb.value] {
      assert st.categoryProverbs[i].value in st.used + [st.current.proverb.value];
    }
  }

  /** A category with one proverb: the right answer completes the quiz
      with one out of one, and the same answer sent once more, in the
      session the handler keeps, is reported as two out of one. */
  lemma CompletionOverscores()
    ensures var row := ProverbRow(1, "p", "d");
            var q := MeaningQuestion(row, ["d"], ["А: d"], "А");
            var st := MeaningSession([row], [], 0, q);
            && SessionInvariant(st)
            && AnswerMeaning(st, "А") == Finished(1, 1)
            && AnswerMeaning(StateAfterReplyAsWritten(st, "А", q).value, "А") == Finished(2, 1)
  {
    var row := ProverbRow(1, "p", "d");
    var q := MeaningQuestion(row, ["d"], ["А: d"], "А");
    var st := MeaningSession([row], [], 0, q);
    assert Remaining([row], ["p"]) == [];
    assert Remaining([row], ["p", "p"]) == [];
    ReplyAfterCompletionRescored(st, "А", q);
  }

  /** The chat state of the meaning quiz when a completed quiz no longer
      scores replies. `Completed` keeps the answering state, which the
      end-of-quiz "change category" button reads to route back to the
      category choice, but passes no further answer to the scoring. */
  datatype QuizState = Answering(session: MeaningSession) | Completed(session: MeaningSession) | Cleared

  /** A reply when the completion report moves the chat to `Completed`.
      The reply's outcome, if any, comes with the next state; `next` is
      the question drawn from the pool. */
  function CorrectedReply(q: QuizState, text: string, next: MeaningQuestion): (r: (QuizState, Option<AnswerStep>))
    ensures q.Cleared? ==> r.0.Cleared? && r.1.None?
    ensures q.Answering? ==> r.1 == Some(AnswerMeaning(q.session, text))
    ensures q.Completed? && text != QuitText && text != ChangeCategoryText ==> r == (q, None)
    ensures q.Completed? && (text == QuitText || text == ChangeCategoryText) ==>
              r.0.Cleared? && r.1 == Some(AnswerMeaning(q.session, text))
    ensures r.0.Answering? <==> q.Answering? && AnswerMeaning(q.session, text).Next?
    ensures r.0.Answering? ==> r.0.session.current == next
    ensures r.0.Completed? <==> (q.Completed? && text != QuitText && text != ChangeCategoryText)
                                || (q.Answering? && AnswerMeaning(q.session, text).Finished?)
  {
    match q
    case Cleared => (Cleared, None)
    case Completed(st) =>
      if text == QuitText || text == ChangeCategoryText then (Cleared, Some(AnswerMeaning(st, text)))
      else (q, None)
    case Answering(st) =>
      var a := AnswerMeaning(st, text);
      match a
      case Next(score, used, _) => (Answering(MeaningSession(st.categoryProverbs, used, score, next)), Some(a))
      case Finished(score, _) =>
        (Completed(MeaningSession(st.categoryProverbs, st.used + [st.current.proverb.value], score, st.current)), Some(a))
      case _ => (Cleared, Some(a))
  }

  /** An answering chat keeps the session invariant; a completed one keeps
      a score within its category's size. */
  predicate StateInvariant(q: QuizState) {
    && (q.Answering? ==> SessionInvariant(q.session))
    && (q.Completed? ==> q.session.correctAnswers <= |q.session.categoryProverbs|)
  }

  /** With completed quizzes no longer scored, every reply keeps the
      invariant, so every completion report in a chat, not only the first,
      has a score within its total. */
  lemma CorrectedReportsBounded(q: QuizState, text: string, next: MeaningQuestion)
    requires StateInvariant(q)
    requires q.Answering? && AnswerMeaning(q.session, text).Next? ==> next.proverb in AnswerMeaning(q.session, text).pool
    ensures StateInvariant(CorrectedReply(q, text, next).0)
    ensures var rep := CorrectedReply(q, text, next).1;
            rep.Some? && rep.value.Finished? ==> rep.value.correctAnswers <= rep.value.total
  {
    if q.Answering? {
      var a := AnswerMeaning(q.session, text);
      if a.Next? {
        AnswerKeepsInvariant(q.session, text, next);
      } else if a.Finished? {
        FinishedScoreBound(q.session, text);
      }
    }
  }

  // ---------------------------------------------------------------------
  // The verb quiz
  // ---------------------------------------------------------------------

  /** `w` is a verb of proverb `pid` in the proverb text. */
  predicate IsValueVerbOf(w: Word, pid: int) {
    w.pos == VERB && w.proverbId == pid && w.usageType == VALUE
  }

  predicate HasValueVerb(s: Store, pid: int) {
    exists j :: 0 <= j < |s.words| && IsValueVerbOf(s.words[j], pid)
  }

  /** The `(id, value)` row of a proverb. */
  datatype ProverbRef = ProverbRef(id: int, value: string)

  /** `p` is the row of one of the first `n` proverbs, which belongs to
      `cat` and has a verb in its text. */
  predicate VerbProverbOf(s: Store, cat: int, n: nat, p: ProverbRef)
    requires n <= |s.proverbs|
  {
    exists i :: 0 <= i < n && s.proverbs[i].categoryId == cat && HasValueVerb(s, RowId(i))
                && p == ProverbRef(RowId(i), s.proverbs[i].value)
  }

  function VerbProverbsUpTo(s: Store, cat: int, n: nat): (r: seq<ProverbRef>)
    requires n <= |s.proverbs|
    ensures forall k :: 0 <= k < |r| ==> VerbProverbOf(s, cat, n, r[k])
    ensures forall i :: 0 <= i < n && s.proverbs[i].categoryId == cat && HasValueVerb(s, RowId(i)) ==>
              ProverbRef(RowId(i), s.proverbs[i].value) in r
  {
    if n == 0 then []
    else
      var init := VerbProverbsUpTo(s, cat, n - 1);
      assert forall k :: 0 <= k < |init| ==> VerbProverbOf(s, cat, n, init[k]) by {
        forall k | 0 <= k < |init| ensures VerbProverbOf(s, cat, n, init[k]) {
          assert VerbProverbOf(s, cat, n - 1, init[k]);
          var i :| 0 <= i < n - 1 && s.proverbs[i].categoryId == cat && HasValueVerb(s, RowId(i))
                   && init[k] == ProverbRef(RowId(i), s.proverbs[i].value);
        }
      }
      var p := s.proverbs[n - 1];
      if p.categoryId == cat && HasValueVerb(s, RowId(n - 1)) then
        assert VerbProverbOf(s, cat, n, ProverbRef(RowId(n - 1), p.value));
        init + [ProverbRef(RowId(n - 1), p.value)]
      else init
  }

  /** `SELECT DISTINCT proverb.id, proverb.value FROM proverb JOIN word ...
      WHERE proverb.category_id = ? AND word.pos = 'VERB' AND
      word.usage_type = 'VALUE'`: the category's proverbs that have a verb
      in their text, each once, in proverb order. */
  function VerbProverbs(s: Store, cat: int): (r: seq<ProverbRef>)
    ensures forall k :: 0 <= k < |r| ==> VerbProverbOf(s, cat, |s.proverbs|, r[k])
    ensures forall i :: 0 <= i < |s.proverbs| && s.proverbs[i].categoryId == cat && HasValueVerb(s, RowId(i)) ==>
              ProverbRef(RowId(i), s.proverbs[i].value) in r
  {
    VerbProverbsUpTo(s, cat, |s.proverbs|)
  }

  /** The first of the first `n` word rows that is a verb of proverb
      `pid`'s text. */
  function FirstValueVerb(s: Store, pid: int, n: nat): (r: Option<nat>)
    requires n <= |s.words|
    ensures r.Some? ==> r.value < n && IsValueVerbOf(s.words[r.value], pid)
    ensures r.Some? ==> forall j :: 0 <= j < r.value ==> !IsValueVerbOf(s.words[j], pid)
    ensures r.None? <==> forall j :: 0 <= j < n ==> !IsValueVerbOf(s.words[j], pid)
  {
    if n == 0 then None
    else
      var init := FirstValueVerb(s, pid, n - 1);
      if init.Some? then init
      else if IsValueVerbOf(s.words[n - 1], pid) then Some(n - 1)
      else None
  }

  /** `SELECT value, aspect, number, gender, tense FROM word WHERE pos =
      'VERB' AND proverb_id = ? AND usage_type = 'VALUE'` through
      `select_one`: the first such row, if any. */
  function CorrectVerb(s: Store, pid: int): (r: Option<Word>)
    ensures r.Some? <==> HasValueVerb(s, pid)
    ensures r.Some? ==> IsValueVerbOf(r.value, pid) && r.value in s.words
  {
    var j := FirstValueVerb(s, pid, |s.words|);
    if j.Some? then Some(s.words[j.value]) else None
  }

  /** The aspect, number, gender and tense of the correct verb, read back
      from its row and bound again by `select_all`. */
  function FeatureParams(correct: Word): (r: seq<SqlValue>)
    ensures |r| == 4
  {
    NormalisedParams([Fetch(correct.aspect), Fetch(correct.number), Fetch(correct.gender), Fetch(correct.tense)])
  }

  /** The filter of the decoy query `SELECT DISTINCT word.value FROM word
      JOIN proverb ON proverb_id = proverb.id WHERE word.pos = 'VERB' AND
      word.proverb_id != ? AND word.aspect = ? AND word.number = ? AND
      word.gender = ? AND word.tense = ?`, with `exclude`, when present, a
      value the row must also differ from. */
  predicate DecoyRow(s: Store, w: Word, pid: int, feats: seq<SqlValue>, exclude: Option<string>)
    requires |feats| == 4
  {
    && w.pos == VERB
    && w.proverbId != pid
    && ProverbById(s, w.proverbId).Some?
    && SqlEq(w.aspect, feats[0]) && SqlEq(w.number, feats[1])
    && SqlEq(w.gender, feats[2]) && SqlEq(w.tense, feats[3])
    && (exclude.None? || w.value != exclude.value)
  }

  predicate DecoyValueBelow(s: Store, pid: int, feats: seq<SqlValue>, exclude: Option<string>, n: nat, v: string)
    requires |feats| == 4 && n <= |s.words|
  {
    exists j :: 0 <= j < n && DecoyRow(s, s.words[j], pid, feats, exclude) && s.words[j].value == v
  }

  function DecoyValuesUpTo(s: Store, pid: int, feats: seq<SqlValue>, exclude: Option<string>, n: nat): (r: seq<string>)
    requires |feats| == 4 && n <= |s.words|
    ensures forall k :: 0 <= k < |r| ==> DecoyValueBelow(s, pid, feats, exclude, n, r[k])
    ensures forall j :: 0 <= j < n && DecoyRow(s, s.words[j], pid, feats, exclude) ==> s.words[j].value in r
  {
    if n == 0 then []
    else
      var init := DecoyValuesUpTo(s, pid, feats, exclude, n - 1);
      assert forall k :: 0 <= k < |init| ==> DecoyValueBelow(s, pid, feats, exclude, n, init[k]) by {
        forall k | 0 <= k < |init| ensures DecoyValueBelow(s, pid, feats, exclude, n, init[k]) {
          assert DecoyValueBelow(s, pid, feats, exclude, n - 1, init[k]);
          var j :| 0 <= j < n - 1 && DecoyRow(s, s.words[j], pid, feats, exclude) && s.words[j].value == init[k];
        }
      }
      var w := s.words[n - 1];
      if DecoyRow(s, w, pid, feats, exclude) then
        assert DecoyValueBelow(s, pid, feats, exclude, n, w.value);
        init + [w.value]
      else init
  }

  /** The distinct decoy values, in word-table order. */
  function DecoyValues(s: Store, pid: int, correct: Word, exclude: Option<string>): (r: seq<string>)
    ensures Seqs.NoDups(r)
    ensures forall v :: v in r <==> DecoyValueBelow(s, pid, FeatureParams(correct), exclude, |s.words|, v)
  {
    var feats := FeatureParams(correct);
    var all := DecoyValuesUpTo(s, pid, feats, exclude, |s.words|);
    var r := Seqs.Distinct(all);
    forall v ensures v in r <==> DecoyValueBelow(s, pid, feats, exclude, |s.words|, v) {
      if v in r {
        var k :| 0 <= k < |all| && all[k] == v;
      }
      if DecoyValueBelow(s, pid, feats, exclude, |s.words|, v) {
        var j :| 0 <= j < |s.words| && DecoyRow(s, s.words[j], pid, feats, exclude) && s.words[j].value == v;
        var k :| 0 <= k < |all| && all[k] == v;
      }
    }
    r
  }

  /** The decoy candidates as the handlers query them: verbs of other
      proverbs with the same grammatical features, excluded by proverb id
      only. */
  function VerbCandidatesAsWritten(s: Store, pid: int, correct: Word): (r: seq<string>)
    ensures Seqs.NoDups(r)
    ensures forall v :: v in r <==> DecoyValueBelow(s, pid, FeatureParams(correct), None, |s.words|, v)
  {
    DecoyValues(s, pid, correct, None)
  }

  /** The decoy candidates with the correct verb's own value excluded as
      well. */
  function VerbCandidates(s: Store, pid: int, correct: Word): (r: seq<string>)
    ensures Seqs.NoDups(r)
    ensures correct.value !in r
    ensures forall v :: v in r <==> v in VerbCandidatesAsWritten(s, pid, correct) && v != correct.value
  {
    var r := DecoyValues(s, pid, correct, Some(correct.value));
    var feats := FeatureParams(correct);
    forall v ensures v in r <==> v in VerbCandidatesAsWritten(s, pid, correct) && v != correct.value {
      if v in VerbCandidatesAsWritten(s, pid, correct) && v != correct.value {
        var j :| 0 <= j < |s.words| && DecoyRow(s, s.words[j], pid, feats, None) && s.words[j].value == v;
        assert DecoyRow(s, s.words[j], pid, feats, Some(correct.value));
      }
      if v in r {
        var j :| 0 <= j < |s.words| && DecoyRow(s, s.words[j], pid, feats, Some(correct.value)) && s.words[j].value == v;
        assert DecoyRow(s, s.words[j], pid, feats, None);
      }
    }
    r
  }

  /** A decoy row agrees with the correct verb on the four features: the
      read-back of a stored value, bound again by `select_all`, compares
      equal to exactly that stored value, also for the text 'None' written
      for a missing feature. */
  lemma DecoyFeaturesAgree(s: Store, w: Word, pid: int, correct: Word)
    requires Valid(s) && correct in s.words && correct.pos == VERB
    requires w in s.words && w.pos == VERB
    ensures SqlEq(w.aspect, FeatureParams(correct)[0]) <==> w.aspect == correct.aspect
    ensures SqlEq(w.number, FeatureParams(correct)[1]) <==> w.number == correct.number
    ensures SqlEq(w.gender, FeatureParams(correct)[2]) <==> w.gender == correct.gender
    ensures SqlEq(w.tense, FeatureParams(correct)[3]) <==> w.tense == correct.tense
  {
    var i :| 0 <= i < |s.words| && s.words[i] == correct;
    var j :| 0 <= j < |s.words| && s.words[j] == w;
    assert WordShape(s.words[i]) && WordShape(s.words[j]);
  }

  /** The three decoys: the candidates, each turned into a group of one
      by `generate_groups`, of which `random.sample` picks three. Fewer
      than three candidates make `random.sample` raise `ValueError`. */
  function VerbDecoys(candidates: seq<string>, groupDraws: seq<nat>, sampleDraws: seq<nat>): (r: Result<seq<string>>)
    ensures r.Failure? <==> |candidates| < DecoyLimit
    ensures r.Failure? ==> r.error == ValueError
    ensures r.Success? ==> |r.value| == DecoyLimit && multiset(r.value) <= multiset(candidates)
  {
    GenerateGroupsOfOne(candidates, groupDraws);
    var groups := GenerateGroups(candidates, 1, groupDraws).value;
    Randomness.Sample(groups, DecoyLimit, sampleDraws)
  }

  /** The four options of a verb question: the correct verb and the three
      decoys, shuffled. */
  function VerbOptions(correct: string, candidates: seq<string>,
                       groupDraws: seq<nat>, sampleDraws: seq<nat>, shuffleDraws: seq<nat>): (r: Result<seq<string>>)
    ensures r.Failure? <==> |candidates| < DecoyLimit
    ensures r.Failure? ==> r.error == ValueError
    ensures r.Success? ==> |r.value| == DecoyLimit + 1 && correct in r.value
  {
    var decoys := VerbDecoys(candidates, groupDraws, sampleDraws);
    if decoys.Failure? then Failure(decoys.error)
    else
      var r := Randomness.Shuffle([correct] + decoys.value, shuffleDraws);
      assert correct in multiset(r);
      Success(r)
  }

  /** With duplicate-free candidates that do not include the correct verb,
      the four options are pairwise different, hold the correct verb
      exactly once, and the other three are candidates. */
  lemma VerbOptionsSound(correct: string, candidates: seq<string>,
                         groupDraws: seq<nat>, sampleDraws: seq<nat>, shuffleDraws: seq<nat>)
    requires Seqs.NoDups(candidates) && correct !in candidates
    requires |candidates| >= DecoyLimit
    ensures var r := VerbOptions(correct, candidates, groupDraws, sampleDraws, shuffleDraws).value;
            && Seqs.NoDups(r)
            && multiset(r)[correct] == 1
            && forall k :: 0 <= k < |r| && r[k] != correct ==> r[k] in candidates
  {
    var sample := VerbDecoys(candidates, groupDraws, sampleDraws).value;
    OptionsFromDecoys(correct, candidates, sample, Randomness.Shuffle([correct] + sample, shuffleDraws));
  }

  /** When the correct verb is one of exactly three candidates, every
      question shows it twice: the sample has to take all three. */
  lemma CorrectOfferedTwice(correct: string, candidates: seq<string>,
                            groupDraws: seq<nat>, sampleDraws: seq<nat>, shuffleDraws: seq<nat>)
    requires |candidates| == DecoyLimit && correct in candidates
    ensures VerbOptions(correct, candidates, groupDraws, sampleDraws, shuffleDraws).Success?
    ensures multiset(VerbOptions(correct, candidates, groupDraws, sampleDraws, shuffleDraws).value)[correct] >= 2
  {
    var sample := VerbDecoys(candidates, groupDraws, sampleDraws).value;
    var r := Randomness.Shuffle([correct] + sample, shuffleDraws);
    Seqs.SubMultisetSameSize(sample, candidates);
    assert multiset([correct] + sample) == multiset{correct} + multiset(candidates);
    assert correct in multiset(candidates);
    assert multiset(r)[correct] >= 2;
  }

  /** A store that satisfies the store invariant, with two proverbs of one
      category sharing the verb form "знає" and two more verbs of the same
      features. It holds no lemma or usage rows. */
  const SharedVerbStore: Store :=
    var f := Word(0, VALUE, "", VERB, Text("impf"), Text("sing"), Text("3per"), Text("None"), Text("pres"));
    Store([Category("c")],
          [Proverb("p1", "d1", 1), Proverb("p2", "d2", 1), Proverb("p3", "d3", 1), Proverb("p4", "d4", 1)],
          [], [],
          [f.(proverbId := 1, value := "знає"), f.(proverbId := 2, value := "знає"),
           f.(proverbId := 3, value := "має"), f.(proverbId := 4, value := "сидить")])

  /** That store satisfies the store invariant. */
  lemma SharedVerbStoreValid()
    ensures Valid(SharedVerbStore)
  {
    var s := SharedVerbStore;
    forall i | 0 <= i < |s.words| ensures WordShape(s.words[i]) && 1 <= s.words[i].proverbId <= |s.proverbs| {
    }
    forall i | 0 <= i < |s.proverbs| ensures 1 <= s.proverbs[i].categoryId <= |s.categories| {
    }
  }

  lemma SharedVerbFeatures()
    ensures FeatureParams(SharedVerbStore.words[0]) == [Text("impf"), Text("sing"), Text("None"), Text("pres")]
  {
    var args := [PyStr("impf"), PyStr("sing"), PyStr("None"), PyStr("pres")];
    assert UpdateArgs(args) == args;
  }

  /** Which words of that store pass the decoy filter for the first
      proverb: all but its own. */
  lemma SharedVerbDecoyRows()
    ensures var s := SharedVerbStore;
            var feats := FeatureParams(s.words[0]);
            && !DecoyRow(s, s.words[0], 1, feats, None)
            && DecoyRow(s, s.words[1], 1, feats, None)
            && DecoyRow(s, s.words[2], 1, feats, None)
            && DecoyRow(s, s.words[3], 1, feats, None)
  {
    SharedVerbFeatures();
  }

  /** The decoy values of the first proverb of that store, before
      duplicates are dropped. */
  lemma SharedVerbDecoyValues()
    ensures DecoyValuesUpTo(SharedVerbStore, 1, FeatureParams(SharedVerbStore.words[0]), None, |SharedVerbStore.words|)
            == ["знає", "має", "сидить"]
  {
    var s := SharedVerbStore;
    var feats := FeatureParams(s.words[0]);
    SharedVerbDecoyRows();
    assert DecoyValuesUpTo(s, 1, feats, None, 1) == [];
    assert DecoyValuesUpTo(s, 1, feats, None, 2) == ["знає"];
    assert DecoyValuesUpTo(s, 1, feats, None, 3) == ["знає", "має"];
  }

  /** When the decoy values hold no duplicates, the candidates as written
      are those values in word-table order. */
  lemma CandidatesWithoutDuplicates(s: Store, pid: int, correct: Word)
    requires Seqs.NoDups(DecoyValuesUpTo(s, pid, FeatureParams(correct), None, |s.words|))
    ensures VerbCandidatesAsWritten(s, pid, correct) == DecoyValuesUpTo(s, pid, FeatureParams(correct), None, |s.words|)
  {
    Seqs.DistinctOfNoDups(DecoyValuesUpTo(s, pid, FeatureParams(correct), None, |s.words|));
  }

  /** The candidates as written for the first proverb of that store. */
  lemma SharedVerbCandidates()
    ensures VerbCandidatesAsWritten(SharedVerbStore, 1, SharedVerbStore.words[0]) == ["знає", "має", "сидить"]
  {
    SharedVerbDecoyValues();
    var a, b, c := "знає", "має", "сидить";
    assert a[0] == 'з' && b[0] == 'м' && c[0] == 'с';
    Seqs.NoDupsOfThree(a, b, c);
    CandidatesWithoutDuplicates(SharedVerbStore, 1, SharedVerbStore.words[0]);
  }

  /** The verb the question about the first proverb of that store asks for
      is "знає", its first word. */
  lemma SharedVerbCorrect()
    ensures CorrectVerb(SharedVerbStore, 1) == Some(SharedVerbStore.words[0])
    ensures SharedVerbStore.words[0].value == "знає"
  {
    var s := SharedVerbStore;
    assert IsValueVerbOf(s.words[0], 1);
    assert FirstValueVerb(s, 1, 1) == Some(0);
  }

  /** In that store the question about the first proverb offers "знає" as
      its own decoy: the candidates as written are exactly "знає", "має"
      and "сидить", so every question about it shows the correct verb
      twice, while the corrected candidates leave it out. */
  lemma SharedVerbOfferedTwice(groupDraws: seq<nat>, sampleDraws: seq<nat>, shuffleDraws: seq<nat>)
    ensures Valid(SharedVerbStore)
    ensures CorrectVerb(SharedVerbStore, 1) == Some(SharedVerbStore.words[0])
    ensures var c := SharedVerbStore.words[0];
            var cands := VerbCandidatesAsWritten(SharedVerbStore, 1, c);
            && cands == ["знає", "має", "сидить"]
            && multiset(VerbOptions(c.value, cands, groupDraws, sampleDraws, shuffleDraws).value)["знає"] >= 2
            && "знає" !in VerbCandidates(SharedVerbStore, 1, c)
  {
    var c := SharedVerbStore.words[0];
    SharedVerbStoreValid();
    SharedVerbCorrect();
    SharedVerbCandidates();
    var cands := ["знає", "має", "сидить"];
    CorrectOfferedTwice(c.value, cands, groupDraws, sampleDraws, shuffleDraws);
  }

  /** A verb question: the proverb, its correct verb and the four options. */
  datatype VerbQuestion = VerbQuestion(proverb: ProverbRef, correct: string, options: seq<string>)

  /** `process_category` of the verb quiz with the corrected candidates:
      `TypeError` for a missing category, `IndexError` when no proverb of
      the category has a verb, `ValueError` when the drawn proverb's verb
      has fewer than three decoys, and a question otherwise. The drawn
      proverb always has a verb, so its `select_one` always finds a row. */
  function AskVerb(s: Store, cat: int, choiceDraws: seq<nat>, groupDraws: seq<nat>,
                   sampleDraws: seq<nat>, shuffleDraws: seq<nat>): (r: Result<VerbQuestion>)
    ensures CategoryById(s, cat).None? ==> r == Failure(TypeError)
    ensures CategoryById(s, cat).Some? && |VerbProverbs(s, cat)| == 0 ==> r == Failure(IndexError)
    ensures r.Success? ==> r.value.proverb in VerbProverbs(s, cat)
    ensures r.Success? ==> exists w :: w in s.words && IsValueVerbOf(w, r.value.proverb.id) && w.value == r.value.correct
    ensures r.Success? ==> |r.value.options| == 4 && Seqs.NoDups(r.value.options)
    ensures r.Success? ==> multiset(r.value.options)[r.value.correct] == 1
    ensures CategoryById(s, cat).Some? && |VerbProverbs(s, cat)| > 0 ==>
              var q := Randomness.Choice(VerbProverbs(s, cat), choiceDraws).value;
              && CorrectVerb(s, q.id).Some?
              && var w := CorrectVerb(s, q.id).value;
                 && (r.Failure? <==> |VerbCandidates(s, q.id, w)| < DecoyLimit)
                 && (r.Failure? ==> r.error == ValueError)
                 && (r.Success? ==> r.value.proverb == q && r.value.correct == w.value)
  {
    if CategoryById(s, cat).None? then Failure(TypeError)
    else
      var chosen := Randomness.Choice(VerbProverbs(s, cat), choiceDraws);
      if chosen.Failure? then Failure(chosen.error)
      else
        var q := chosen.value;
        VerbProverbHasCorrectVerb(s, cat, q);
        var w := CorrectVerb(s, q.id).value;
        var cands := VerbCandidates(s, q.id, w);
        var options := VerbOptions(w.value, cands, groupDraws, sampleDraws, shuffleDraws);
        if options.Failure? then Failure(options.error)
        else
          VerbOptionsSound(w.value, cands, groupDraws, sampleDraws, shuffleDraws);
          Success(VerbQuestion(q, w.value, options.value))
  }

  /** Every proverb the verb quiz can ask about has a verb, so the
      `select_one` for it always finds a row. */
  lemma VerbProverbHasCorrectVerb(s: Store, cat: int, p: ProverbRef)
    requires p in VerbProverbs(s, cat)
    ensures CorrectVerb(s, p.id).Some?
  {
    assert VerbProverbOf(s, cat, |s.proverbs|, p);
  }
}

=== FILE: randomness.dfy ===
/** Python's `random` module as pure functions of an explicit stream of
    random numbers. Each draw `randbelow(n)` reads the next number of the
    stream modulo `n` (0 once the stream runs out), so every outcome the
    program can see is reached by some stream, and all properties are
    stated for every stream. */
module Randomness {
  import opened Wrappers
  import Seqs

  /** The `t`-th draw of `randbelow(n)`. */
  function Below(draws: seq<nat>, t: nat, n: nat): (r: nat)
    requires n > 0
    ensures r < n
  {
    if t < |draws| then draws[t] % n else 0
  }

  /** `random.choice(xs)`: raises `IndexError` on an empty sequence. */
  function Choice<T>(xs: seq<T>, draws: seq<nat>): (r: Result<T>)
    ensures r.Success? <==> |xs| > 0
    ensures r.Success? ==> r.value in xs
    ensures r.Failure? ==> r.error == IndexError
  {
    if |xs| == 0 then Failure(IndexError) else Success(xs[Below(draws, 0, |xs|)])
  }

  /** Swaps positions `i` and `j`. */
  function Swap<T>(xs: seq<T>, i: nat, j: nat): (r: seq<T>)
    requires i < |xs| && j < |xs|
    ensures |r| == |xs|
    ensures r[i] == xs[j] && r[j] == xs[i]
    ensures forall k :: 0 <= k < |xs| && k != i && k != j ==> r[k] == xs[k]
  {
    xs[i := xs[j]][j := xs[i]]
  }

  lemma SwapPermutes<T>(xs: seq<T>, i: nat, j: nat)
    requires i < |xs| && j < |xs|
    ensures multiset(Swap(xs, i, j)) == multiset(xs)
  {
  }

  /** The Fisher-Yates steps of `random.shuffle` for `i` = `top` down to 1:
      swap position `i` with a position drawn from `0..i`. */
  function ShuffleSteps<T>(xs: seq<T>, top: nat, draws: seq<nat>): (r: seq<T>)
    requires top < |xs|
    ensures |r| == |xs|
    decreases top
  {
    if top == 0 then xs
    else ShuffleSteps(Swap(xs, top, Below(draws, |xs| - 1 - top, top + 1)), top - 1, draws)
  }

  lemma {:induction false} ShuffleStepsPermutes<T>(xs: seq<T>, top: nat, draws: seq<nat>)
    requires top < |xs|
    ensures multiset(ShuffleSteps(xs, top, draws)) == multiset(xs)
    decreases top
  {
    if top > 0 {
      var j := Below(draws, |xs| - 1 - top, top + 1);
      SwapPermutes(xs, top, j);
      ShuffleStepsPermutes(Swap(xs, top, j), top - 1, draws);
    }
  }

  /** `random.shuffle(xs)`: the same elements in some order. */
  function Shuffle<T>(xs: seq<T>, draws: seq<nat>): (r: seq<T>)
    ensures |r| == |xs|
    ensures multiset(r) == multiset(xs)
  {
    if |xs| == 0 then xs
    else
      ShuffleStepsPermutes(xs, |xs| - 1, draws);
      ShuffleSteps(xs, |xs| - 1, draws)
  }

  /** The pool algorithm of `random.sample`: take a drawn element out of the
      pool, moving the last pool element into its place. */
  function SamplePool<T>(pool: seq<T>, k: nat, draws: seq<nat>, t: nat): (r: seq<T>)
    requires k <= |pool|
    ensures |r| == k
    ensures multiset(r) <= multiset(pool)
    decreases k
  {
    if k == 0 then []
    else
      var m := |pool|;
      var j := Below(draws, t, m);
      var rest := pool[j := pool[m - 1]][..m - 1];
      assert multiset(rest) + multiset{pool[j]} == multiset(pool) by {
        assert pool == pool[..m - 1] + [pool[m - 1]];
        if j < m - 1 {
          assert rest == pool[..m - 1][j := pool[m - 1]];
        }
      }
      [pool[j]] + SamplePool(rest, k - 1, draws, t + 1)
  }

  /** `random.sample(xs, k)`: `k` elements taken from distinct positions of
      `xs`; raises `ValueError` when `k` exceeds the population. */
  function Sample<T>(xs: seq<T>, k: nat, draws: seq<nat>): (r: Result<seq<T>>)
    ensures r.Success? <==> k <= |xs|
    ensures r.Failure? ==> r.error == ValueError
    ensures r.Success? ==> |r.value| == k && multiset(r.value) <= multiset(xs)
  {
    if k > |xs| then Failure(ValueError) else Success(SamplePool(xs, k, draws, 0))
  }

  /** Elements sampled from a duplicate-free population are pairwise distinct
      members of it. */
  lemma SampleOfDistinct<T>(xs: seq<T>, k: nat, draws: seq<nat>)
    requires Seqs.NoDups(xs) && k <= |xs|
    ensures Seqs.NoDups(Sample(xs, k, draws).value)
    ensures forall i :: 0 <= i < k ==> Sample(xs, k, draws).value[i] in xs
  {
    var r := Sample(xs, k, draws).value;
    forall x ensures multiset(r)[x] <= 1 {
      Seqs.MultiplicityBound(xs, x);
    }
    Seqs.MultiplicityBoundNoDups(r);
    forall i | 0 <= i < k ensures r[i] in xs {
      assert r[i] in multiset(r);
    }
  }

  /** `ORDER BY RANDOM() LIMIT n` over the rows `xs`: a random order, then
      the first `n` rows. */
  function RandomLimit<T>(xs: seq<T>, n: nat, draws: seq<nat>): (r: seq<T>)
    ensures |r| == if |xs| < n then |xs| else n
    ensures multiset(r) <= multiset(xs)
  {
    var shuffled := Shuffle(xs, draws);
    var m := if |xs| < n then |xs| else n;
    assert shuffled == shuffled[..m] + shuffled[m..];
    assert multiset(shuffled) == multiset(shuffled[..m]) + multiset(shuffled[m..]);
    shuffled[..m]
  }

  lemma SwapMap<T, U>(xs: seq<T>, f: T -> U, i: nat, j: nat)
    requires i < |xs| && j < |xs|
    ensures Seqs.Map(Swap(xs, i, j), f) == Swap(Seqs.Map(xs, f), i, j)
  {
  }

  lemma {:induction false} ShuffleStepsMap<T, U>(xs: seq<T>, f: T -> U, top: nat, draws: seq<nat>)
    requires top < |xs|
    ensures Seqs.Map(ShuffleSteps(xs, top, draws), f) == ShuffleSteps(Seqs.Map(xs, f), top, draws)
    decreases top
  {
    if top > 0 {
      var j := Below(draws, |xs| - 1 - top, top + 1);
      SwapMap(xs, f, top, j);
      ShuffleStepsMap(Swap(xs, top, j), f, top - 1, draws);
    }
  }

  /** The shuffle moves positions, whatever the elements are: mapping the
      elements before or after shuffling gives the same sequence. */
  lemma ShuffleMap<T, U>(xs: seq<T>, f: T -> U, draws: seq<nat>)
    ensures Seqs.Map(Shuffle(xs, draws), f) == Shuffle(Seqs.Map(xs, f), draws)
  {
    if |xs| > 0 {
      ShuffleStepsMap(xs, f, |xs| - 1, draws);
    }
  }
}

=== FILE: search.dfy ===
/** The filter engine (search.py): a filter value selects one of three
    queries by precedence, each query denotes a relation over the store,
    and a call returns one page of its DISTINCT (category, proverb,
    description) rows. Rows are produced in the table order of the driving
    table (usage rows for the lemma query, proverb rows otherwise); SQLite
    promises no order without ORDER BY, so the model fixes this one. */
module Search {
  import opened Wrappers
  import opened Store
  import Seqs
  import Text
  import SqlLike

  /** The `LIMIT 5` of every paged query. */
  const PageSize: int := 5

  /** `ProverbSearchResult`. */
  datatype SearchResult = SearchResult(category: string, proverb: string, description: string)

  /** A selected row `(c.name, p.value, p.description)`. */
  datatype Row = Row(categoryName: string, value: string, description: string)

  /** `ProverbsFilter`: every field may be left at `None`. */
  datatype ProverbsFilter = ProverbsFilter(lemmaValue: Option<string>, usageTypes: Option<seq<string>>,
                                           firstLetter: Option<string>, substring: Option<string>)

  /** Python truthiness of an optional string. */
  predicate Truthy(o: Option<string>) {
    o.Some? && o.value != ""
  }

  /** The query `get_query` builds, with its bound parameters. The lemma
      query keeps the usage types whose OR-clause it embeds. */
  datatype Query =
    | LemmaQuery(clause: string, usageTypes: seq<string>, lemmaValue: string, offset: int)
    | FirstLetterQuery(lower: string, upper: string, offset: int)
    | SubstringQuery(substring: string, offset: int)

  // ---------------------------------------------------------------------
  // The usage-type OR-clause
  // ---------------------------------------------------------------------

  /** One term of the OR-clause. */
  function Term(usageType: string): string {
    " lu.usage_type = '" + usageType + "' "
  }

  /** The text the loop accumulates: every term followed by `OR`. */
  function Accumulated(types: seq<string>): string {
    if |types| == 0 then ""
    else Accumulated(types[..|types| - 1]) + Term(types[|types| - 1]) + "OR"
  }

  /** Python's `s[:-2]`. */
  function DropLastTwo(s: string): string {
    if |s| < 2 then "" else s[..|s| - 2]
  }

  /** The OR-clause: the accumulated text without its trailing `OR`. */
  function UsageTypesClause(types: seq<string>): string {
    DropLastTwo(Accumulated(types))
  }

  function Terms(types: seq<string>): (r: seq<string>)
    ensures |r| == |types|
    ensures forall i :: 0 <= i < |types| ==> r[i] == Term(types[i])
  {
    seq(|types|, i requires 0 <= i < |types| => Term(types[i]))
  }

  lemma {:induction false} JoinSnoc(parts: seq<string>, x: string, sep: string)
    requires |parts| > 0
    ensures Text.Join(parts + [x], sep) == Text.Join(parts, sep) + sep + x
    decreases |parts|
  {
    if |parts| == 1 {
      assert (parts + [x])[1..] == [x];
    } else {
      assert (parts + [x])[1..] == parts[1..] + [x];
      JoinSnoc(parts[1..], x, sep);
    }
  }

  lemma {:induction false} AccumulatedIsJoinPlusOr(types: seq<string>)
    requires |types| > 0
    ensures Accumulated(types) == Text.Join(Terms(types), "OR") + "OR"
    decreases |types|
  {
    var n := |types|;
    var init := types[..n - 1];
    if n == 1 {
      assert Terms(types) == [Term(types[0])];
    } else {
      AccumulatedIsJoinPlusOr(init);
      assert Terms(types) == Terms(init) + [Term(types[n - 1])];
      JoinSnoc(Terms(init), Term(types[n - 1]), "OR");
    }
  }

  /** For n >= 1 usage types the clause is exactly the n terms separated by
      n - 1 `OR`s: the trailing `OR` is stripped; with none it is empty. */
  lemma UsageTypesClauseShape(types: seq<string>)
    ensures UsageTypesClause(types) == Text.Join(Terms(types), "OR")
    ensures UsageTypesClause(types) == "" <==> |types| == 0
  {
    if |types| > 0 {
      AccumulatedIsJoinPlusOr(types);
      var j := Text.Join(Terms(types), "OR");
      assert (j + "OR")[..|j + "OR"| - 2] == j;
      JoinNonEmpty(Terms(types));
    }
  }

  lemma {:induction false} JoinNonEmpty(parts: seq<string>)
    requires |parts| > 0 && |parts[0]| > 0
    ensures Text.Join(parts, "OR") != ""
  {
    if |parts| > 1 {
      assert |Text.Join(parts, "OR")| >= |parts[0]|;
    }
  }

  // ---------------------------------------------------------------------
  // get_query
  // ---------------------------------------------------------------------

  /** `ProverbsFilter.get_query(offset)`. `Success(None)` is the implicit
      `None` returned when no field is truthy; iterating absent usage
      types raises `TypeError`. */
  function GetQuery(f: ProverbsFilter, offset: int): (r: Result<Option<Query>>)
    ensures r.Failure? <==> Truthy(f.lemmaValue) && f.usageTypes.None?
    ensures r.Failure? ==> r.error == TypeError
    ensures r == Success(None) <==> !Truthy(f.lemmaValue) && !Truthy(f.firstLetter) && !Truthy(f.substring)
  {
    if Truthy(f.lemmaValue) then
      match f.usageTypes
      case None => Failure(TypeError)
      case Some(types) => Success(Some(LemmaQuery(UsageTypesClause(types), types, f.lemmaValue.value, offset)))
    else if Truthy(f.firstLetter) then
      Success(Some(FirstLetterQuery(Text.LowerStr(f.firstLetter.value), Text.UpperStr(f.firstLetter.value), offset)))
    else if Truthy(f.substring) then
      Success(Some(SubstringQuery(f.substring.value, offset)))
    else Success(None)
  }

  /** Precedence: a truthy lemma decides the query whatever the letter and
      substring fields hold; otherwise a truthy first letter decides it
      whatever the substring holds. */
  lemma GetQueryPrecedence(f: ProverbsFilter, g: ProverbsFilter, offset: int)
    ensures (Truthy(f.lemmaValue) && f.lemmaValue == g.lemmaValue && f.usageTypes == g.usageTypes)
            ==> GetQuery(f, offset) == GetQuery(g, offset)
    ensures (!Truthy(f.lemmaValue) && !Truthy(g.lemmaValue) && Truthy(f.firstLetter) && f.firstLetter == g.firstLetter)
            ==> GetQuery(f, offset) == GetQuery(g, offset)
    ensures (!Truthy(f.lemmaValue) && !Truthy(g.lemmaValue) && !Truthy(f.firstLetter) && !Truthy(g.firstLetter)
             && f.substring == g.substring)
            ==> GetQuery(f, offset) == GetQuery(g, offset)
  {
  }

  // ---------------------------------------------------------------------
  // The relation each query denotes
  // ---------------------------------------------------------------------

  /** `p JOIN category c ON p.category_id = c.id` yields `r`. */
  predicate ProverbYields(s: Store, p: Proverb, r: Row) {
    1 <= p.categoryId <= |s.categories|
    && r == Row(s.categories[p.categoryId - 1].name, p.value, p.description)
  }

  /** The usage row `u` joins, through its lemmaValue, proverb and category,
      into `r`, and passes the lemma query's WHERE clause. */
  predicate UsageYields(s: Store, u: LemmaUsage, lemmaValue: string, types: seq<string>, r: Row) {
    && u.usageType in types
    && 1 <= u.lemmaId <= |s.lemmas| && s.lemmas[u.lemmaId - 1].value == lemmaValue
    && 1 <= u.proverbId <= |s.proverbs| && ProverbYields(s, s.proverbs[u.proverbId - 1], r)
  }

  predicate LemmaMatch(s: Store, lemmaValue: string, types: seq<string>, r: Row) {
    exists i :: 0 <= i < |s.usages| && UsageYields(s, s.usages[i], lemmaValue, types, r)
  }

  /** `substr(value, 1, 1)`. */
  function FirstChar(v: string): string {
    if |v| == 0 then "" else v[..1]
  }

  predicate FirstLetterMatch(s: Store, lower: string, upper: string, r: Row) {
    exists i :: 0 <= i < |s.proverbs| && (FirstChar(s.proverbs[i].value) == lower || FirstChar(s.proverbs[i].value) == upper)
      && ProverbYields(s, s.proverbs[i], r)
  }

  predicate SubstringMatch(s: Store, q: string, r: Row) {
    exists i :: 0 <= i < |s.proverbs|
      && (SqlLike.Like(SqlLike.Surround(q), s.proverbs[i].value)
          || SqlLike.Like(SqlLike.Surround(q), s.proverbs[i].description))
      && ProverbYields(s, s.proverbs[i], r)
  }

  /** The relation a query denotes. */
  predicate Matches(s: Store, q: Query, r: Row) {
    match q
    case LemmaQuery(_, types, lemmaValue, _) => LemmaMatch(s, lemmaValue, types, r)
    case FirstLetterQuery(lower, upper, _) => FirstLetterMatch(s, lower, upper, r)
    case SubstringQuery(sub, _) => SubstringMatch(s, sub, r)
  }

  // ---------------------------------------------------------------------
  // Evaluation
  // ---------------------------------------------------------------------

  function CategoryRow(s: Store, p: Proverb): Option<Row> {
    match CategoryById(s, p.categoryId)
    case None => None
    case Some(c) => Some(Row(c.name, p.value, p.description))
  }

  function UsageRow(s: Store, lemmaValue: string, types: seq<string>, u: LemmaUsage): Option<Row> {
    if u.usageType !in types then None
    else match (LemmaById(s, u.lemmaId), ProverbById(s, u.proverbId))
      case (Some(l), Some(p)) => if l.value == lemmaValue then CategoryRow(s, p) else None
      case _ => None
  }

  function LetterRow(s: Store, lower: string, upper: string, p: Proverb): Option<Row> {
    if FirstChar(p.value) == lower || FirstChar(p.value) == upper then CategoryRow(s, p) else None
  }

  function SubstringRow(s: Store, q: string, p: Proverb): Option<Row> {
    if SqlLike.Like(SqlLike.Surround(q), p.value) || SqlLike.Like(SqlLike.Surround(q), p.description)
    then CategoryRow(s, p) else None
  }

  lemma CategoryRowYields(s: Store, p: Proverb, r: Row)
    ensures CategoryRow(s, p) == Some(r) <==> ProverbYields(s, p, r)
  {
  }

  /** The whole DISTINCT result of a query, before LIMIT and OFFSET. */
  function AllRows(s: Store, q: Query): seq<Row> {
    match q
    case LemmaQuery(_, types, lemmaValue, _) =>
      Seqs.Distinct(Seqs.Collect(s.usages, u => UsageRow(s, lemmaValue, types, u)))
    case FirstLetterQuery(lower, upper, _) =>
      Seqs.Distinct(Seqs.Collect(s.proverbs, p => LetterRow(s, lower, upper, p)))
    case SubstringQuery(sub, _) =>
      Seqs.Distinct(Seqs.Collect(s.proverbs, p => SubstringRow(s, sub, p)))
  }

  lemma UsageRowYields(s: Store, lemmaValue: string, types: seq<string>, u: LemmaUsage, r: Row)
    ensures UsageRow(s, lemmaValue, types, u) == Some(r) <==> UsageYields(s, u, lemmaValue, types, r)
  {
  }

  lemma LemmaRowsSound(s: Store, lemmaValue: string, types: seq<string>, r: Row)
    ensures r in Seqs.Distinct(Seqs.Collect(s.usages, u => UsageRow(s, lemmaValue, types, u)))
            <==> LemmaMatch(s, lemmaValue, types, r)
  {
    var f := u => UsageRow(s, lemmaValue, types, u);
    CollectMemberOf(s.usages, f, r);
    forall i | 0 <= i < |s.usages| ensures f(s.usages[i]) == Some(r) <==> UsageYields(s, s.usages[i], lemmaValue, types, r) {
      UsageRowYields(s, lemmaValue, types, s.usages[i], r);
    }
  }

  lemma LetterRowsSound(s: Store, lower: string, upper: string, r: Row)
    ensures r in Seqs.Distinct(Seqs.Collect(s.proverbs, p => LetterRow(s, lower, upper, p)))
            <==> FirstLetterMatch(s, lower, upper, r)
  {
    var f := p => LetterRow(s, lower, upper, p);
    CollectMemberOf(s.proverbs, f, r);
    forall i | 0 <= i < |s.proverbs|
      ensures f(s.proverbs[i]) == Some(r) <==>
                (FirstChar(s.proverbs[i].value) == lower || FirstChar(s.proverbs[i].value) == upper)
                && ProverbYields(s, s.proverbs[i], r)
    {
      CategoryRowYields(s, s.proverbs[i], r);
    }
  }

  lemma SubstringRowsSound(s: Store, q: string, r: Row)
    ensures r in Seqs.Distinct(Seqs.Collect(s.proverbs, p => SubstringRow(s, q, p)))
            <==> SubstringMatch(s, q, r)
  {
    var f := p => SubstringRow(s, q, p);
    CollectMemberOf(s.proverbs, f, r);
    forall i | 0 <= i < |s.proverbs|
      ensures f(s.proverbs[i]) == Some(r) <==>
                (SqlLike.Like(SqlLike.Surround(q), s.proverbs[i].value)
                 || SqlLike.Like(SqlLike.Surround(q), s.proverbs[i].description))
                && ProverbYields(s, s.proverbs[i], r)
    {
      CategoryRowYields(s, s.proverbs[i], r);
    }
  }

  /** The DISTINCT result holds each row of the query's relation exactly
      once and nothing else. */
  lemma AllRowsSound(s: Store, q: Query, r: Row)
    ensures r in AllRows(s, q) <==> Matches(s, q, r)
    ensures Seqs.NoDups(AllRows(s, q))
  {
    match q
    case LemmaQuery(_, types, lemmaValue, _) => LemmaRowsSound(s, lemmaValue, types, r);
    case FirstLetterQuery(lower, upper, _) => LetterRowsSound(s, lower, upper, r);
    case SubstringQuery(sub, _) => SubstringRowsSound(s, sub, r);
  }

  /** `search_proverbs(filter, db, offset)`: the page of the query's
      DISTINCT rows at `offset`, each row read into a result. A filter with
      no truthy field makes the unpacking of `None` raise `TypeError`, and
      an empty usage-type list leaves `WHERE () AND ...`, which SQLite
      rejects. */
  function SearchProverbs(f: ProverbsFilter, s: Store, offset: int): (r: Result<seq<SearchResult>>)
    ensures r.Failure? <==>
              || (Truthy(f.lemmaValue) && (f.usageTypes.None? || f.usageTypes == Some([])))
              || (!Truthy(f.lemmaValue) && !Truthy(f.firstLetter) && !Truthy(f.substring))
    ensures r.Failure? ==> (r.error == OperationalError <==> Truthy(f.lemmaValue) && f.usageTypes == Some([]))
    ensures r.Failure? ==> r.error == OperationalError || r.error == TypeError
    ensures r.Success? ==> |r.value| <= PageSize
  {
    match GetQuery(f, offset)
    case Failure(e) => Failure(e)
    case Success(None) => Failure(TypeError)
    case Success(Some(q)) =>
      UsageTypesClauseShape(if q.LemmaQuery? then q.usageTypes else []);
      if q.LemmaQuery? && q.clause == "" then Failure(OperationalError)
      else Success(ToResults(Db.LimitOffset(AllRows(s, q), PageSize, offset)))
  }

  /** One result per row, in row order, from columns 0, 1 and 2. */
  function ToResults(rows: seq<Row>): (r: seq<SearchResult>)
    ensures |r| == |rows|
    ensures forall i :: 0 <= i < |rows| ==>
              r[i] == SearchResult(rows[i].categoryName, rows[i].value, rows[i].description)
  {
    seq(|rows|, i requires 0 <= i < |rows| => SearchResult(rows[i].categoryName, rows[i].value, rows[i].description))
  }

  /** The offset changes only which page of the same rows a search
      returns: a search that succeeds at one offset succeeds at every
      other, over the same query relation. */
  lemma SearchAtAnyOffset(f: ProverbsFilter, s: Store, a: int, b: int)
    requires SearchProverbs(f, s, a).Success?
    ensures GetQuery(f, a).Success? && GetQuery(f, a).value.Some?
    ensures GetQuery(f, b).Success? && GetQuery(f, b).value.Some?
    ensures AllRows(s, GetQuery(f, b).value.value) == AllRows(s, GetQuery(f, a).value.value)
    ensures SearchProverbs(f, s, b)
            == Success(ToResults(Db.LimitOffset(AllRows(s, GetQuery(f, a).value.value), PageSize, b)))
  {
    if Truthy(f.lemmaValue) {
      UsageTypesClauseShape(f.usageTypes.value);
    }
  }

  /** Reading a page of rows is the page of the rows' readings. */
  lemma ResultsOfPage(rows: seq<Row>, offset: int)
    ensures ToResults(Db.LimitOffset(rows, PageSize, offset)) == Db.LimitOffset(ToResults(rows), PageSize, offset)
  {
    var a, b := ToResults(Db.LimitOffset(rows, PageSize, offset)), Db.LimitOffset(ToResults(rows), PageSize, offset);
    assert |a| == |b|;
    forall i | 0 <= i < |a| ensures a[i] == b[i] {
    }
  }

  /** `results` are distinct readings of rows of the query's relation. */
  predicate ResultsOf(s: Store, q: Query, results: seq<SearchResult>) {
    && Seqs.NoDups(results)
    && forall i :: 0 <= i < |results| ==>
         Matches(s, q, Row(results[i].category, results[i].proverb, results[i].description))
  }

  /** Every result of a page reads a row of the whole list, and a page of
      a duplicate-free list is duplicate-free. */
  lemma PageOfRows(all: seq<Row>, offset: int)
    ensures var r := ToResults(Db.LimitOffset(all, PageSize, offset));
            forall i :: 0 <= i < |r| ==> Row(r[i].category, r[i].proverb, r[i].description) in all
    ensures Seqs.NoDups(all) ==> Seqs.NoDups(ToResults(Db.LimitOffset(all, PageSize, offset)))
  {
    var page := Db.LimitOffset(all, PageSize, offset);
    var r := ToResults(page);
    var start := if offset < 0 then 0 else if offset > |all| then |all| else offset;
    forall i | 0 <= i < |r| ensures Row(r[i].category, r[i].proverb, r[i].description) in all {
      assert Row(r[i].category, r[i].proverb, r[i].description) == all[start + i];
    }
    if Seqs.NoDups(all) {
      forall i, j | 0 <= i < j < |r| ensures r[i] != r[j] {
        assert page[i] == all[start + i] && page[j] == all[start + j];
      }
    }
  }

  lemma PageSound(s: Store, q: Query, offset: int)
    ensures ResultsOf(s, q, ToResults(Db.LimitOffset(AllRows(s, q), PageSize, offset)))
  {
    var all := AllRows(s, q);
    var r := ToResults(Db.LimitOffset(all, PageSize, offset));
    PageOfRows(all, offset);
    AllRowsSound(s, q, Row("", "", ""));
    forall i | 0 <= i < |r| ensures Matches(s, q, Row(r[i].category, r[i].proverb, r[i].description)) {
      AllRowsSound(s, q, Row(r[i].category, r[i].proverb, r[i].description));
    }
  }

  /** The readings of all of the query's rows are distinct and each reads
      a matching row. */
  lemma AllRowsResults(s: Store, q: Query)
    ensures ResultsOf(s, q, ToResults(AllRows(s, q)))
  {
    var all := AllRows(s, q);
    var r := ToResults(all);
    AllRowsSound(s, q, Row("", "", ""));
    forall i, j | 0 <= i < j < |r| ensures r[i] != r[j] {
      assert all[i] != all[j];
    }
    forall i | 0 <= i < |r| ensures Matches(s, q, Row(r[i].category, r[i].proverb, r[i].description)) {
      assert Row(r[i].category, r[i].proverb, r[i].description) == all[i];
      AllRowsSound(s, q, all[i]);
    }
  }

  /** A successful search is a page of the query's DISTINCT rows: no two
      results alike, each the reading of a row in the query's relation. */
  lemma SearchProverbsSound(f: ProverbsFilter, s: Store, offset: int)
    requires SearchProverbs(f, s, offset).Success?
    ensures ResultsOf(s, GetQuery(f, offset).value.value, SearchProverbs(f, s, offset).value)
  {
    PageSound(s, GetQuery(f, offset).value.value, offset);
  }

  // ---------------------------------------------------------------------
  // Properties of the three relations
  // ---------------------------------------------------------------------

  /** Widening the usage types only adds matches. */
  lemma LemmaMatchMonotone(s: Store, lemmaValue: string, narrow: seq<string>, wide: seq<string>, r: Row)
    requires forall t :: t in narrow ==> t in wide
    requires LemmaMatch(s, lemmaValue, narrow, r)
    ensures LemmaMatch(s, lemmaValue, wide, r)
  {
    var i :| 0 <= i < |s.usages| && UsageYields(s, s.usages[i], lemmaValue, narrow, r);
    assert UsageYields(s, s.usages[i], lemmaValue, wide, r);
  }

  /** A lemma query over several usage types is the union of the queries
      over each type. */
  lemma LemmaMatchUnion(s: Store, lemmaValue: string, a: seq<string>, b: seq<string>, r: Row)
    ensures LemmaMatch(s, lemmaValue, a + b, r) <==> LemmaMatch(s, lemmaValue, a, r) || LemmaMatch(s, lemmaValue, b, r)
  {
    if LemmaMatch(s, lemmaValue, a + b, r) {
      var i :| 0 <= i < |s.usages| && UsageYields(s, s.usages[i], lemmaValue, a + b, r);
      if s.usages[i].usageType in a {
        assert UsageYields(s, s.usages[i], lemmaValue, a, r);
      } else {
        assert UsageYields(s, s.usages[i], lemmaValue, b, r);
      }
    }
    if LemmaMatch(s, lemmaValue, a, r) {
      LemmaMatchMonotone(s, lemmaValue, a, a + b, r);
    }
    if LemmaMatch(s, lemmaValue, b, r) {
      LemmaMatchMonotone(s, lemmaValue, b, a + b, r);
    }
  }

  /** The bot's two lemma searches: the proverb-only results are among the
      proverb-and-meaning results, and the latter are exactly the
      proverb-only results together with the meaning-only ones. */
  lemma ValueResultsWithinBoth(s: Store, lemmaValue: string, offset: int, r: Row)
    ensures var value := LemmaQuery(UsageTypesClause([VALUE]), [VALUE], lemmaValue, offset);
            var desc := LemmaQuery(UsageTypesClause([DESCRIPTION]), [DESCRIPTION], lemmaValue, offset);
            var both := LemmaQuery(UsageTypesClause([VALUE, DESCRIPTION]), [VALUE, DESCRIPTION], lemmaValue, offset);
            && (r in AllRows(s, value) ==> r in AllRows(s, both))
            && (r in AllRows(s, both) <==> r in AllRows(s, value) || r in AllRows(s, desc))
  {
    var value := LemmaQuery(UsageTypesClause([VALUE]), [VALUE], lemmaValue, offset);
    var desc := LemmaQuery(UsageTypesClause([DESCRIPTION]), [DESCRIPTION], lemmaValue, offset);
    var both := LemmaQuery(UsageTypesClause([VALUE, DESCRIPTION]), [VALUE, DESCRIPTION], lemmaValue, offset);
    AllRowsSound(s, value, r);
    AllRowsSound(s, desc, r);
    AllRowsSound(s, both, r);
    assert [VALUE, DESCRIPTION] == [VALUE] + [DESCRIPTION];
    LemmaMatchUnion(s, lemmaValue, [VALUE], [DESCRIPTION], r);
  }

  /** The first-letter filter matches both case forms of the letter, so two
      letters with the same lower-case form give identical searches: in
      particular a letter, its upper-case and its lower-case form. */
  lemma FirstLetterCaseInsensitive(s: Store, a: string, b: string, offset: int)
    requires Text.LowerStr(a) == Text.LowerStr(b)
    ensures SearchProverbs(ProverbsFilter(None, None, Some(a), None), s, offset)
         == SearchProverbs(ProverbsFilter(None, None, Some(b), None), s, offset)
  {
    Text.StrCaseMappingStable(a);
    Text.StrCaseMappingStable(b);
  }

  lemma FirstLetterEitherCase(s: Store, a: string, offset: int)
    ensures SearchProverbs(ProverbsFilter(None, None, Some(a), None), s, offset)
         == SearchProverbs(ProverbsFilter(None, None, Some(Text.UpperStr(a)), None), s, offset)
    ensures SearchProverbs(ProverbsFilter(None, None, Some(a), None), s, offset)
         == SearchProverbs(ProverbsFilter(None, None, Some(Text.LowerStr(a)), None), s, offset)
  {
    Text.StrCaseMappingStable(a);
    FirstLetterCaseInsensitive(s, a, Text.UpperStr(a), offset);
    FirstLetterCaseInsensitive(s, a, Text.LowerStr(a), offset);
  }

  /** For a query without `%` or `_`, a proverb matches the substring filter
      exactly when its value or its description contains the query, up to
      ASCII case. */
  lemma SubstringMatchIsContains(s: Store, q: string, r: Row)
    requires SqlLike.NoWildcards(q)
    ensures SubstringMatch(s, q, r) <==>
              exists i :: 0 <= i < |s.proverbs|
                && (Text.Contains(SqlLike.FoldStr(s.proverbs[i].value), SqlLike.FoldStr(q))
                    || Text.Contains(SqlLike.FoldStr(s.proverbs[i].description), SqlLike.FoldStr(q)))
                && ProverbYields(s, s.proverbs[i], r)
  {
    forall i | 0 <= i < |s.proverbs|
      ensures SqlLike.Like(SqlLike.Surround(q), s.proverbs[i].value)
              <==> Text.Contains(SqlLike.FoldStr(s.proverbs[i].value), SqlLike.FoldStr(q))
      ensures SqlLike.Like(SqlLike.Surround(q), s.proverbs[i].description)
              <==> Text.Contains(SqlLike.FoldStr(s.proverbs[i].description), SqlLike.FoldStr(q))
    {
      SqlLike.SurroundIsFoldedContains(q, s.proverbs[i].value);
      SqlLike.SurroundIsFoldedContains(q, s.proverbs[i].description);
    }
  }

  // ---------------------------------------------------------------------
  // search_lemmas_by_first_letter
  // ---------------------------------------------------------------------

  /** The usage row `u` has type `usageType` and its lemma starts with
      `first`; `v` is that lemma's value. */
  predicate LemmaListed(s: Store, u: LemmaUsage, usageType: string, first: string, v: string) {
    && u.usageType == usageType
    && 1 <= u.lemmaId <= |s.lemmas| && s.lemmas[u.lemmaId - 1].value == v
    && FirstChar(v) == first
  }

  function ListedValue(s: Store, usageType: string, first: string, u: LemmaUsage): Option<string> {
    match LemmaById(s, u.lemmaId)
    case None => None
    case Some(l) => if u.usageType == usageType && FirstChar(l.value) == first then Some(l.value) else None
  }

  /** `search_lemmas_by_first_letter(letter, usage_type, db)`. */
  function SearchLemmasByFirstLetter(s: Store, letter: string, usageType: string): (r: seq<string>)
    ensures Text.SortedStrings(r)
    ensures Seqs.NoDups(r)
  {
    var values := Seqs.Distinct(Seqs.Collect(s.usages, u => ListedValue(s, usageType, Text.LowerStr(letter), u)));
    var sorted := Text.SortStrings(values);
    Seqs.PermutationKeepsNoDups(values, sorted);
    sorted
  }

  /** The listing holds exactly the values of lemmas that start with the
      lower-cased letter and have a usage row of the requested type. */
  lemma SearchLemmasByFirstLetterSound(s: Store, letter: string, usageType: string, v: string)
    ensures v in SearchLemmasByFirstLetter(s, letter, usageType) <==>
              exists i :: 0 <= i < |s.usages| && LemmaListed(s, s.usages[i], usageType, Text.LowerStr(letter), v)
  {
    var first := Text.LowerStr(letter);
    var f := u => ListedValue(s, usageType, first, u);
    var values := Seqs.Distinct(Seqs.Collect(s.usages, f));
    SortedKeepsMembers(values, v);
    CollectMemberOf(s.usages, f, v);
    if v in values {
      var i :| 0 <= i < |s.usages| && f(s.usages[i]) == Some(v);
      ListedValueIff(s, usageType, first, s.usages[i], v);
    }
    if exists i :: 0 <= i < |s.usages| && LemmaListed(s, s.usages[i], usageType, first, v) {
      var i :| 0 <= i < |s.usages| && LemmaListed(s, s.usages[i], usageType, first, v);
      ListedValueIff(s, usageType, first, s.usages[i], v);
    }
  }

  lemma ListedValueIff(s: Store, usageType: string, first: string, u: LemmaUsage, v: string)
    ensures ListedValue(s, usageType, first, u) == Some(v) <==> LemmaListed(s, u, usageType, first, v)
  {
  }

  /** Membership in the DISTINCT defined results of `f`. */
  lemma CollectMemberOf<T, U>(xs: seq<T>, f: T -> Option<U>, y: U)
    ensures y in Seqs.Distinct(Seqs.Collect(xs, f)) <==> exists i :: 0 <= i < |xs| && f(xs[i]) == Some(y)
  {
    var c := Seqs.Collect(xs, f);
    var d := Seqs.Distinct(c);
    if y in d {
      var k :| 0 <= k < |d| && d[k] == y;
      var j :| 0 <= j < |c| && c[j] == y;
    }
    if exists i :: 0 <= i < |xs| && f(xs[i]) == Some(y) {
      var i :| 0 <= i < |xs| && f(xs[i]) == Some(y);
      var j :| 0 <= j < |c| && c[j] == y;
    }
  }

  lemma SortedKeepsMembers(values: seq<string>, v: string)
    ensures v in Text.SortStrings(values) <==> v in values
  {
    var sorted := Text.SortStrings(values);
    assert v in sorted <==> v in multiset(sorted);
    assert v in values <==> v in multiset(values);
  }
}

=== FILE: seqs.dfy ===
/** Sequence utilities: duplicate removal, occurrence counting, flattening,
    filtering. */
module Seqs {
  import opened Wrappers

  /** No element occurs twice. */
  predicate NoDups<T(==)>(xs: seq<T>) {
    forall i, j :: 0 <= i < j < |xs| ==> xs[i] != xs[j]
  }

  /** The elements of `xs` in order of first occurrence, each once. This is
      the iteration order the model fixes for a Python `set(xs)` and the row
      order of an SQL `SELECT DISTINCT`. */
  function Distinct<T(==)>(xs: seq<T>): (r: seq<T>)
    ensures NoDups(r)
    ensures forall i :: 0 <= i < |r| ==> r[i] in xs
    ensures forall i :: 0 <= i < |xs| ==> xs[i] in r
    ensures |r| <= |xs|
  {
    if |xs| == 0 then []
    else
      var init := xs[..|xs| - 1];
      assert xs == init + [xs[|xs| - 1]];
      var d := Distinct(init);
      if xs[|xs| - 1] in d then d else d + [xs[|xs| - 1]]
  }

  /** Distinct leaves a duplicate-free sequence alone. */
  lemma {:induction false} DistinctOfNoDups<T>(xs: seq<T>)
    requires NoDups(xs)
    ensures Distinct(xs) == xs
  {
    if |xs| > 0 {
      var init := xs[..|xs| - 1];
      DistinctOfNoDups(init);
      assert xs[|xs| - 1] !in init;
    }
  }

  /** Sum, over the listed keys, of their multiplicities in `m`. */
  function SumCounts<T>(keys: seq<T>, m: multiset<T>): nat {
    if |keys| == 0 then 0 else m[keys[0]] + SumCounts(keys[1..], m)
  }

  lemma {:induction false} SumCountsAddOne<T>(keys: seq<T>, m: multiset<T>, y: T)
    requires NoDups(keys)
    ensures SumCounts(keys, m + multiset{y}) == SumCounts(keys, m) + (if y in keys then 1 else 0)
  {
    if |keys| > 0 {
      SumCountsAddOne(keys[1..], m, y);
      if keys[0] == y {
        assert y !in keys[1..];
      }
    }
  }

  lemma {:induction false} SumCountsSnoc<T>(keys: seq<T>, y: T, m: multiset<T>)
    ensures SumCounts(keys + [y], m) == SumCounts(keys, m) + m[y]
  {
    if |keys| > 0 {
      assert (keys + [y])[1..] == keys[1..] + [y];
      SumCountsSnoc(keys[1..], y, m);
    }
  }

  /** Counting every distinct element of `xs` once, with its number of
      occurrences, accounts for every position of `xs`. */
  lemma {:induction false} SumCountsOfDistinct<T>(xs: seq<T>)
    ensures SumCounts(Distinct(xs), multiset(xs)) == |xs|
  {
    if |xs| > 0 {
      var init := xs[..|xs| - 1];
      var y := xs[|xs| - 1];
      assert xs == init + [y];
      assert multiset(xs) == multiset(init) + multiset{y};
      var d := Distinct(init);
      SumCountsOfDistinct(init);
      SumCountsAddOne(d, multiset(init), y);
      if y !in d {
        SumCountsSnoc(d, y, multiset(xs));
        assert y !in init;
        assert multiset(init)[y] == 0;
      }
    }
  }

  /** Concatenation of a sequence of sequences. */
  function Flatten<T>(xss: seq<seq<T>>): seq<T> {
    if |xss| == 0 then [] else xss[0] + Flatten(xss[1..])
  }

  lemma {:induction false} FlattenAppend<T>(a: seq<seq<T>>, b: seq<seq<T>>)
    ensures Flatten(a + b) == Flatten(a) + Flatten(b)
  {
    if |a| == 0 {
      assert a + b == b;
    } else {
      assert (a + b)[1..] == a[1..] + b;
      FlattenAppend(a[1..], b);
    }
  }

  /** A permutation of a duplicate-free sequence is duplicate-free. */
  lemma PermutationKeepsNoDups<T>(a: seq<T>, b: seq<T>)
    requires multiset(a) == multiset(b) && NoDups(a)
    ensures NoDups(b)
  {
    forall x ensures multiset(b)[x] <= 1 {
      MultiplicityBound(a, x);
    }
    MultiplicityBoundNoDups(b);
  }

  /** In a duplicate-free sequence every element occurs at most once. */
  lemma {:induction false} MultiplicityBound<T>(a: seq<T>, x: T)
    requires NoDups(a)
    ensures multiset(a)[x] <= 1
  {
    if |a| > 0 {
      assert a == [a[0]] + a[1..];
      MultiplicityBound(a[1..], x);
      if a[0] == x {
        assert x !in a[1..];
      }
    }
  }

  /** A sequence in which every element occurs at most once is duplicate-free. */
  lemma {:induction false} MultiplicityBoundNoDups<T>(a: seq<T>)
    requires forall x :: multiset(a)[x] <= 1
    ensures NoDups(a)
  {
    if |a| > 0 {
      assert a == [a[0]] + a[1..];
      assert multiset(a) == multiset{a[0]} + multiset(a[1..]);
      forall x ensures multiset(a[1..])[x] <= 1 {
        assert multiset(a)[x] <= 1;
      }
      MultiplicityBoundNoDups(a[1..]);
      assert multiset(a[1..])[a[0]] == 0 by {
        assert multiset(a)[a[0]] <= 1;
      }
      forall i, j | 0 <= i < j < |a| ensures a[i] != a[j] {
        if i > 0 {
          assert a[i] == a[1..][i - 1] && a[j] == a[1..][j - 1];
        } else {
          assert a[j] in multiset(a[1..]) by { assert a[j] == a[1..][j - 1]; }
        }
      }
    }
  }

  /** The defined results of `f` over `xs`, in order: the rows a query
      yields when each candidate row either produces an output row or is
      filtered out. */
  function Collect<T, U>(xs: seq<T>, f: T -> Option<U>): (r: seq<U>)
    ensures forall k :: 0 <= k < |r| ==> exists i :: 0 <= i < |xs| && f(xs[i]) == Some(r[k])
    ensures forall i :: 0 <= i < |xs| && f(xs[i]).Some? ==> f(xs[i]).value in r
  {
    if |xs| == 0 then []
    else
      var rest := Collect(xs[1..], f);
      assert forall i :: 1 <= i < |xs| ==> xs[i] == xs[1..][i - 1];
      match f(xs[0])
      case Some(y) => [y] + rest
      case None => rest
  }

  /** `f` applied to every element, in order. */
  function Map<T, U>(xs: seq<T>, f: T -> U): (r: seq<U>)
    ensures |r| == |xs|
    ensures forall i :: 0 <= i < |xs| ==> r[i] == f(xs[i])
  {
    seq(|xs|, i requires 0 <= i < |xs| => f(xs[i]))
  }

  /** A sub-multiset of a duplicate-free sequence is duplicate-free. */
  lemma SubMultisetKeepsNoDups<T>(a: seq<T>, b: seq<T>)
    requires multiset(a) <= multiset(b) && NoDups(b)
    ensures NoDups(a)
  {
    forall x ensures multiset(a)[x] <= 1 {
      MultiplicityBound(b, x);
    }
    MultiplicityBoundNoDups(a);
  }

  /** The elements of a duplicate-free sequence form a set of its length. */
  lemma {:induction false} NoDupsCard<T>(a: seq<T>)
    requires NoDups(a)
    ensures |set x | x in a| == |a|
  {
    if |a| > 0 {
      NoDupsCard(a[1..]);
      assert (set x | x in a) == {a[0]} + (set x | x in a[1..]);
      assert a[0] !in a[1..];
    } else {
      assert (set x | x in a) == {};
    }
  }

  /** A sequence has at least as many positions as distinct elements. */
  lemma {:induction false} SetCardBound<T>(a: seq<T>)
    ensures |set x | x in a| <= |a|
  {
    if |a| > 0 {
      SetCardBound(a[1..]);
      assert (set x | x in a) == {a[0]} + (set x | x in a[1..]);
    } else {
      assert (set x | x in a) == {};
    }
  }

  /** A duplicate-free sequence drawn from `b` is no longer than `b`. */
  lemma NoDupsInclusionLength<T>(a: seq<T>, b: seq<T>)
    requires NoDups(a)
    requires forall i :: 0 <= i < |a| ==> a[i] in b
    ensures |a| <= |b|
  {
    var sa := set x | x in a;
    var sb := set x | x in b;
    NoDupsCard(a);
    SetCardBound(b);
    assert sa <= sb;
    assert sb == sa + (sb - sa);
    assert |sb| == |sa| + |sb - sa|;
  }

  /** A sub-multiset of the same size is the whole multiset. */
  lemma SubMultisetSameSize<T>(a: seq<T>, b: seq<T>)
    requires multiset(a) <= multiset(b) && |a| == |b|
    ensures multiset(a) == multiset(b)
  {
    var d := multiset(b) - multiset(a);
    assert multiset(b) == multiset(a) + d;
    assert |multiset(b)| == |multiset(a)| + |d|;
    assert |d| == 0;
  }

  /** Appending `x` to one part appends it to the concatenation, up to
      order. */
  lemma FlattenUpdateSnoc<T>(xss: seq<seq<T>>, i: nat, x: T)
    requires i < |xss|
    ensures multiset(Flatten(xss[i := xss[i] + [x]])) == multiset(Flatten(xss)) + multiset{x}
  {
    var pre := xss[..i];
    var post := xss[i + 1..];
    assert xss == pre + [xss[i]] + post;
    assert xss[i := xss[i] + [x]] == pre + [xss[i] + [x]] + post;
    FlattenAppend(pre + [xss[i]], post);
    FlattenAppend(pre, [xss[i]]);
    FlattenAppend(pre + [xss[i] + [x]], post);
    FlattenAppend(pre, [xss[i] + [x]]);
    assert Flatten([xss[i]]) == xss[i];
    assert Flatten([xss[i] + [x]]) == xss[i] + [x];
  }

  lemma FlattenSnoc<T>(xss: seq<seq<T>>, y: seq<T>)
    ensures Flatten(xss + [y]) == Flatten(xss) + y
  {
    FlattenAppend(xss, [y]);
    assert Flatten([y]) == y;
  }

  /** A slice of a slice is a slice of the whole. */
  lemma SliceOfSlice<T>(s: seq<T>, a: nat, b: nat, c: nat, d: nat)
    requires a <= b <= |s| && c <= d <= b - a
    ensures s[a..b][c..d] == s[a + c..a + d]
  {
    var u, v := s[a..b][c..d], s[a + c..a + d];
    assert |u| == |v|;
    forall n | 0 <= n < |u| ensures u[n] == v[n] {
    }
  }

  /** Three pairwise different elements hold no duplicates. */
  lemma NoDupsOfThree<T>(a: T, b: T, c: T)
    requires a != b && a != c && b != c
    ensures NoDups([a, b, c])
  {
  }
}

=== FILE: sqllike.dfy ===
/** SQLite's `LIKE` operator without an `ESCAPE` clause: `%` matches any
    run of characters, `_` any single character, and every other character
    matches itself up to ASCII case (SQLite folds only ASCII letters by
    default). */
module SqlLike {
  import Text

  /** SQLite's ASCII-only case folding. */
  function FoldAscii(c: char): char {
    if 'A' <= c <= 'Z' then (c as int + 32) as char else c
  }

  function FoldStr(s: string): (r: string)
    ensures |r| == |s|
    ensures forall i :: 0 <= i < |s| ==> r[i] == FoldAscii(s[i])
  {
    seq(|s|, i requires 0 <= i < |s| => FoldAscii(s[i]))
  }

  predicate IsWildcard(c: char) {
    c == '%' || c == '_'
  }

  predicate NoWildcards(q: string) {
    forall i :: 0 <= i < |q| ==> !IsWildcard(q[i])
  }

  /** `s LIKE p`. */
  predicate Like(p: string, s: string)
    decreases |p|, |s|
  {
    if |p| == 0 then |s| == 0
    else if p[0] == '%' then Like(p[1..], s) || (|s| > 0 && Like(p, s[1..]))
    else if p[0] == '_' then |s| > 0 && Like(p[1..], s[1..])
    else |s| > 0 && FoldAscii(p[0]) == FoldAscii(s[0]) && Like(p[1..], s[1..])
  }

  /** The pattern `'%' || q || '%'` the substring filter builds. */
  function Surround(q: string): string {
    "%" + q + "%"
  }

  /** A lone `%` matches everything. */
  lemma {:induction false} PercentMatchesAll(t: string)
    ensures Like("%", t)
    decreases |t|
  {
    if |t| > 0 {
      PercentMatchesAll(t[1..]);
    }
  }

  /** A wildcard-free `q` followed by `%` matches exactly the strings that
      start with `q` up to ASCII case. */
  lemma {:induction false} LiteralThenPercent(q: string, t: string)
    requires NoWildcards(q)
    ensures Like(q + "%", t) <==> |q| <= |t| && FoldStr(q) == FoldStr(t[..|q|])
    decreases |q|
  {
    if |q| == 0 {
      PercentMatchesAll(t);
      assert q + "%" == "%";
    } else {
      assert (q + "%")[0] == q[0] && (q + "%")[1..] == q[1..] + "%";
      if |t| > 0 {
        LiteralThenPercent(q[1..], t[1..]);
        if |q| <= |t| {
          assert FoldStr(q) == [FoldAscii(q[0])] + FoldStr(q[1..]);
          assert t[..|q|][1..] == t[1..][..|q[1..]|];
          assert FoldStr(t[..|q|]) == [FoldAscii(t[0])] + FoldStr(t[1..][..|q[1..]|]);
        }
      }
    }
  }

  /** A leading `%` lets the rest of the pattern match any suffix. */
  lemma {:induction false} LeadingPercent(p: string, s: string)
    ensures Like("%" + p, s) <==> exists i :: 0 <= i <= |s| && Like(p, s[i..])
    decreases |s|
  {
    var pp := "%" + p;
    assert pp[0] == '%' && pp[1..] == p;
    if |s| == 0 {
      assert s[0..] == s;
    } else {
      LeadingPercent(p, s[1..]);
      if Like(pp, s) {
        if Like(p, s) {
          assert s[0..] == s;
        } else {
          var i :| 0 <= i <= |s[1..]| && Like(p, s[1..][i..]);
          assert s[1..][i..] == s[i + 1..];
        }
      }
      if exists i :: 0 <= i <= |s| && Like(p, s[i..]) {
        var i :| 0 <= i <= |s| && Like(p, s[i..]);
        if i == 0 {
          assert s[0..] == s;
        } else {
          assert s[1..][i - 1..] == s[i..];
        }
      }
    }
  }

  /** Folding commutes with taking a slice. */
  lemma FoldStrSlice(s: string, i: nat, n: nat)
    requires i + n <= |s|
    ensures FoldStr(s)[i..i + n] == FoldStr(s[i..][..n])
  {
    var u, v := FoldStr(s)[i..i + n], FoldStr(s[i..][..n]);
    forall k | 0 <= k < n ensures u[k] == v[k] {
      assert s[i..][..n][k] == s[i + k];
    }
  }

  lemma SurroundMatchIsContained(q: string, s: string)
    requires NoWildcards(q) && Like(Surround(q), s)
    ensures Text.Contains(FoldStr(s), FoldStr(q))
  {
    assert Surround(q) == "%" + (q + "%");
    LeadingPercent(q + "%", s);
    var i :| 0 <= i <= |s| && Like(q + "%", s[i..]);
    LiteralThenPercent(q, s[i..]);
    FoldStrSlice(s, i, |q|);
    assert Text.OccursAt(FoldStr(s), FoldStr(q), i);
  }

  lemma ContainedMatchesSurround(q: string, s: string)
    requires NoWildcards(q) && Text.Contains(FoldStr(s), FoldStr(q))
    ensures Like(Surround(q), s)
  {
    var fs, fq := FoldStr(s), FoldStr(q);
    var i :| 0 <= i <= |fs| && Text.OccursAt(fs, fq, i);
    var rest := s[i..];
    assert |q| <= |rest|;
    FoldStrSlice(s, i, |q|);
    assert fq == FoldStr(rest[..|q|]);
    var p := q + "%";
    LiteralThenPercent(q, rest);
    assert Like(p, rest);
    LeadingPercent(p, s);
    assert Surround(q) == "%" + p;
  }

  /** With no wildcard in the query, the substring filter's `LIKE` is
      containment after ASCII case folding of both sides. */
  lemma SurroundIsFoldedContains(q: string, s: string)
    requires NoWildcards(q)
    ensures Like(Surround(q), s) <==> Text.Contains(FoldStr(s), FoldStr(q))
  {
    if Like(Surround(q), s) {
      SurroundMatchIsContained(q, s);
    }
    if Text.Contains(FoldStr(s), FoldStr(q)) {
      ContainedMatchesSurround(q, s);
    }
  }

  /** A query of a single `_` is a wildcard: it matches every non-empty
      text, whatever it holds. */
  lemma UnderscoreMatchesAnyNonEmpty(s: string)
    ensures Like(Surround("_"), s) <==> |s| > 0
  {
    assert Surround("_") == "%" + "_%";
    LeadingPercent("_%", s);
    if |s| > 0 {
      assert ("_%")[0] == '_' && ("_%")[1..] == "%";
      PercentMatchesAll(s[1..]);
      assert s[0..] == s;
      assert Like("_%", s[0..]);
    } else {
      assert forall i :: 0 <= i <= |s| ==> s[i..] == "";
    }
  }
}

=== FILE: store.dfy ===
/** The tables the indexer writes and the readers query, held in memory in
    insertion order. The `id` of a category, proverb or lemma row is its
    SQLite rowid: in these insert-only tables, its position plus one. */
module Store {
  import opened Wrappers
  import opened Db

  /** The two usage sites a lemma or word is indexed under. */
  const VALUE: string := "VALUE"
  const DESCRIPTION: string := "DESCRIPTION"
  /** The part-of-speech tag that marks a finite verb. */
  const VERB: string := "VERB"

  datatype Category = Category(name: string)
  datatype Proverb = Proverb(value: string, description: string, categoryId: int)
  datatype Lemma = Lemma(value: string, pos: string)
  datatype LemmaUsage = LemmaUsage(lemmaId: int, proverbId: int, usageType: string, frequency: int)
  /** A row of the `word` table; the five grammatical columns are NULL
      unless the row was written as a verb. */
  datatype Word = Word(proverbId: int, usageType: string, value: string, pos: string,
                       aspect: SqlValue, number: SqlValue, person: SqlValue,
                       gender: SqlValue, tense: SqlValue)

  datatype Store = Store(categories: seq<Category>, proverbs: seq<Proverb>,
                         lemmas: seq<Lemma>, usages: seq<LemmaUsage>, words: seq<Word>)

  const EmptyStore: Store := Store([], [], [], [], [])

  /** The rowid of the row at index `i`. */
  function RowId(i: nat): int { i + 1 }

  /** `SELECT id FROM lemma WHERE value = ?`, first matching row. */
  function FindLemma(lemmas: seq<Lemma>, value: string): (r: Option<int>)
    ensures r.Some? ==> 1 <= r.value <= |lemmas| && lemmas[r.value - 1].value == value
    ensures r.Some? ==> forall i :: 0 <= i < r.value - 1 ==> lemmas[i].value != value
    ensures r.None? <==> forall i :: 0 <= i < |lemmas| ==> lemmas[i].value != value
  {
    if |lemmas| == 0 then None
    else
      var init := lemmas[..|lemmas| - 1];
      match FindLemma(init, value)
      case Some(id) => Some(id)
      case None =>
        if lemmas[|lemmas| - 1].value == value then Some(|lemmas|) else None
  }

  /** The category row `id` refers to, if any. */
  function CategoryById(s: Store, id: int): Option<Category> {
    if 1 <= id <= |s.categories| then Some(s.categories[id - 1]) else None
  }

  function ProverbById(s: Store, id: int): Option<Proverb> {
    if 1 <= id <= |s.proverbs| then Some(s.proverbs[id - 1]) else None
  }

  function LemmaById(s: Store, id: int): Option<Lemma> {
    if 1 <= id <= |s.lemmas| then Some(s.lemmas[id - 1]) else None
  }

  // ---------------------------------------------------------------------
  // Invariants the indexer maintains.
  // ---------------------------------------------------------------------

  /** No two lemma rows share a value. */
  predicate LemmaValuesUnique(lemmas: seq<Lemma>) {
    forall i, j :: 0 <= i < j < |lemmas| ==> lemmas[i].value != lemmas[j].value
  }

  /** Every stored id refers to an existing row. */
  predicate ReferencesResolve(s: Store) {
    && (forall i :: 0 <= i < |s.proverbs| ==> 1 <= s.proverbs[i].categoryId <= |s.categories|)
    && (forall i :: 0 <= i < |s.usages| ==>
          1 <= s.usages[i].lemmaId <= |s.lemmas| && 1 <= s.usages[i].proverbId <= |s.proverbs|)
    && (forall i :: 0 <= i < |s.words| ==> 1 <= s.words[i].proverbId <= |s.proverbs|)
  }

  /** A verb row has all five grammatical columns set; any other row has
      none of them. */
  predicate WordShape(w: Word) {
    if w.pos == VERB then
      w.aspect != Null && w.number != Null && w.person != Null && w.gender != Null && w.tense != Null
    else
      w.aspect == Null && w.number == Null && w.person == Null && w.gender == Null && w.tense == Null
  }

  /** Every usage row counts at least one occurrence. */
  predicate FrequenciesPositive(s: Store) {
    forall i :: 0 <= i < |s.usages| ==> s.usages[i].frequency >= 1
  }

  predicate Valid(s: Store) {
    && LemmaValuesUnique(s.lemmas)
    && ReferencesResolve(s)
    && FrequenciesPositive(s)
    && (forall i :: 0 <= i < |s.words| ==> WordShape(s.words[i]))
  }

  /** `s` is `t` with rows only appended. */
  predicate Extends(s: Store, t: Store) {
    && s.categories <= t.categories
    && s.proverbs <= t.proverbs
    && s.lemmas <= t.lemmas
    && s.usages <= t.usages
    && s.words <= t.words
  }

  lemma ExtendsTransitive(a: Store, b: Store, c: Store)
    requires Extends(a, b) && Extends(b, c)
    ensures Extends(a, c)
  {
  }
}

=== FILE: text.dfy ===
/** Strings as sequences of Unicode scalar values: case mapping, word
    characters, substring search, Python's `str.split` / `str.join`, and
    code-point order. */
module Text {
  import opened Wrappers
  import Seqs

  // ---------------------------------------------------------------------
  // Case mapping. Python's `str.lower()` / `str.upper()` follow the Unicode
  // tables; the model maps the Latin letters A-Z, the Cyrillic letters
  // U+0400..U+042F (upper) to U+0450..U+044F/U+045F (lower), and the
  // Ukrainian Ґ/ґ (U+0490/U+0491). Every other character is uncased.
  // ---------------------------------------------------------------------

  predicate IsUpper(c: char) {
    || ('A' <= c <= 'Z')
    || ('\U{0400}' <= c <= '\U{042F}')
    || c == '\U{0490}'
  }

  predicate IsLower(c: char) {
    || ('a' <= c <= 'z')
    || ('\U{0430}' <= c <= '\U{045F}')
    || c == '\U{0491}'
  }

  function Lower(c: char): (r: char)
    ensures !IsUpper(r)
    ensures IsUpper(c) <==> c != r
  {
    if 'A' <= c <= 'Z' then (c as int + 32) as char
    else if '\U{0410}' <= c <= '\U{042F}' then (c as int + 0x20) as char
    else if '\U{0400}' <= c <= '\U{040F}' then (c as int + 0x50) as char
    else if c == '\U{0490}' then '\U{0491}'
    else c
  }

  function Upper(c: char): (r: char)
    ensures !IsLower(r)
    ensures IsLower(c) <==> c != r
  {
    if 'a' <= c <= 'z' then (c as int - 32) as char
    else if '\U{0430}' <= c <= '\U{044F}' then (c as int - 0x20) as char
    else if '\U{0450}' <= c <= '\U{045F}' then (c as int - 0x50) as char
    else if c == '\U{0491}' then '\U{0490}'
    else c
  }

  /** The case mapping is a pairing: moving a character to the other case
      and back lands on the same lower- and upper-case forms. */
  lemma CaseMappingStable(c: char)
    ensures Lower(Upper(c)) == Lower(c)
    ensures Upper(Lower(c)) == Upper(c)
    ensures Upper(Upper(c)) == Upper(c)
    ensures Lower(Lower(c)) == Lower(c)
  {
  }

  /** `s.lower()` */
  function LowerStr(s: string): (r: string)
    ensures |r| == |s|
    ensures forall i :: 0 <= i < |s| ==> r[i] == Lower(s[i])
  {
    seq(|s|, i requires 0 <= i < |s| => Lower(s[i]))
  }

  /** `s.upper()` */
  function UpperStr(s: string): (r: string)
    ensures |r| == |s|
    ensures forall i :: 0 <= i < |s| ==> r[i] == Upper(s[i])
  {
    seq(|s|, i requires 0 <= i < |s| => Upper(s[i]))
  }

  lemma StrCaseMappingStable(s: string)
    ensures LowerStr(UpperStr(s)) == LowerStr(s)
    ensures UpperStr(LowerStr(s)) == UpperStr(s)
    ensures UpperStr(UpperStr(s)) == UpperStr(s)
    ensures LowerStr(LowerStr(s)) == LowerStr(s)
  {
    forall i | 0 <= i < |s| {
      CaseMappingStable(s[i]);
    }
  }

  // ---------------------------------------------------------------------
  // Word characters. The regular-expression class `[\W_]` matches every
  // character that is not a letter or digit; the model's letters and digits
  // are ASCII letters and digits and the Cyrillic letters of U+0400..U+04FF
  // (the signs and combining marks U+0482..U+0489 excluded).
  // ---------------------------------------------------------------------

  predicate IsAlnum(c: char) {
    || ('0' <= c <= '9')
    || ('A' <= c <= 'Z')
    || ('a' <= c <= 'z')
    || ('\U{0400}' <= c <= '\U{0481}')
    || ('\U{048A}' <= c <= '\U{04FF}')
  }

  /** Changing case never turns a letter into a non-letter or back. */
  lemma AlnumCaseInvariant(c: char)
    ensures IsAlnum(Lower(c)) == IsAlnum(c)
    ensures IsAlnum(Upper(c)) == IsAlnum(c)
  {
  }

  /** The characters of `s` that are letters or digits, in order. */
  function KeepAlnum(s: string): (r: string)
    ensures |r| <= |s|
    ensures forall i :: 0 <= i < |r| ==> IsAlnum(r[i])
  {
    if |s| == 0 then ""
    else (if IsAlnum(s[0]) then [s[0]] else "") + KeepAlnum(s[1..])
  }

  // ---------------------------------------------------------------------
  // Substrings.
  // ---------------------------------------------------------------------

  /** `sub` occurs in `s` starting at index `i`. */
  predicate OccursAt(s: string, sub: string, i: int) {
    0 <= i && i + |sub| <= |s| && s[i..i + |sub|] == sub
  }

  /** Python's `sub in s`. */
  predicate Contains(s: string, sub: string) {
    exists i :: 0 <= i <= |s| && OccursAt(s, sub, i)
  }

  /** An occurrence inside a prefix is an occurrence in the whole string. */
  lemma OccursInPrefix(s: string, sub: string, k: int, j: int)
    requires 0 <= k <= |s|
    requires OccursAt(s[..k], sub, j)
    ensures OccursAt(s, sub, j) && j + |sub| <= k
  {
    assert s[..k][j..j + |sub|] == s[j..j + |sub|];
  }

  /** The first occurrence of `sep` in `s` at or after index `i`
      (Python's `s.find(sep, i)`, with `None` for -1). */
  function FindFrom(s: string, sep: string, i: nat): (r: Option<nat>)
    requires i <= |s|
    ensures r.Some? ==> i <= r.value && OccursAt(s, sep, r.value)
    ensures r.Some? ==> forall j :: i <= j < r.value ==> !OccursAt(s, sep, j)
    ensures r.None? ==> forall j :: i <= j <= |s| ==> !OccursAt(s, sep, j)
    decreases |s| - i
  {
    if i + |sep| > |s| then None
    else if OccursAt(s, sep, i) then Some(i)
    else FindFrom(s, sep, i + 1)
  }

  lemma FindFromContains(s: string, sep: string)
    ensures FindFrom(s, sep, 0).Some? <==> Contains(s, sep)
  {
    if Contains(s, sep) {
      var j :| 0 <= j <= |s| && OccursAt(s, sep, j);
    }
  }

  /** Python's `sep.join(parts)`. */
  function Join(parts: seq<string>, sep: string): string {
    if |parts| == 0 then ""
    else if |parts| == 1 then parts[0]
    else parts[0] + sep + Join(parts[1..], sep)
  }

  /** Number of non-overlapping occurrences of `sep` in `s[i..]`, scanning
      left to right (Python's `s.count(sep, i)` for non-empty `sep`). */
  function CountFrom(s: string, sep: string, i: nat): nat
    requires |sep| > 0 && i <= |s|
    decreases |s| - i
  {
    if i + |sep| > |s| then 0
    else if OccursAt(s, sep, i) then 1 + CountFrom(s, sep, i + |sep|)
    else CountFrom(s, sep, i + 1)
  }

  /** Counting from `i` equals counting from the first occurrence. */
  lemma {:induction false} CountFromFind(s: string, sep: string, i: nat)
    requires |sep| > 0 && i <= |s|
    ensures FindFrom(s, sep, i).None? ==> CountFrom(s, sep, i) == 0
    ensures FindFrom(s, sep, i).Some? ==>
              CountFrom(s, sep, i) == 1 + CountFrom(s, sep, FindFrom(s, sep, i).value + |sep|)
    decreases |s| - i
  {
    if i + |sep| > |s| {
    } else if OccursAt(s, sep, i) {
    } else {
      CountFromFind(s, sep, i + 1);
    }
  }

  /** A slice that no occurrence of a non-empty `sep` starts in does not
      contain `sep`. */
  lemma NoOccurrenceInSlice(s: string, sep: string, i: nat, k: nat)
    requires |sep| > 0 && i <= k <= |s|
    requires forall j :: i <= j < k ==> !OccursAt(s, sep, j)
    ensures !Contains(s[i..k], sep)
  {
    if Contains(s[i..k], sep) {
      var t := s[i..k];
      var j :| 0 <= j <= |t| && OccursAt(t, sep, j);
      Seqs.SliceOfSlice(s, i, k, j, j + |sep|);
      assert OccursAt(s, sep, i + j);
    }
  }

  /** Python's `s[i:].split(sep)` for a non-empty `sep`. */
  function SplitFrom(s: string, sep: string, i: nat): (parts: seq<string>)
    requires |sep| > 0 && i <= |s|
    ensures |parts| == CountFrom(s, sep, i) + 1
    ensures forall k :: 0 <= k < |parts| ==> !Contains(parts[k], sep)
    ensures Join(parts, sep) == s[i..]
    decreases |s| - i
  {
    CountFromFind(s, sep, i);
    match FindFrom(s, sep, i)
    case None =>
      NoOccurrenceInSlice(s, sep, i, |s|);
      assert s[i..|s|] == s[i..];
      [s[i..]]
    case Some(k) =>
      var head := s[i..k];
      NoOccurrenceInSlice(s, sep, i, k);
      var rest := SplitFrom(s, sep, k + |sep|);
      assert s[i..] == head + sep + s[k + |sep|..] by {
        assert s[k..k + |sep|] == sep;
      }
      [head] + rest
  }

  /** Python's `s.split(sep)` for a non-empty `sep`: `k` occurrences of `sep`
      give `k + 1` parts, none containing `sep`, and joining them back with
      `sep` restores `s`. */
  function Split(s: string, sep: string): (parts: seq<string>)
    requires |sep| > 0
    ensures |parts| == CountFrom(s, sep, 0) + 1
    ensures forall k :: 0 <= k < |parts| ==> !Contains(parts[k], sep)
    ensures Join(parts, sep) == s
  {
    SplitFrom(s, sep, 0)
  }

  /** The text before the first occurrence of `sep` is `Split(s, sep)[0]`,
      and when `sep` occurs, the text after it begins `Split(s, sep)[1]`. */
  lemma SplitHeadIsPrefix(s: string, sep: string)
    requires |sep| > 0 && Contains(s, sep)
    ensures |Split(s, sep)| >= 2
    ensures var k := FindFrom(s, sep, 0).value;
            Split(s, sep)[0] == s[..k]
  {
    FindFromContains(s, sep);
    CountFromFind(s, sep, 0);
  }

  // ---------------------------------------------------------------------
  // Code-point order (SQLite's BINARY collation on UTF-8 text compares in
  // this order).
  // ---------------------------------------------------------------------

  /** `a` sorts before or equal to `b`. */
  predicate LexLe(a: string, b: string) {
    if |a| == 0 then true
    else if |b| == 0 then false
    else if a[0] < b[0] then true
    else if a[0] == b[0] then LexLe(a[1..], b[1..])
    else false
  }

  lemma {:induction false} LexLeTotal(a: string, b: string)
    ensures LexLe(a, b) || LexLe(b, a)
  {
    if |a| > 0 && |b| > 0 && a[0] == b[0] {
      LexLeTotal(a[1..], b[1..]);
    }
  }

  lemma {:induction false} LexLeTransitive(a: string, b: string, c: string)
    requires LexLe(a, b) && LexLe(b, c)
    ensures LexLe(a, c)
  {
    if |a| > 0 && |b| > 0 && |c| > 0 && a[0] == b[0] && b[0] == c[0] {
      LexLeTransitive(a[1..], b[1..], c[1..]);
    }
  }

  lemma {:induction false} LexLeAntisymmetric(a: string, b: string)
    requires LexLe(a, b) && LexLe(b, a)
    ensures a == b
  {
    if |a| > 0 && |b| > 0 {
      LexLeAntisymmetric(a[1..], b[1..]);
      assert a == [a[0]] + a[1..] && b == [b[0]] + b[1..];
    }
  }

  /** Ascending in code-point order. */
  predicate SortedStrings(s: seq<string>) {
    forall i, j :: 0 <= i < j < |s| ==> LexLe(s[i], s[j])
  }

  /** Inserts `x` into an ascending sequence before the first element it
      does not exceed. */
  function InsertSorted(x: string, s: seq<string>): (r: seq<string>)
    requires SortedStrings(s)
    ensures SortedStrings(r)
    ensures multiset(r) == multiset(s) + multiset{x}
  {
    if |s| == 0 then [x]
    else if LexLe(x, s[0]) then
      InsertFront(x, s);
      [x] + s
    else
      var rest := InsertSorted(x, s[1..]);
      InsertBehind(x, s, rest);
      [s[0]] + rest
  }

  lemma InsertFront(x: string, s: seq<string>)
    requires SortedStrings(s) && |s| > 0 && LexLe(x, s[0])
    ensures SortedStrings([x] + s)
  {
    forall j | 0 <= j < |s| ensures LexLe(x, s[j]) {
      if j > 0 { LexLeTransitive(x, s[0], s[j]); }
    }
    var r := [x] + s;
    forall i, j | 0 <= i < j < |r| ensures LexLe(r[i], r[j]) {
      if i > 0 { assert r[i] == s[i - 1] && r[j] == s[j - 1]; }
      else { assert r[j] == s[j - 1]; }
    }
  }

  lemma InsertBehind(x: string, s: seq<string>, rest: seq<string>)
    requires SortedStrings(s) && |s| > 0 && !LexLe(x, s[0])
    requires SortedStrings(rest)
    requires multiset(rest) == multiset(s[1..]) + multiset{x}
    ensures SortedStrings([s[0]] + rest)
    ensures multiset([s[0]] + rest) == multiset(s) + multiset{x}
  {
    forall k | 0 <= k < |rest| ensures LexLe(s[0], rest[k]) {
      assert rest[k] in multiset(rest);
      if rest[k] == x {
        LexLeTotal(x, s[0]);
      } else {
        assert rest[k] in multiset(s[1..]);
        var m :| 0 <= m < |s[1..]| && s[1..][m] == rest[k];
        assert s[m + 1] == rest[k];
      }
    }
    var r := [s[0]] + rest;
    forall i, j | 0 <= i < j < |r| ensures LexLe(r[i], r[j]) {
      if i > 0 { assert r[i] == rest[i - 1] && r[j] == rest[j - 1]; }
      else { assert r[j] == rest[j - 1]; }
    }
    assert s == [s[0]] + s[1..];
  }

  /** Insertion sort in code-point order (an `ORDER BY` on a text column):
      the result is ascending and a permutation of the input. */
  function SortStrings(s: seq<string>): (r: seq<string>)
    ensures SortedStrings(r)
    ensures multiset(r) == multiset(s)
  {
    if |s| == 0 then []
    else
      assert s == [s[0]] + s[1..];
      InsertSorted(s[0], SortStrings(s[1..]))
  }
}

=== FILE: wrappers.dfy ===
/** Failure-carrying result types shared by every module of the model.
    Python exceptions raised by the modelled code become `Failure` values. */
module Wrappers {

  datatype Option<+T> = None | Some(value: T)

  /** The Python exception class a failing operation raises. */
  datatype PyError =
    | TypeError        // e.g. unpacking `None`, iterating `None`
    | ValueError       // e.g. `random.sample` with too small a population
    | IndexError       // e.g. `random.choice` on an empty list
    | OperationalError // SQLite rejects a malformed statement

  datatype Result<+T> = Success(value: T) | Failure(error: PyError)
}
